=== FILE: README.md ===
# FlashNote, modelled in Dafny

FlashNote is an iOS app for capturing short notes quickly. A capture goes
first into the hot-capture buffer: an append-only file with one encoded
entry per line. On the next launch the buffer is flushed into the note store
in four steps: read, insert one note per entry, clear the buffer, save.
Notes then move through their lifecycle:

- triage;
- the inbox, with its date sections, search and swipe actions;
- the detail editor;
- capture with merge and task suggestions;
- export;
- the settings screen.

Notes are also resurfaced later by spaced-repetition notifications. Those
notifications respect quiet hours and a daily cap.

This project models that core:

- every entity whose fields the app updates is a class: `Note`, the model
  context, the buffer file, the notification centre, `UserDefaults` and
  each view model;
- every pure helper is a function;
- every loop is a method proved against a function that specifies it.

What is proved:

- The buffer codec round-trips: `parse(serialise(e)) == Some(e)`, and the
  serialised form never holds a line feed or other control character.
- `readAll` as written splits the file at every newline character, U+0085,
  U+2028 and U+2029 included, which JSON leaves unescaped. Appending
  e1..en whose strings hold none of those three and reading gives back
  e1..en, in order. An entry whose text holds U+2028 is lost (see
  "## Findings"); splitting at the line feed `append` writes reads every
  appended entry back.
- The flush keeps the app's order, read, insert, clear, save. This includes
  the window where a save fails after a successful clear.
- The resurfacing dates follow the app's literal quiet-hours test. For
  quiet hours that do not wrap past midnight, that test shifts every date.
- Triage undo restores what the action changed.
- The inbox sections partition the notes.
- The checklist text round-trips through its items.
- The duration display reads back as whole seconds.
- Smaller properties: the task-keyword matcher ignores case and respects
  word boundaries; the streak counts every consecutive day back from today;
  exported text holds every note's text verbatim.

Conventions:

- Time is integer seconds in one fixed time zone without daylight saving,
  in `clock.dfy`.
- Anything that can fail is a parameter or a nondeterministic outcome of
  the method that performs it: reading and clearing the buffer file, saving
  or fetching from the context, adding a notification request.
- The current time (`now`) and the locale's date formatters (`stamp`,
  `timeAgo`) are parameters.

## Model

| member | source | states |
|---|---|---|
| BufferEntries.BufferEntry.Source | FlashNoteCore/Sources/FlashNoteCore/Services/HotCaptureBuffer/BufferEntry.swift:10-12 | a known raw value reads back as the case it names; an unknown one reads as keyboard |
| BufferEntries.CappedText | FlashNoteCore/Sources/FlashNoteCore/Services/HotCaptureBuffer/BufferEntry.swift:23-27 | text of at most 50 000 characters is kept as is; longer text becomes its first 50 000 characters followed by the truncation marker |
| BufferEntries.MakeEntry | FlashNoteCore/Sources/FlashNoteCore/Services/HotCaptureBuffer/BufferEntry.swift:17-31 | the new entry holds the given id and capture time, the capped text, the source's raw value (which reads back as that source) and the audio file name as given |
| BufferEntries.CappedLength | FlashNoteCore/Sources/FlashNoteCore/Services/HotCaptureBuffer/BufferEntry.swift:23-24 | a cut text is exactly 50 016 characters, so the stored text is shorter than the input exactly when the input exceeds 50 016 characters |
| BufferSync.NoteFor | FlashNoteApp/Services/BufferSyncService.swift:21-26 | the note made for an entry is new, carries the entry's text, source and audio file name, is dated at the capture time, and starts active, untriaged, unpinned and not a task |
| BufferSync.InsertOne | FlashNoteApp/Services/BufferSyncService.swift:21-27 | one loop turn: a new note for the entry joins the end of the context's pending inserts |
| BufferSync.InsertAll | FlashNoteApp/Services/BufferSyncService.swift:20-28 | the loop inserts one new note per entry, in read order, appended to the pending inserts; nothing compares ids, so replaying the same entries inserts new notes again |
| BufferSync.ClearThenSave | FlashNoteApp/Services/BufferSyncService.swift:30-47 | the buffer is cleared before the save: a failed clear stops with the buffer and the context untouched; a failed save leaves the buffer empty and the inserts unsaved; a successful save makes them records |
| BufferSync.Flush | FlashNoteApp/Services/BufferSyncService.swift:6-48 | a failed read or an empty buffer changes nothing; otherwise one note per entry `readAll` returns as written (split at every newline character) is inserted in order, then the outcome of the clear and of the save decide, as written, whether the buffer still holds the entries and whether the notes are saved |
| BufferSync.FromEntry | FlashNoteApp/Services/BufferSyncService.swift:21-26 | the note made for an entry: the entry's text, source, audio file name and capture time as creation time, active, never resurfaced, untriaged, not a task and not pinned |
| Capture.RestoredDraft | FlashNoteApp/Features/Capture/CaptureViewModel.swift:29-31 | a stored non-empty string under the draft key is restored as the text; a missing key, a value that is not a string or an empty string restores nothing |
| Capture.MergeCandidate | FlashNoteApp/Features/Capture/CaptureViewModel.swift:163-176 | a candidate exists exactly when there are at least two non-deleted notes and the current note was created less than 120 seconds after the second newest of them, and then it is that note: a stored non-deleted note with at most one non-deleted note newer than it |
| Capture.MergeCanPairNoteWithItself | FlashNoteApp/Features/Capture/CaptureViewModel.swift:170-179 | when a non-deleted note is dated after the one just saved, the merge candidate is the saved note itself, since the code assumes the newest note is the current one |
| Capture.InsertAndSave | FlashNoteApp/Features/Capture/CaptureViewModel.swift:68-72 | the inserted note and the earlier pending inserts become records when the save succeeds; when it fails the note is deleted again and the context is as it was |
| Capture.CreateAndSave | FlashNoteApp/Features/Capture/CaptureViewModel.swift:68-72 | a new note with the given id, trimmed text, source, audio fields and creation time, active and never resurfaced, inserted and saved, or deleted again when the save fails |
| Capture.CaptureViewModel.constructor | FlashNoteApp/Features/Capture/CaptureViewModel.swift:26-32 | the text starts as the restored draft, every flag is off and no note is remembered for a task suggestion or a merge |
| Capture.CaptureViewModel.CanSave | FlashNoteApp/Features/Capture/CaptureViewModel.swift:34-36 | saving is possible exactly when the text is not blank once whitespace and newlines are trimmed |
| Capture.CaptureViewModel.SaveDraft | FlashNoteApp/Features/Capture/CaptureViewModel.swift:49-56 | a blank text removes the draft key; otherwise the untrimmed text is stored under it, and no other key changes |
| Capture.CaptureViewModel.ClearDraft | FlashNoteApp/Features/Capture/CaptureViewModel.swift:58-60 | the draft key is removed and no other key changes |
| Capture.CaptureViewModel.CheckForMerge | FlashNoteApp/Features/Capture/CaptureViewModel.swift:163-190 | the merge prompt is armed with the current note and the merge candidate when there is one; otherwise the remembered pair stays as it was |
| Capture.CaptureViewModel.Save | FlashNoteApp/Features/Capture/CaptureViewModel.swift:64-102 | a blank text changes nothing; otherwise a keyboard note with the trimmed text is created; a failed save leaves the context, the screen, the reminders and the draft as they were and asks for no reminder; a successful save stores the note, shows the confirmation, empties the text, clears the draft, remembers the note exactly when it looks like a task, arms the merge prompt only with the merge candidate, and asks for the note's reminder with the quiet-hours and cap settings read before the save, with the scheduling outcome stated by `Scheduled` |
| Capture.CaptureViewModel.AfterSave | FlashNoteApp/Features/Capture/CaptureViewModel.swift:73-97 | after a successful save: the reminder is asked for, with exactly the outcome `Scheduled` states for that note and the settings as they were; the confirmation shows, the text and the draft are cleared, the note is remembered exactly when it looks like a task, and the merge prompt is armed only with the merge candidate |
| Capture.CaptureViewModel.Settle | FlashNoteApp/Features/Capture/CaptureViewModel.swift:75-97 | the steps after scheduling: the confirmation shows, the text and only the draft key are cleared, a task-like note is remembered and any other leaves the remembered note, and the merge prompt is armed only with the merge candidate |
| Capture.CaptureViewModel.SaveTranscript | FlashNoteApp/Features/Capture/CaptureViewModel.swift:114-136 | a voice note with the trimmed transcript, the audio file name, duration and confidence is created; a failed save changes nothing else and asks for no reminder; a successful save stores it, shows the confirmation and asks for its reminder with the outcome `Scheduled` states |
| Capture.CaptureViewModel.SaveVoiceNote | FlashNoteApp/Features/Capture/CaptureViewModel.swift:104-137 | a blank transcript changes nothing; otherwise as a typed save but with source voice and the audio fields, with the reminder outcome `Scheduled` states, and without clearing the text, the draft, the task suggestion or the merge check |
| Capture.CaptureViewModel.HandlePrefill | FlashNoteApp/Features/Capture/CaptureViewModel.swift:139-142 | a present non-empty prefill replaces the text; a missing or empty one leaves it |
| Capture.CaptureViewModel.MarkAsTask | FlashNoteApp/Features/Capture/CaptureViewModel.swift:146-159 | with no remembered note nothing is saved; otherwise that note becomes a task, with status task and the current update time, its triage flag and every field other than status, task flag and update time kept, and the context saved or kept; the remembered note is forgotten in both cases |
| Capture.CaptureViewModel.MergeWithPrevious | FlashNoteApp/Features/Capture/CaptureViewModel.swift:192-212 | unless both halves of the pair are remembered nothing changes, the pair included; otherwise the previous note's text gains a blank line and the current note's text, both notes are dated now, the current note is deleted and keeps its text when it is another note, no other field of either note changes, its reminders are cancelled, the context is saved or kept, and the pair is forgotten |
| Capture.CaptureViewModel.DismissMerge | FlashNoteApp/Features/Capture/CaptureViewModel.swift:214-217 | the remembered merge pair is forgotten |
| Capture.FoldInto | FlashNoteApp/Features/Capture/CaptureViewModel.swift:193-198 | the previous note's text gains a blank line and the current note's text, both are dated now, the current note is deleted, and every other field of both notes stays |
| Capture.DraftRoundTrip | FlashNoteApp/Features/Capture/CaptureViewModel.swift:26-56 | a draft saved from a saveable text comes back unchanged when the screen is created again; a blank text's draft comes back empty |
| CaptureSources.FromRaw | FlashNoteCore/Sources/FlashNoteCore/Models/CaptureSource.swift:3-9 | a raw string names a source exactly when it is that source's case name |
| CaptureSources.FromRawOrKeyboard | FlashNoteCore/Sources/FlashNoteCore/Models/CaptureSource.swift:3-9 | a known raw value reads as its source; any other string reads as keyboard |
| CaptureSources.DisplayName | FlashNoteCore/Sources/FlashNoteCore/Models/CaptureSource.swift:11-20 | every source has a non-empty display name |
| CaptureSources.IconName | FlashNoteCore/Sources/FlashNoteCore/Models/CaptureSource.swift:22-31 | every source has a non-empty icon name |
| CaptureSources.CasesComplete | FlashNoteCore/Sources/FlashNoteCore/Models/CaptureSource.swift:3-9 | the six cases are all listed, and no two share a raw value or a display name |
| CaptureSources.RawRoundTrip | FlashNoteCore/Sources/FlashNoteCore/Models/CaptureSource.swift:3-9 | every source reads back from its raw value, and the empty string names no source |
| CaptureStreak.DaysOf | FlashNoteCore/Sources/FlashNoteCore/Services/CaptureStreakService.swift:16-20 | the set holds the start of the day of every note and only day starts |
| CaptureStreak.DayOfSomeNote | FlashNoteCore/Sources/FlashNoteCore/Services/CaptureStreakService.swift:16-20 | every day in the set is the day of some note |
| CaptureStreak.Run | FlashNoteCore/Sources/FlashNoteCore/Services/CaptureStreakService.swift:30-38 | a run of consecutive days back from a day never exceeds its bound and is non-empty only when that day has a note |
| CaptureStreak.Streak | FlashNoteCore/Sources/FlashNoteCore/Services/CaptureStreakService.swift:22-40 | the streak is at most the number of days with notes, and it is positive exactly when today has a note and no note is dated after today |
| CaptureStreak.CollectDays | FlashNoteCore/Sources/FlashNoteCore/Services/CaptureStreakService.swift:17-20 | the loop collects exactly the days of the notes |
| CaptureStreak.SortDays | FlashNoteCore/Sources/FlashNoteCore/Services/CaptureStreakService.swift:22 | the days sorted newest first, strictly descending, holding exactly the days of the set |
| CaptureStreak.RunOfSorted | FlashNoteCore/Sources/FlashNoteCore/Services/CaptureStreakService.swift:30-38 | walking the sorted days while each equals today minus its index counts exactly the run of consecutive days back from today |
| CaptureStreak.GapMeansMissing | FlashNoteCore/Sources/FlashNoteCore/Services/CaptureStreakService.swift:33-37 | when the walk stops at a day that is not the expected one, the expected day has no note |
| CaptureStreak.StreakOf | FlashNoteCore/Sources/FlashNoteCore/Services/CaptureStreakService.swift:22-40 | the walk over the sorted days returns exactly the streak of the day set |
| CaptureStreak.CurrentStreak | FlashNoteCore/Sources/FlashNoteCore/Services/CaptureStreakService.swift:6-41 | a successful fetch gives exactly the streak of the non-deleted notes' days counted back from the start of today; a failed fetch gives zero |
| CaptureStreak.StreakOfNotes | FlashNoteCore/Sources/FlashNoteCore/Services/CaptureStreakService.swift:16-40 | the streak computed from a list of notes is the streak of their days |
| CaptureStreak.SameDays | FlashNoteCore/Sources/FlashNoteCore/Services/CaptureStreakService.swift:14-20 | notes fetched in another order give the same set of days |
| CaptureStreak.TodayCounts | FlashNoteCore/Sources/FlashNoteCore/Services/CaptureStreakService.swift:27-30 | a note today with none dated later gives a streak of at least one |
| CaptureStreak.RunMonotone | FlashNoteCore/Sources/FlashNoteCore/Services/CaptureStreakService.swift:30-38 | removing days never lengthens a run |
| Checklist.Entries | FlashNoteApp/Features/Capture/Components/ChecklistEditor.swift:8-12 | one entry per item, in order, holding that item's content and checkbox |
| Checklist.ParseLine | FlashNoteApp/Features/Capture/Components/ChecklistEditor.swift:136-153 | a line yields no item exactly when it is blank once spaces and tabs are trimmed |
| Checklist.ParseLines | FlashNoteApp/Features/Capture/Components/ChecklistEditor.swift:135-153 | parsing keeps at most one item per line |
| Checklist.Kept | FlashNoteApp/Features/Capture/Components/ChecklistEditor.swift:158 | a single item is kept whatever its content; otherwise exactly the items with content are kept, in order with their repetitions (see `WithContentConcat`), and a list whose items all have content is kept whole |
| Checklist.WithContent | FlashNoteApp/Features/Capture/Components/ChecklistEditor.swift:158 | the filter keeps only items with non-empty content, every such item, and changes nothing when every item has content |
| Checklist.WithContentSingle | FlashNoteApp/Features/Capture/Components/ChecklistEditor.swift:158 | one item is kept exactly when its content is not empty |
| Checklist.WithContentConcat | FlashNoteApp/Features/Capture/Components/ChecklistEditor.swift:158 | the filter works piecewise on a concatenation, so it keeps the order and the repetitions of the kept items |
| Checklist.LinesOf | FlashNoteApp/Features/Capture/Components/ChecklistEditor.swift:159-162 | one "- [x] " or "- [ ] " line per item, in order |
| Checklist.LineRoundTrip | FlashNoteApp/Features/Capture/Components/ChecklistEditor.swift:133-162 | a written line of an item whose content survives parses back to that item's content and checkbox |
| Checklist.LineTrimmed | FlashNoteApp/Features/Capture/Components/ChecklistEditor.swift:137 | trimming spaces and tabs leaves a written line of surviving content unchanged |
| Checklist.LinesRoundTrip | FlashNoteApp/Features/Capture/Components/ChecklistEditor.swift:135-162 | parsing the written lines of items with surviving contents gives back their entries, in order |
| Checklist.RoundTrip | FlashNoteApp/Features/Capture/Components/ChecklistEditor.swift:133-164 | serializing a non-empty list of items with surviving contents and parsing the text again gives back every item's content and checkbox, in order |
| Checklist.ParsedText | FlashNoteApp/Features/Capture/Components/ChecklistEditor.swift:133-153 | empty text leaves the items alone; otherwise the items are the parsed lines of the text split at line feeds |
| Checklist.SerializedText | FlashNoteApp/Features/Capture/Components/ChecklistEditor.swift:156-164 | the text is the kept items' lines, each "- [x] " or "- [ ] " and its content, joined by line feeds |
| Checklist.LinesSingle | FlashNoteApp/Features/Capture/Components/ChecklistEditor.swift:159-162 | written lines of contents without a newline hold no newline, and the first is non-empty |
| Checklist.SingleEmptyItem | FlashNoteApp/Features/Capture/Components/ChecklistEditor.swift:156-164 | a lone empty item is written as a bare checkbox, which parses back as an unchecked item whose content is the checkbox text, not as the empty item |
| Checklist.FirstIndex | FlashNoteApp/Features/Capture/Components/ChecklistEditor.swift:118 | the first index whose item has the given id, or none exactly when no item has it |
| Checklist.RemoveId | FlashNoteApp/Features/Capture/Components/ChecklistEditor.swift:125 | the items without the given id, every one of them kept and nothing added; order and repetitions follow from RemoveIdSingle and RemoveIdConcat |
| Checklist.RemoveIdSingle | FlashNoteApp/Features/Capture/Components/ChecklistEditor.swift:125 | one item is removed exactly when it has the id, and otherwise kept |
| Checklist.RemoveIdConcat | FlashNoteApp/Features/Capture/Components/ChecklistEditor.swift:125 | removal works piecewise on a concatenation, so the other items stay in their order, each as often as before |
| Checklist.MakeItems | FlashNoteApp/Features/Capture/Components/ChecklistEditor.swift:136-153 | fresh items whose contents and checkboxes are exactly the parsed entries, in order |
| Checklist.ChecklistEditor.constructor | FlashNoteApp/Features/Capture/Components/ChecklistEditor.swift:3-6 | the editor starts with the bound text, no items and no focus |
| Checklist.ChecklistEditor.AddItem | FlashNoteApp/Features/Capture/Components/ChecklistEditor.swift:111-115 | an empty unchecked item is appended after the unchanged items and takes the focus |
| Checklist.ChecklistEditor.AddItemAfter | FlashNoteApp/Features/Capture/Components/ChecklistEditor.swift:117-122 | an unknown item changes nothing; otherwise an empty unchecked item is inserted right after the first item with that id, the others keep their places, and the new item takes the focus |
| Checklist.ChecklistEditor.RemoveItem | FlashNoteApp/Features/Capture/Components/ChecklistEditor.swift:124-129 | every item with that id is removed; if none remain, a single empty item is added and focused; the list is never left empty |
| Checklist.ChecklistEditor.ParseText | FlashNoteApp/Features/Capture/Components/ChecklistEditor.swift:133-154 | an empty text leaves the items; otherwise the items become exactly the parsed lines |
| Checklist.ChecklistEditor.SerializeToText | FlashNoteApp/Features/Capture/Components/ChecklistEditor.swift:156-164 | the text becomes the kept items' lines joined by newlines |
| Checklist.ChecklistEditor.Appear | FlashNoteApp/Features/Capture/Components/ChecklistEditor.swift:45-50 | after appearing the list is not empty: an empty text keeps a non-empty list and its focus as they were; a text that parses to items shows exactly those items; a text that parses to no items, or an empty text over an empty list, leaves exactly one empty unchecked item, which is focused |
| Clock.Hour | FlashNoteCore/Sources/FlashNoteCore/Services/Resurfacing/ResurfacingService.swift:21 | the hour of an instant lies in 0 to 23 |
| Clock.StartOfDay | FlashNoteCore/Sources/FlashNoteCore/Services/CaptureStreakService.swift:19 | the start of an instant's day is a midnight no later than the instant and less than a day before it |
| Clock.DayOffset | FlashNoteCore/Sources/FlashNoteCore/Services/CaptureStreakService.swift:19 | an instant less than a day after a midnight lies on that midnight's day, at the hour its offset gives |
| Clock.AtHour | FlashNoteApp/Services/ResurfacingScheduler.swift:82-85 | setting the hour keeps the day, gives that hour on the hour, and is a whole minute |
| Clock.NextDay | FlashNoteApp/Services/ResurfacingScheduler.swift:81 | adding a calendar day moves to the next day at the same hour |
| Clock.MinuteOf | FlashNoteApp/Services/ResurfacingScheduler.swift:92 | a trigger built from date components down to the minute fires at the start of that minute |
| DateHelpers.Pad2 | FlashNoteCore/Sources/FlashNoteCore/Utilities/DateHelpers.swift:63-65 | a single digit is padded with one leading zero to two characters |
| DateHelpers.ParseDuration | FlashNoteCore/Sources/FlashNoteCore/Utilities/DateHelpers.swift:59-66 | reading "M:SS" back succeeds only on a string holding a colon |
| DateHelpers.Pad2Value | FlashNoteCore/Sources/FlashNoteCore/Utilities/DateHelpers.swift:63-65 | seconds below 60 are written as exactly two digits that read back as those seconds |
| DateHelpers.DurationRoundTrip | FlashNoteCore/Sources/FlashNoteCore/Utilities/DateHelpers.swift:59-66 | for a non-negative interval the displayed duration reads back as its whole seconds, the fraction dropped |
| DateHelpers.DurationShape | FlashNoteCore/Sources/FlashNoteCore/Utilities/DateHelpers.swift:59-66 | a non-negative interval is shown as its whole minutes, a colon and its remaining seconds in two digits, minutes zero included |
| DateHelpers.ParseShown | FlashNoteCore/Sources/FlashNoteCore/Utilities/DateHelpers.swift:63-65 | minutes and two-digit seconds around a colon read back as that many seconds |
| DateHelpers.DurationUnderMinute | FlashNoteCore/Sources/FlashNoteCore/Utilities/DateHelpers.swift:59-65 | under a minute the display is "0:" and the two-digit whole seconds |
| DateHelpers.NegativeInterval | FlashNoteCore/Sources/FlashNoteCore/Utilities/DateHelpers.swift:59-65 | division and remainder truncate toward zero, so minus 125 seconds shows as "0:-5" |
| DateHelpers.DurationString | FlashNoteCore/Sources/FlashNoteCore/Utilities/DateHelpers.swift:59-66 | for every interval, negative ones included, the display is a non-empty minutes part and a seconds part of at least two characters around exactly one colon; under a minute the minutes part is "0" |
| DateHelpers.IntToStringNoColon | FlashNoteCore/Sources/FlashNoteCore/Utilities/DateHelpers.swift:63-65 | a written integer and its two-digit padding hold no colon, and the padding is at least two characters long |
| EntryCodec.HexValue | FlashNoteCore/Sources/FlashNoteCore/Services/HotCaptureBuffer/HotCaptureBufferService.swift:24 | a lower-case hex digit stands for a value below 16 |
| EntryCodec.HexRoundTrip | FlashNoteCore/Sources/FlashNoteCore/Services/HotCaptureBuffer/HotCaptureBufferService.swift:24 | every value below 16 is written as a lower-case hex digit that reads back as that value |
| EntryCodec.EscapeChar | FlashNoteCore/Sources/FlashNoteCore/Services/HotCaptureBuffer/HotCaptureBufferService.swift:24 | an escaped character is written with no control character |
| EntryCodec.Escape | FlashNoteCore/Sources/FlashNoteCore/Services/HotCaptureBuffer/HotCaptureBufferService.swift:24 | an escaped string holds no control character |
| EntryCodec.ParseEscapedChar | FlashNoteCore/Sources/FlashNoteCore/Services/HotCaptureBuffer/HotCaptureBufferService.swift:24-59 | decoding an escaped character followed by more text gives that character in front of the decoding of the rest |
| EntryCodec.ParseEscaped | FlashNoteCore/Sources/FlashNoteCore/Services/HotCaptureBuffer/HotCaptureBufferService.swift:24-59 | a quoted string field decodes to exactly its text and what follows the closing quote |
| EntryCodec.EscapePlain | FlashNoteCore/Sources/FlashNoteCore/Services/HotCaptureBuffer/HotCaptureBufferService.swift:24 | text with no quotation mark, reverse solidus or control character is written unchanged |
| EntryCodec.ParseUnterminated | FlashNoteCore/Sources/FlashNoteCore/Services/HotCaptureBuffer/HotCaptureBufferService.swift:59 | a string field without its closing quote does not decode |
| EntryCodec.DigitRun | FlashNoteCore/Sources/FlashNoteCore/Services/HotCaptureBuffer/HotCaptureBufferService.swift:59 | the leading run of digits is the longest digit prefix |
| EntryCodec.ParseIntOf | FlashNoteCore/Sources/FlashNoteCore/Services/HotCaptureBuffer/HotCaptureBufferService.swift:24-59 | every integer written in decimal reads back as itself, with the rest of the line untouched |
| EntryCodec.Expect | FlashNoteCore/Sources/FlashNoteCore/Services/HotCaptureBuffer/HotCaptureBufferService.swift:59 | a literal is consumed exactly when the text starts with it, leaving what follows it |
| EntryCodec.SerialiseNoControl | FlashNoteCore/Sources/FlashNoteCore/Services/HotCaptureBuffer/HotCaptureBufferService.swift:24-28 | an encoded entry holds no control character and so no newline, so the appended newline ends its line |
| EntryCodec.ParseSerialise | FlashNoteCore/Sources/FlashNoteCore/Services/HotCaptureBuffer/HotCaptureBufferService.swift:24-59 | decoding an encoded entry gives back the same entry: id, text, source raw value, capture time and audio file name |
| EntryCodec.Serialise | FlashNoteCore/Sources/FlashNoteCore/Services/HotCaptureBuffer/HotCaptureBufferService.swift:24 | the one-line JSON object an entry is encoded as: id, text, raw source and capture time, then the audio file name when there is one |
| EntryCodec.Parse | FlashNoteCore/Sources/FlashNoteCore/Services/HotCaptureBuffer/HotCaptureBufferService.swift:59 | decoding one line: the entry whose fields the line spells in that order, or nothing for a line the decoder rejects |
| ExportFormats.DisplayName | FlashNoteCore/Sources/FlashNoteCore/Services/Export/ExportFormat.swift:8-14 | every format has a non-empty display name |
| ExportFormats.FileExtension | FlashNoteCore/Sources/FlashNoteCore/Services/Export/ExportFormat.swift:16-22 | every extension is two to four characters long and holds no dot |
| ExportFormats.MimeType | FlashNoteCore/Sources/FlashNoteCore/Services/Export/ExportFormat.swift:24-30 | every MIME type is a type and a subtype around a slash |
| ExportFormats.FromRawValue | FlashNoteCore/Sources/FlashNoteCore/Services/Export/ExportFormat.swift:3-6 | a string reads as a format only when it is that format's raw value |
| ExportFormats.RawValueRoundTrip | FlashNoteCore/Sources/FlashNoteCore/Services/Export/ExportFormat.swift:3-6 | every format reads back from its raw value |
| ExportFormats.AllFormatsComplete | FlashNoteCore/Sources/FlashNoteCore/Services/Export/ExportFormat.swift:3 | all cases lists every format, once |
| ExportFormats.TablesDistinct | FlashNoteCore/Sources/FlashNoteCore/Services/Export/ExportFormat.swift:8-30 | two different formats differ in extension, MIME type and display name |
| ExportService.Block | FlashNoteCore/Sources/FlashNoteCore/Services/Export/ExportService.swift:30-51 | a note adds six Markdown lines or three plain lines, its text verbatim on the third or the second |
| ExportService.BlocksAt | FlashNoteCore/Sources/FlashNoteCore/Services/Export/ExportService.swift:30-51 | the i-th note's lines sit at i times the block size, in input order, with nothing between blocks |
| ExportService.LinesShape | FlashNoteCore/Sources/FlashNoteCore/Services/Export/ExportService.swift:30-51 | the output lines are the header, then each note's block in input order, and nothing else |
| ExportService.TextExported | FlashNoteCore/Sources/FlashNoteCore/Services/Export/ExportService.swift:35-47 | every note's text occurs verbatim in the exported text |
| ExportService.MarkdownOpens | FlashNoteCore/Sources/FlashNoteCore/Services/Export/ExportService.swift:31-40 | Markdown output begins with the title line and a newline |
| ExportService.EmptyMarkdown | FlashNoteCore/Sources/FlashNoteCore/Services/Export/ExportService.swift:30-41 | exporting no notes as Markdown gives the title line and a newline alone, with no separator |
| ExportService.EmptyPlain | FlashNoteCore/Sources/FlashNoteCore/Services/Export/ExportService.swift:43-51 | exporting no notes as plain text gives the empty string |
| ExportService.ExportLines | FlashNoteCore/Sources/FlashNoteCore/Services/Export/ExportService.swift:30-51 | the appending loop produces exactly the rendered layout of all the notes |
| ExportService.Lines | FlashNoteCore/Sources/FlashNoteCore/Services/Export/ExportService.swift:30-51 | the exported lines: the layout's header, then one block per note in order |
| ExportService.Render | FlashNoteCore/Sources/FlashNoteCore/Services/Export/ExportService.swift:30-51 | the exported text is the lines joined by line feeds |
| ExportService.Export | FlashNoteCore/Sources/FlashNoteCore/Services/Export/ExportService.swift:11-77 | each format gets its own layout; JSON is the encoder's output, or "[]" when encoding fails |
| ExportService.ExportFileName | FlashNoteCore/Sources/FlashNoteCore/Services/Export/ExportService.swift:24 | the file name starts with the export stem and ends with a dot and the format's extension |
| HotCaptureBuffer.DecodeAll | FlashNoteCore/Sources/FlashNoteCore/Services/HotCaptureBuffer/HotCaptureBufferService.swift:57-64 | decoding keeps at most one entry per line |
| HotCaptureBuffer.DecodeAllConcat | FlashNoteCore/Sources/FlashNoteCore/Services/HotCaptureBuffer/HotCaptureBufferService.swift:57-64 | decoding a file's lines piece by piece gives the entries of each piece, in order |
| HotCaptureBuffer.ReadWellFormed | FlashNoteCore/Sources/FlashNoteCore/Services/HotCaptureBuffer/HotCaptureBufferService.swift:54-64 | when no line holds a line feed, reading decodes exactly the non-empty lines |
| HotCaptureBuffer.SplitContent | FlashNoteCore/Sources/FlashNoteCore/Services/HotCaptureBuffer/HotCaptureBufferService.swift:55 | splitting the text of lines free of separators gives back the lines and a final empty piece |
| HotCaptureBuffer.Lines | FlashNoteCore/Sources/FlashNoteCore/Services/HotCaptureBuffer/HotCaptureBufferService.swift:24-28 | one encoded line per entry, in order |
| HotCaptureBuffer.LineWellFormed | FlashNoteCore/Sources/FlashNoteCore/Services/HotCaptureBuffer/HotCaptureBufferService.swift:24-28 | an encoded entry is a non-empty line with no line feed |
| HotCaptureBuffer.AppendThenRead | FlashNoteCore/Sources/FlashNoteCore/Services/HotCaptureBuffer/HotCaptureBufferService.swift:23-64 | appending an entry to a well-formed file keeps it well formed and reading it then gives the entries read before followed by the new one |
| HotCaptureBuffer.ReadAppended | FlashNoteCore/Sources/FlashNoteCore/Services/HotCaptureBuffer/HotCaptureBufferService.swift:23-64 | reading a file built by appending entries gives back exactly those entries, in order |
| HotCaptureBuffer.SkipsCorrupt | FlashNoteCore/Sources/FlashNoteCore/Services/HotCaptureBuffer/HotCaptureBufferService.swift:59-63 | a line that does not decode is skipped and the lines around it decode as before |
| HotCaptureBuffer.SkipsEmpty | FlashNoteCore/Sources/FlashNoteCore/Services/HotCaptureBuffer/HotCaptureBufferService.swift:55 | empty lines are dropped before decoding |
| HotCaptureBuffer.FileBuffer.constructor | FlashNoteCore/Sources/FlashNoteCore/Services/HotCaptureBuffer/HotCaptureBufferService.swift:15-21 | the buffer starts over the given file, or over no file |
| HotCaptureBuffer.FileBuffer.Append | FlashNoteCore/Sources/FlashNoteCore/Services/HotCaptureBuffer/HotCaptureBufferService.swift:23-46 | a successful append adds the entry's encoded line at the end of the file, creating the file when there is none; a failed write leaves the file as it was |
| HotCaptureBuffer.FileBuffer.ReadAll | FlashNoteCore/Sources/FlashNoteCore/Services/HotCaptureBuffer/HotCaptureBufferService.swift:48-66 | no file reads as no entries; otherwise the decodable non-empty pieces of the text split at every newline character, as written, or a file error; the file is not changed |
| HotCaptureBuffer.ReadEntriesAsWritten | FlashNoteCore/Sources/FlashNoteCore/Services/HotCaptureBuffer/HotCaptureBufferService.swift:54-64 | the reading as written: the file text split at every character of `CharacterSet.newlines`, empty pieces dropped, the rest decoded and the undecodable skipped |
| HotCaptureBuffer.ReadEntries | FlashNoteCore/Sources/FlashNoteCore/Services/HotCaptureBuffer/HotCaptureBufferService.swift:54-64 | the corrected reading: the same, split only at the line feed `append` writes |
| HotCaptureBuffer.SerialisePlain | FlashNoteCore/Sources/FlashNoteCore/Services/HotCaptureBuffer/HotCaptureBufferService.swift:24-28 | an entry whose strings hold none of U+0085, U+2028, U+2029 is encoded without any newline character |
| HotCaptureBuffer.AsWrittenAgrees | FlashNoteCore/Sources/FlashNoteCore/Services/HotCaptureBuffer/HotCaptureBufferService.swift:54-64 | on lines without any newline character the reading as written and the corrected reading agree |
| HotCaptureBuffer.AppendThenReadAsWritten | FlashNoteCore/Sources/FlashNoteCore/Services/HotCaptureBuffer/HotCaptureBufferService.swift:23-64 | as written, appending an entry whose strings hold none of U+0085, U+2028, U+2029 and reading gives what was read before followed by that entry |
| HotCaptureBuffer.ReadAppendedAsWritten | FlashNoteCore/Sources/FlashNoteCore/Services/HotCaptureBuffer/HotCaptureBufferService.swift:23-64 | as written, appending e1..en whose strings hold none of U+0085, U+2028, U+2029 to a buffer without a file and reading gives e1..en, in order |
| HotCaptureBuffer.FileBuffer.Clear | FlashNoteCore/Sources/FlashNoteCore/Services/HotCaptureBuffer/HotCaptureBufferService.swift:68-74 | without a file clearing succeeds; a successful clear leaves no file; a failed removal leaves the file as it was |
| HotCaptureBuffer.SeparatorLine | FlashNoteCore/Sources/FlashNoteCore/Services/HotCaptureBuffer/HotCaptureBufferService.swift:24-28 | an entry whose text is U+2028 is encoded with that character unescaped, between two pieces that hold no newline character |
| HotCaptureBuffer.SeparatorPiecesRejected | FlashNoteCore/Sources/FlashNoteCore/Services/HotCaptureBuffer/HotCaptureBufferService.swift:59 | neither piece of such a line decodes on its own |
| HotCaptureBuffer.UndecodablePieces | FlashNoteCore/Sources/FlashNoteCore/Services/HotCaptureBuffer/HotCaptureBufferService.swift:55-64 | a line cut by a newline character into two pieces that do not decode yields no entry |
| HotCaptureBuffer.SplitAroundSeparator | FlashNoteCore/Sources/FlashNoteCore/Services/HotCaptureBuffer/HotCaptureBufferService.swift:55 | splitting at every newline character cuts such a line at U+2028 into its two pieces |
| HotCaptureBuffer.LineSeparatorLosesEntry | FlashNoteCore/Sources/FlashNoteCore/Services/HotCaptureBuffer/HotCaptureBufferService.swift:55 | the reading as written loses an appended entry whose text is U+2028, while splitting at line feeds reads it back |
| Ids.UpperHex | FlashNoteApp/Services/NotificationDelegate.swift:73 | a lower-case hex letter is read as its upper-case form and every other character is kept |
| Ids.ParseUuid | FlashNoteApp/Services/NotificationDelegate.swift:73 | a string parses as an id exactly when it has the 8-4-4-4-12 hex layout, in either case, and the id is the string in upper case |
| Ids.ParseCanonical | FlashNoteApp/Services/NotificationDelegate.swift:73 | the canonical text of every id parses back as that id |
| Ids.NewUuid | FlashNoteCore/Sources/FlashNoteCore/Models/Note.swift:72 | a fresh id is some well-formed UUID, which one left open |
| Inbox.InboxViewModel.constructor | FlashNoteApp/Features/Inbox/InboxViewModel.swift:7-9 | the search text and results start empty and no search is running |
| Inbox.InboxViewModel.IsSearchActive | FlashNoteApp/Features/Inbox/InboxViewModel.swift:13-15 | searching is active exactly when the search text holds a character that is not whitespace or a newline |
| Inbox.InboxViewModel.Search | FlashNoteApp/Features/Inbox/InboxViewModel.swift:17-32 | an inactive search clears the results; a failed fetch clears them; otherwise the results are the search service's results for the text; the search is never left running |
| Inbox.DeleteNote | FlashNoteApp/Features/Inbox/InboxViewModel.swift:34-49 | the note becomes deleted and dated now, every reminder for its id is cancelled, and the context is saved or kept |
| Inbox.TogglePin | FlashNoteApp/Features/Inbox/InboxViewModel.swift:51-59 | the pin flips, the pin date is now exactly when the note becomes pinned, the note is dated now, and the context is saved or kept |
| Inbox.ArchiveNote | FlashNoteApp/Features/Inbox/InboxViewModel.swift:61-72 | the note becomes archived, triaged and dated now, every reminder for its id is cancelled, and the context is saved or kept |
| InboxSections.Rank | FlashNoteApp/Features/Inbox/InboxSectionBuilder.swift:52-57 | each bucket has a place in the display order and that place holds it |
| InboxSections.Title | FlashNoteApp/Features/Inbox/InboxSectionBuilder.swift:52-57 | the section titles "Pinned", "Today", "Yesterday", "This Week", "This Month", "Older" |
| InboxSections.TitlesDistinct | FlashNoteApp/Features/Inbox/InboxSectionBuilder.swift:52-57 | different sections have different titles, so a title identifies its section |
| InboxSections.InBucket | FlashNoteApp/Features/Inbox/InboxSectionBuilder.swift:28-46 | a bucket receives at most the notes given |
| InboxSections.BucketOf | FlashNoteApp/Features/Inbox/InboxSectionBuilder.swift:28-46 | a pinned note goes to the pinned section, any other to the first of today, yesterday, this week, this month whose start is not after its creation, else to older |
| InboxSections.InBucketSub | FlashNoteApp/Features/Inbox/InboxSectionBuilder.swift:28-46 | a bucket holds only notes that were given, no note more often than given |
| InboxSections.InBucketSound | FlashNoteApp/Features/Inbox/InboxSectionBuilder.swift:28-46 | every note in a bucket belongs to that bucket: pinned notes to the pinned one, others to the first date start they are not before |
| InboxSections.InOwnBucket | FlashNoteApp/Features/Inbox/InboxSectionBuilder.swift:28-46 | every note lands in its own bucket |
| InboxSections.InBucketAppend | FlashNoteApp/Features/Inbox/InboxSectionBuilder.swift:28-46 | distributing two runs of notes one after the other gives each bucket the first run's notes then the second's |
| InboxSections.BucketNotes | FlashNoteApp/Features/Inbox/InboxSectionBuilder.swift:28-49 | a bucket's shown notes are a rearrangement of the notes that fell in it |
| InboxSections.Lists | FlashNoteApp/Features/Inbox/InboxSectionBuilder.swift:21-49 | one list per bucket, in display order, each the bucket's shown notes |
| InboxSections.Part | FlashNoteApp/Features/Inbox/InboxSectionBuilder.swift:52-57 | a list gives at most one section |
| InboxSections.ShownAt | FlashNoteApp/Features/Inbox/InboxSectionBuilder.swift:52-57 | the shown buckets are the non-empty ones, in display order |
| InboxSections.ShownAtMembers | FlashNoteApp/Features/Inbox/InboxSectionBuilder.swift:52-57 | a bucket is shown exactly when its list is non-empty |
| InboxSections.AssembleShown | FlashNoteApp/Features/Inbox/InboxSectionBuilder.swift:51-59 | the sections are exactly the shown buckets, each titled by its bucket and holding its list |
| InboxSections.FlattenAssemble | FlashNoteApp/Features/Inbox/InboxSectionBuilder.swift:51-59 | the sections' notes, one section after another, are the bucket lists concatenated in display order |
| InboxSections.ConcatLists | FlashNoteApp/Features/Inbox/InboxSectionBuilder.swift:51-59 | the concatenated lists hold the same notes as the buckets together |
| InboxSections.BucketSumStep | FlashNoteApp/Features/Inbox/InboxSectionBuilder.swift:28-46 | one more note adds that note to exactly one bucket |
| InboxSections.BucketsPartition | FlashNoteApp/Features/Inbox/InboxSectionBuilder.swift:28-46 | the buckets together hold every given note exactly as often as given |
| InboxSections.SectionsPartition | FlashNoteApp/Features/Inbox/InboxSectionBuilder.swift:11-60 | every note appears in exactly one section, as often as given, and no note is added |
| InboxSections.SectionsShape | FlashNoteApp/Features/Inbox/InboxSectionBuilder.swift:51-59 | the sections are the non-empty buckets in the order pinned, today, yesterday, this week, this month, older, each with its title and its notes |
| InboxSections.ShownIffNonEmpty | FlashNoteApp/Features/Inbox/InboxSectionBuilder.swift:52-57 | a section is shown exactly when some note falls in its bucket |
| InboxSections.BucketMembers | FlashNoteApp/Features/Inbox/InboxSectionBuilder.swift:28-49 | a note is in a section exactly when it was given and belongs to that bucket, and the pinned section is sorted by pin date, newest first |
| InboxSections.Distribute | FlashNoteApp/Features/Inbox/InboxSectionBuilder.swift:21-46 | the loop puts into each of the six lists exactly the notes of that bucket, in input order |
| InboxSections.Collect | FlashNoteApp/Features/Inbox/InboxSectionBuilder.swift:51-59 | the non-empty lists become titled sections in display order |
| InboxSections.Build | FlashNoteApp/Features/Inbox/InboxSectionBuilder.swift:11-60 | without calendar starts there is one "All" section holding every note; otherwise the sections are the bucketed notes with the pinned ones sorted |
| Ints.Truncate | FlashNoteCore/Sources/FlashNoteCore/Utilities/DateHelpers.swift:60-61 | converting an interval to a whole number drops the fraction toward zero |
| Ints.TruncDiv | FlashNoteCore/Sources/FlashNoteCore/Utilities/DateHelpers.swift:60 | the quotient rounded toward zero: for a non-negative numerator the largest multiple of the divisor not above it, for a negative one the smallest multiple not below it |
| Ints.TruncRem | FlashNoteCore/Sources/FlashNoteCore/Utilities/DateHelpers.swift:61 | the remainder completes the truncated quotient, is smaller than the divisor in size and takes the numerator's sign |
| Navigation.QueryValue | FlashNoteApp/Shared/Navigation/NavigationRouter.swift:43-48 | the result is the value of the first query item with the key, in both directions: a value returned is that item's, the first item with the key gives its value, and none is returned when no item has that key |
| Navigation.SecondComponent | FlashNoteApp/Shared/Navigation/NavigationRouter.swift:31 | the path component after the leading one, present exactly when there are at least two |
| Navigation.Router.constructor | FlashNoteApp/Shared/Navigation/NavigationRouter.swift:11-14 | the router starts on the capture tab with no selected note, no prefill and no triage sheet |
| Navigation.Router.Handle | FlashNoteApp/Shared/Navigation/NavigationRouter.swift:16-39 | another scheme changes nothing; capture selects the capture tab and sets the prefill to the first 10 000 characters of the text query item when there is one; inbox selects the inbox; triage selects the inbox and shows triage; note with a valid id selects the inbox and that note, with an invalid or missing id it changes nothing; any other host changes nothing |
| Navigation.NoteTarget | FlashNoteApp/Shared/Navigation/NavigationRouter.swift:30-35 | a note link names a note exactly when its second path component is a UUID in text form, and then names that UUID |
| NoteDetail.NoteDetailViewModel.constructor | FlashNoteApp/Features/NoteDetail/NoteDetailViewModel.swift:14-17 | the edited text starts as the note's text, and no edit, export or delete confirmation is showing |
| NoteDetail.NoteDetailViewModel.SaveEdit | FlashNoteApp/Features/NoteDetail/NoteDetailViewModel.swift:19-33 | a blank edit changes nothing; otherwise the note takes the trimmed, non-blank text and is dated now; a successful save ends editing, a failed one keeps it |
| NoteDetail.NoteDetailViewModel.DeleteNote | FlashNoteApp/Features/NoteDetail/NoteDetailViewModel.swift:35-46 | the note becomes deleted and dated now, every reminder for its id is cancelled, and the context is saved or kept |
| NoteDetail.NoteDetailViewModel.ToggleTask | FlashNoteApp/Features/NoteDetail/NoteDetailViewModel.swift:48-63 | a task has its completion flipped and keeps its status; a non-task becomes an open task with status task; either way the note is dated now and the context is saved or kept |
| NoteDetail.NoteDetailViewModel.CancelEdit | FlashNoteApp/Features/NoteDetail/NoteDetailViewModel.swift:65-68 | the edited text goes back to the note's text and editing ends |
| NoteDetail.NoteDetailViewModel.ToggleTaskTwice | FlashNoteApp/Features/NoteDetail/NoteDetailViewModel.swift:48-63 | toggling a task twice restores its completion and its status, leaving only the later update time |
| NoteQueries.Select | FlashNoteApp/Features/Settings/SettingsViewModel.swift:61-65 | a fetch returns only stored notes that match its predicate, and every stored note that matches |
| NoteQueries.SelectMember | FlashNoteApp/Features/Settings/SettingsViewModel.swift:61-65 | a stored note is fetched exactly when it matches the predicate |
| NoteQueries.SelectMembers | FlashNoteApp/Features/Settings/SettingsViewModel.swift:76-80 | every fetched note is stored and matches, and a stored note is fetched exactly when it matches |
| NoteQueries.SelectNone | FlashNoteApp/Features/Settings/SettingsViewModel.swift:76-80 | when no stored note matches, the fetch is empty |
| NoteQueries.FetchCount | FlashNoteApp/Features/Settings/SettingsViewModel.swift:46-53 | a count never exceeds the number of stored notes |
| NoteQueries.Fetch | FlashNoteApp/Features/Settings/SettingsViewModel.swift:61-65 | a fetch that succeeds returns the matching notes |
| NoteQueries.PrefixOfSortedAsc | FlashNoteApp/Features/Triage/TriageViewModel.swift:50-53 | a note cut off by the fetch limit of an oldest-first fetch is no older than any note kept |
| NoteQueries.PrefixOfSortedDesc | FlashNoteCore/Sources/FlashNoteCore/Services/Search/NoteSearchService.swift:22-26 | a note cut off by the fetch limit of a newest-first fetch is no newer than any note kept |
| NoteQueries.SelectedInSorted | FlashNoteCore/Sources/FlashNoteCore/Services/Search/NoteSearchService.swift:22-25 | sorting keeps every matching note |
| NoteQueries.LimitedSelected | FlashNoteCore/Sources/FlashNoteCore/Services/Search/NoteSearchService.swift:22-26 | the notes kept by a limit are stored and match the predicate, and no note is kept more often than the fetch holds it |
| NoteQueries.OldestFirst | FlashNoteApp/Features/Triage/TriageViewModel.swift:45-53 | an oldest-first fetch with a limit: sorted by creation time, as many notes as match up to the limit, a sub-multiset of the matching notes (so no note repeated beyond the fetch), all of them when they fit, and none left out that is older than a kept one |
| NoteQueries.NewestFirst | FlashNoteCore/Sources/FlashNoteCore/Services/Search/NoteSearchService.swift:17-28 | a newest-first fetch with a limit: sorted by creation time descending, as many notes as match up to the limit, a sub-multiset of the matching notes (so no note repeated beyond the fetch), all of them when they fit, and none left out that is newer than a kept one |
| NoteQueries.TextContains | FlashNoteCore/Sources/FlashNoteCore/Services/Search/NoteSearchService.swift:18 | the lower-cased note text contains the already lower-cased query |
| NoteQueries.Selects | FlashNoteApp/Features/Triage/TriageViewModel.swift:45-47 | each fetch predicate the app builds over the stored raw status, the triage flag, the text and the update date |
| NoteQueries.StatusCountsBounded | FlashNoteApp/Features/Settings/SettingsViewModel.swift:46-53 | the active count and the archived count together never exceed the count of notes not deleted |
| NoteSearch.NormaliseQuery | FlashNoteCore/Sources/FlashNoteCore/Services/Search/NoteSearchService.swift:14-15 | the normalised query is empty exactly when the query is blank, is lower case, and is no longer than the query |
| NoteSearch.SearchResults | FlashNoteCore/Sources/FlashNoteCore/Services/Search/NoteSearchService.swift:13-29 | a blank query finds nothing, and at most 50 notes are returned |
| NoteSearch.SearchResultsSound | FlashNoteCore/Sources/FlashNoteCore/Services/Search/NoteSearchService.swift:17-28 | the results are newest first, stored, not deleted, and contain the normalised query, ignoring case |
| NoteSearch.SearchResultsComplete | FlashNoteCore/Sources/FlashNoteCore/Services/Search/NoteSearchService.swift:17-28 | when at most 50 notes match, all of them are returned, otherwise exactly 50 of them, as a sub-multiset of the matching notes; no matching note is left out that is newer than a returned one |
| NoteSearch.Search | FlashNoteCore/Sources/FlashNoteCore/Services/Search/NoteSearchService.swift:13-29 | a blank query returns no notes without fetching; otherwise a failed fetch is an error and a successful one gives the search results |
| NoteSearch.LowerLower | FlashNoteCore/Sources/FlashNoteCore/Services/Search/NoteSearchService.swift:14 | lower-casing twice is lower-casing once |
| NoteSearch.MatchIgnoresCase | FlashNoteCore/Sources/FlashNoteCore/Services/Search/NoteSearchService.swift:14-18 | matching ignores the case of the text and of the query |
| NoteSearch.LowerKeepsClass | FlashNoteCore/Sources/FlashNoteCore/Services/Search/NoteSearchService.swift:14 | lower-casing keeps whether a character is whitespace or a newline |
| NoteSearch.LowerTrim | FlashNoteCore/Sources/FlashNoteCore/Services/Search/NoteSearchService.swift:14 | trimming then lower-casing equals lower-casing then trimming |
| NoteSearch.LowerTrimLeading | FlashNoteCore/Sources/FlashNoteCore/Services/Search/NoteSearchService.swift:14 | trimming at the front commutes with lower-casing |
| NoteSearch.LowerTrimTrailing | FlashNoteCore/Sources/FlashNoteCore/Services/Search/NoteSearchService.swift:14 | trimming at the back commutes with lower-casing |
| NoteStatuses.FromRaw | FlashNoteCore/Sources/FlashNoteCore/Models/NoteStatus.swift:3-8 | a raw string names a status exactly when it is that status's case name |
| NoteStatuses.CasesComplete | FlashNoteCore/Sources/FlashNoteCore/Models/NoteStatus.swift:3-8 | the four cases are all listed, with distinct raw values |
| NoteStatuses.RawRoundTrip | FlashNoteCore/Sources/FlashNoteCore/Models/NoteStatus.swift:3-8 | every status reads back from its raw value, and the empty string names none |
| NoteStore.InsertDesc | FlashNoteApp/Features/Inbox/InboxSectionBuilder.swift:49 | inserting into a list sorted descending keeps it sorted and adds only that note |
| NoteStore.InsertDescPermutes | FlashNoteApp/Features/Inbox/InboxSectionBuilder.swift:49 | inserting adds exactly that note to the list's contents |
| NoteStore.SortDesc | FlashNoteApp/Features/Inbox/InboxSectionBuilder.swift:49 | sorting descending gives a sorted rearrangement of the same notes |
| NoteStore.InsertAsc | FlashNoteApp/Features/Triage/TriageViewModel.swift:49-52 | inserting into a list sorted ascending keeps it sorted and adds only that note |
| NoteStore.InsertAscPermutes | FlashNoteApp/Features/Triage/TriageViewModel.swift:49-52 | inserting adds exactly that note to the list's contents |
| NoteStore.SortAsc | FlashNoteApp/Features/Triage/TriageViewModel.swift:49-52 | sorting ascending gives a sorted rearrangement of the same notes |
| NoteStore.Limit | FlashNoteApp/Features/Triage/TriageViewModel.swift:53 | a fetch limit keeps the first notes, as many as the limit allows |
| NoteStore.Without | FlashNoteApp/Features/Capture/CaptureViewModel.swift:100 | deleting a note removes it and keeps every other note |
| NoteStore.WithoutAbsent | FlashNoteApp/Features/Capture/CaptureViewModel.swift:100 | deleting a note that is not there changes nothing |
| NoteStore.WithoutAppended | FlashNoteApp/Features/Capture/CaptureViewModel.swift:100 | deleting the note just inserted restores the list before the insert |
| NoteStore.FindById | FlashNoteApp/Services/NotificationDelegate.swift:149-152 | a lookup by id finds a note with that id, or none exactly when no note has it |
| NoteStore.Context.constructor | FlashNoteApp/Features/Capture/CaptureViewModel.swift:64 | a context starts with the saved notes and no pending inserts |
| NoteStore.Context.Insert | FlashNoteApp/Features/Capture/CaptureViewModel.swift:69 | an insert joins the end of the pending inserts |
| NoteStore.Context.Delete | FlashNoteApp/Features/Capture/CaptureViewModel.swift:100 | a delete removes the note from the records and the pending inserts |
| NoteStore.Context.Save | FlashNoteApp/Features/Capture/CaptureViewModel.swift:72 | a successful save makes the pending inserts records; a failed one moves nothing |
| Notes.WordsAreRuns | FlashNoteCore/Sources/FlashNoteCore/Models/Note.swift:44-46 | the words split off at whitespace are the maximal runs of other characters |
| Notes.WordCount | FlashNoteCore/Sources/FlashNoteCore/Models/Note.swift:43-46 | the word count is the number of runs of non-whitespace, and zero exactly when the text is all whitespace |
| Notes.NoWordsBlank | FlashNoteCore/Sources/FlashNoteCore/Models/Note.swift:44-46 | a text has no runs exactly when every character is whitespace |
| Notes.Preview | FlashNoteCore/Sources/FlashNoteCore/Models/Note.swift:48-52 | a text of at most 100 characters is its own preview; a longer one is cut to its first 100 characters and an ellipsis |
| Notes.Note.constructor | FlashNoteCore/Sources/FlashNoteCore/Models/Note.swift:65-90 | a new note has the given id, text, source and audio fields, is created and updated now, is active, never resurfaced, not triaged, not a task and not pinned |
| Notes.Note.Status | FlashNoteCore/Sources/FlashNoteCore/Models/Note.swift:25-29 | a known raw status reads as that status; an unknown one reads as active |
| Notes.Note.Source | FlashNoteCore/Sources/FlashNoteCore/Models/Note.swift:31-35 | a known raw source reads as that source; an unknown one reads as keyboard |
| Notes.Note.SetStatus | FlashNoteCore/Sources/FlashNoteCore/Models/Note.swift:28 | setting the status stores its raw value, which reads back as it |
| Notes.Note.SetSource | FlashNoteCore/Sources/FlashNoteCore/Models/Note.swift:34 | setting the source stores its raw value, which reads back as it |
| Notes.Note.AudioUrl | FlashNoteCore/Sources/FlashNoteCore/Models/Note.swift:37-41 | there is an audio URL exactly when there is an audio file name, and it ends in that name |
| Notes.Note.TogglePin | FlashNoteCore/Sources/FlashNoteCore/Models/Note.swift:59-63 | the pin flips, the pin date is now exactly when pinned and absent otherwise, and the note is dated now |
| Notifications.Center.constructor | FlashNoteApp/Services/ResurfacingScheduler.swift:55 | the center starts with the given pending requests |
| Notifications.Center.Add | FlashNoteApp/Services/ResurfacingScheduler.swift:111-117 | a successful add stores the request under its identifier, replacing one with the same identifier; a failed add changes nothing |
| Notifications.Center.Remove | FlashNoteApp/Services/ResurfacingScheduler.swift:126 | the requests with the given identifiers are removed and no others |
| NotificationHandling.NoteIdFrom | FlashNoteApp/Services/NotificationDelegate.swift:71-74 | a note id is found exactly when the user info holds a "noteID" string in UUID form, and it is that UUID |
| NotificationHandling.ScheduledRequestNamesNote | FlashNoteApp/Services/NotificationDelegate.swift:71-74 | the user info of a scheduled resurfacing request and of a snooze request reads back as the note's id |
| NotificationHandling.SnoozeRequest | FlashNoteApp/Services/NotificationDelegate.swift:115-131 | a snooze fires in the minute two days from now, carries the note's id and the resurfacing category |
| NotificationHandling.FetchNote | FlashNoteApp/Services/NotificationDelegate.swift:147-157 | a fetched note is the stored note with that id; with no such note nothing is found |
| NotificationHandling.HandleKeep | FlashNoteApp/Services/NotificationDelegate.swift:76-90 | the app context and its unsaved inserts are left alone, and no note with another id changes; an unknown note changes nothing and asks for no reminder; a failed save leaves the stored note and the reminders as they were; a successful save gives the note one more resurfacing and the current date, keeps its status and every other field, and only then asks for its next reminder, for the incremented count, with the outcome `Scheduled` states |
| NotificationHandling.HandleArchive | FlashNoteApp/Services/NotificationDelegate.swift:92-106 | the app context and its unsaved inserts are left alone, and no note with another id changes; an unknown note changes nothing; a found note has every reminder for it cancelled whatever the save does; a successful save archives it and dates it now, keeping its count and every other field; a failed save leaves it as stored |
| NotificationHandling.HandleSnooze | FlashNoteApp/Services/NotificationDelegate.swift:108-145 | the app context and its unsaved inserts are left alone, and no note with another id changes; an unknown note changes nothing and snoozes nothing; a found note has its reminders cancelled, then either the snooze request two days out is added under "resurface-<id>-snooze" and reported, or the add fails and only the cancellation remains; a successful save dates the note now, keeping its status, count and every other field; a failed save leaves it as stored |
| NotificationHandling.HandleAction | FlashNoteApp/Services/NotificationDelegate.swift:39-67 | the app context is never changed; keep, archive and snooze touch no note with another id, and without a readable note id change nothing; open triage selects the inbox and shows triage; the default action with a note id selects the inbox and that note; any other action changes nothing |
| ResurfacingSchedules.Schedule.NextInterval | FlashNoteCore/Sources/FlashNoteCore/Services/Resurfacing/ResurfacingSchedule.swift:43-46 | an interval is found exactly when the count indexes the intervals, and it is the interval at that position |
| ResurfacingSchedules.MakeSchedule | FlashNoteCore/Sources/FlashNoteCore/Services/Resurfacing/ResurfacingSchedule.swift:10-27 | a schedule built from arguments that meet the initializer's preconditions satisfies them and keeps every argument |
| ResurfacingSchedules.DefaultSchedule | FlashNoteCore/Sources/FlashNoteCore/Services/Resurfacing/ResurfacingSchedule.swift:29-41 | the default schedule is valid, has intervals of 1, 3, 7, 14 and 30 days, at most five resurfacings, at most three a day, and quiet hours from 22 to 8; counts 0 to 4 have an interval and all other counts none |
| ResurfacingSchedules.SingleInterval | FlashNoteCore/Sources/FlashNoteCore/Services/Resurfacing/ResurfacingSchedule.swift:43-46 | a one-interval schedule has an interval for count zero only |
| Resurfacing.ShiftOutOfQuietHours | FlashNoteCore/Sources/FlashNoteCore/Services/Resurfacing/ResurfacingService.swift:16-36 | a time outside the quiet hours is kept; at or after the start hour it moves to the end hour on the next day; before the end hour it moves to the end hour on the same day; it never moves earlier |
| Resurfacing.NextResurfaceDate | FlashNoteCore/Sources/FlashNoteCore/Services/Resurfacing/ResurfacingService.swift:11-39 | a date is found exactly when the schedule has an interval for the count, and it is the creation time plus that interval moved out of the quiet hours |
| Resurfacing.ComputeNextResurfaceDate | FlashNoteCore/Sources/FlashNoteCore/Services/Resurfacing/ResurfacingService.swift:11-39 | there is no date exactly when the resurface count is negative or past the intervals; a date is never earlier than the creation time plus the interval |
| Resurfacing.IneligibleNotes | FlashNoteCore/Sources/FlashNoteCore/Services/Resurfacing/ResurfacingService.swift:41-46 | an archived, task or deleted note, a triaged note or one at the resurfacing cap is not resurfaced; an active, untriaged note under the cap is |
| Resurfacing.ShouldResurface | FlashNoteCore/Sources/FlashNoteCore/Services/Resurfacing/ResurfacingService.swift:41-46 | a note is eligible when it is active, untriaged and below the schedule's maximum count |
| Resurfacing.DefaultShiftBounded | FlashNoteCore/Sources/FlashNoteCore/Services/Resurfacing/ResurfacingService.swift:16-36 | with the default quiet hours a time moves forward by at most ten hours and lands between 8:00 and 22:00 |
| Resurfacing.DefaultDates | FlashNoteCore/Sources/FlashNoteCore/Services/Resurfacing/ResurfacingService.swift:11-39 | with the default schedule every count from 0 to 4 gives a date at most ten hours after the creation time plus its interval, between 8:00 and 22:00 |
| Resurfacing.NonWrappingShiftsEverything | FlashNoteCore/Sources/FlashNoteCore/Services/Resurfacing/ResurfacingService.swift:23 | when the quiet hours do not wrap past midnight the test holds at every hour, so every time is moved to the end hour and none is kept |
| ResurfacingScheduler.AdjustForQuietHours | FlashNoteApp/Services/ResurfacingScheduler.swift:74-88 | from 22:00 a time moves to 8:00 on the next day; before 8:00 to 8:00 on the same day; otherwise it is kept; it never moves earlier |
| ResurfacingScheduler.AdjustIdempotent | FlashNoteApp/Services/ResurfacingScheduler.swift:74-88 | adjusting twice is adjusting once, and the result lies between 8:00 and 22:00 |
| ResurfacingScheduler.AdjustKeepsServiceDates | FlashNoteApp/Services/ResurfacingScheduler.swift:40-48 | the app's adjustment leaves every date the service computes with the default schedule unchanged |
| ResurfacingScheduler.RequestId | FlashNoteApp/Services/ResurfacingScheduler.swift:106 | a request identifier starts with the resurface prefix and the note's id |
| ResurfacingScheduler.SnoozeId | FlashNoteApp/Services/NotificationDelegate.swift:128 | the snooze identifier starts with the resurface prefix and the note's id |
| ResurfacingScheduler.RequestIdInjective | FlashNoteApp/Services/ResurfacingScheduler.swift:106 | two request identifiers are equal exactly when note and count are, and none equals a snooze identifier |
| ResurfacingScheduler.OtherNotesUntouched | FlashNoteApp/Services/ResurfacingScheduler.swift:124 | another note's request and snooze identifiers do not start with this note's prefix |
| ResurfacingScheduler.SameDayCount | FlashNoteApp/Services/ResurfacingScheduler.swift:58-63 | the number of pending requests firing on the day is at most the number pending |
| ResurfacingScheduler.AddOneRequest | FlashNoteApp/Services/ResurfacingScheduler.swift:58-70 | adding one request raises the day's count by at most one, and not at all when it fires on another day |
| ResurfacingScheduler.DaysAgoValues | FlashNoteApp/Services/ResurfacingScheduler.swift:95-96 | the title counts 1, 3, 7, 14 and 30 days for counts 0 to 4, and 1 day for any other count |
| ResurfacingScheduler.DaysAgo | FlashNoteApp/Services/ResurfacingScheduler.swift:95-96 | the whole days of the interval for the count, one day when the schedule has none |
| ResurfacingScheduler.TitleValues | FlashNoteApp/Services/ResurfacingScheduler.swift:99 | the title reads "A thought from N day(s) ago" with the singular only for one day |
| ResurfacingScheduler.DayTitle | FlashNoteApp/Services/ResurfacingScheduler.swift:99 | "A thought from <d> day ago", with "days" unless d is 1 |
| ResurfacingScheduler.Title | FlashNoteApp/Services/ResurfacingScheduler.swift:95-99 | the title of the reminder for a count is the day title of its whole days |
| ResurfacingScheduler.ResurfaceRequest | FlashNoteApp/Services/ResurfacingScheduler.swift:90-109 | the request fires at the start of the trigger's minute, on its day, carries the note's id and the resurfacing category |
| ResurfacingScheduler.MinuteSameDay | FlashNoteApp/Services/ResurfacingScheduler.swift:92 | the start of a minute lies on the same day |
| ResurfacingScheduler.Deliver | FlashNoteApp/Services/ResurfacingScheduler.swift:90-118 | when the add succeeds the request is stored under "resurface-<id>-<count>" and every other pending request stays; when it fails nothing changes |
| ResurfacingScheduler.ScheduleResurfacing | FlashNoteApp/Services/ResurfacingScheduler.swift:37-72 | the outcome is `Scheduled`: a reminder is asked for exactly when the note is eligible, has a next date, and the day of that date, adjusted when quiet hours are on (the default), has fewer pending resurfacing requests than the daily cap (3 by default); when the add succeeds the only change is the note's request for its count at that date, and otherwise nothing changes |
| ResurfacingScheduler.TargetTime | FlashNoteApp/Services/ResurfacingScheduler.swift:44-52 | the trigger date is never earlier than the next date, is that date when quiet hours are off, and lies between 8:00 and 22:00 when they are on |
| ResurfacingScheduler.PlannedRequest | FlashNoteApp/Services/ResurfacingScheduler.swift:90-110 | the request fires within the minute of the trigger date, carries the note id under "noteID" and the resurfacing category |
| ResurfacingScheduler.NewNoteDue | FlashNoteApp/Services/ResurfacingScheduler.swift:37-70 | a new active untriaged note is first due one day after its creation, shifted out of the service's quiet hours, the scheduler's own shift then changes nothing, and a reminder is asked for exactly when that day has fewer pending requests than the cap |
| ResurfacingScheduler.ScheduleKeepsCap | FlashNoteApp/Services/ResurfacingScheduler.swift:65-70 | a request added under the cap leaves the day's count within the cap |
| ResurfacingScheduler.CancelIds | FlashNoteApp/Services/ResurfacingScheduler.swift:123-125 | the cancelled identifiers are exactly the pending ones that start with the note's prefix |
| ResurfacingScheduler.CancelResurfacing | FlashNoteApp/Services/ResurfacingScheduler.swift:120-128 | exactly the requests whose identifier starts with the note's prefix are removed |
| ResurfacingScheduler.CancelEffect | FlashNoteApp/Services/ResurfacingScheduler.swift:120-128 | cancelling removes the note's requests and its snooze, and keeps other notes' requests and snoozes |
| Settings.SettingsViewModel.constructor | FlashNoteApp/Features/Settings/SettingsViewModel.swift:36-42 | each setting is read from the stored defaults with its fallback (resurfacing on, three a day, quiet hours on, daily reflection off, shake on), the counts start at zero, and an empty store gives exactly the fallbacks |
| Settings.SettingsViewModel.SetResurfacingEnabled | FlashNoteApp/Features/Settings/SettingsViewModel.swift:7-9 | the setting takes the value and the store holds it under its key, reading back as that value |
| Settings.SettingsViewModel.SetMaxDailyNotifications | FlashNoteApp/Features/Settings/SettingsViewModel.swift:10-12 | the setting takes the value and the store holds it under its key, reading back as that value |
| Settings.SettingsViewModel.SetQuietHoursEnabled | FlashNoteApp/Features/Settings/SettingsViewModel.swift:13-15 | the setting takes the value and the store holds it under its key, reading back as that value |
| Settings.SettingsViewModel.SetDailyReflectionEnabled | FlashNoteApp/Features/Settings/SettingsViewModel.swift:16-18 | the setting takes the value and the store holds it under its key, reading back as that value |
| Settings.SettingsViewModel.SetShakeEnabled | FlashNoteApp/Features/Settings/SettingsViewModel.swift:26-28 | the setting takes the value and the store holds it under its key, reading back as that value |
| Settings.SettingsViewModel.LoadStats | FlashNoteApp/Features/Settings/SettingsViewModel.swift:44-57 | the counts are fetched in order until one fails; each fetched count is the number of notes matching its predicate and the rest keep their old values; when all succeed the active and archived counts add up to at most the total |
| Settings.DeleteEach | FlashNoteApp/Features/Settings/SettingsViewModel.swift:79-86 | every fetched note becomes deleted and dated now; only the status and the update date of the fetched notes may change |
| Settings.DeleteArchivedNotes | FlashNoteApp/Features/Settings/SettingsViewModel.swift:76-86 | after a successful fetch every archived note is deleted and dated now; every other note is unchanged in every field; a failed fetch changes no note; only the status and update date of notes may change |
| Settings.DeleteAllArchived | FlashNoteApp/Features/Settings/SettingsViewModel.swift:74-92 | a failed fetch changes neither the view model, the context nor any note; otherwise every archived note becomes deleted and dated now, every other note is unchanged in every field, the context is saved or kept, a successful save keeps every note in the context, and a full reload then counts no archived note |
| Settings.SaveAndReload | FlashNoteApp/Features/Settings/SettingsViewModel.swift:87-88 | with no archived note left, a failed save changes nothing else; a successful one keeps the notes and a full reload counts no archived note |
| Settings.DeleteFromContext | FlashNoteApp/Features/Settings/SettingsViewModel.swift:107-112 | the stale notes leave the context and every other note stays |
| Settings.PurgeOldDeletedNotes | FlashNoteApp/Features/Settings/SettingsViewModel.swift:94-118 | nothing changes unless some note was deleted more than 30 days ago; then every such note leaves the context, every other note stays, and nothing is added |
| Strings.TrimLeading | FlashNoteApp/Features/Capture/Components/ChecklistEditor.swift:137 | trimming at the front drops exactly the leading characters of the class and keeps the rest |
| Strings.TrimTrailing | FlashNoteApp/Features/Capture/Components/ChecklistEditor.swift:137 | trimming at the back drops exactly the trailing characters of the class and keeps the rest |
| Strings.Trim | FlashNoteApp/Features/Capture/CaptureViewModel.swift:65 | the trimmed text is empty exactly when every character is in the class; otherwise it neither starts nor ends with one; a text already without such ends is kept; the result occurs in the text |
| Strings.TrimBlank | FlashNoteApp/Features/Capture/CaptureViewModel.swift:65-66 | trimming gives the empty string exactly when the text is all whitespace of that class |
| Strings.LowerChar | FlashNoteCore/Sources/FlashNoteCore/Services/Search/NoteSearchService.swift:14 | an ASCII capital letter is lowered and every other character is kept |
| Strings.Lower | FlashNoteCore/Sources/FlashNoteCore/Services/Search/NoteSearchService.swift:14 | lower-casing keeps the length and lowers each character |
| Strings.ContainsConcat | FlashNoteCore/Sources/FlashNoteCore/Services/Search/NoteSearchService.swift:18 | text that occurs in a part also occurs in a longer text holding that part |
| Strings.Take | FlashNoteApp/Shared/Navigation/NavigationRouter.swift:23 | taking a prefix keeps the first characters, as many as the bound allows |
| Strings.SplitWhere | FlashNoteApp/Features/Capture/Components/ChecklistEditor.swift:135 | splitting gives at least one piece, and the first is empty exactly when the text is empty or starts with a separator |
| Strings.SplitJoin | FlashNoteApp/Features/Capture/Components/ChecklistEditor.swift:135 | pieces free of the separator joined with it split back into the same pieces |
| Strings.NonEmpty | FlashNoteCore/Sources/FlashNoteCore/Services/HotCaptureBuffer/HotCaptureBufferService.swift:55 | dropping empty pieces keeps only non-empty pieces of the input |
| Strings.JoinContains | FlashNoteCore/Sources/FlashNoteCore/Services/Export/ExportService.swift:40 | every joined line occurs in the joined text |
| Strings.DigitChar | FlashNoteCore/Sources/FlashNoteCore/Utilities/DateHelpers.swift:63 | a digit below ten is written as its decimal character |
| Strings.NatToStringDigits | FlashNoteCore/Sources/FlashNoteCore/Utilities/DateHelpers.swift:63 | a natural number is written as at least one decimal digit that reads back as the number |
| Strings.IntToStringInjective | FlashNoteApp/Services/ResurfacingScheduler.swift:106 | different integers are written differently, so identifiers built from counts differ |
| TaskDetection.KeywordAt | FlashNoteCore/Sources/FlashNoteCore/Services/TaskDetectionService.swift:12-13 | the keyword found at a position is one of the alternatives that matches there; none found means none of them matches |
| TaskDetection.MatchesAt | FlashNoteCore/Sources/FlashNoteCore/Services/TaskDetectionService.swift:10-13 | a keyword matches at a position when the lower-cased text there spells it and a word boundary lies on both sides |
| TaskDetection.IsWordChar | FlashNoteCore/Sources/FlashNoteCore/Services/TaskDetectionService.swift:13 | a word character for `\b`: an ASCII letter, digit or underscore |
| TaskDetection.FirstMatch | FlashNoteCore/Sources/FlashNoteCore/Services/TaskDetectionService.swift:19 | the first match is a position where a keyword matches with none earlier; no match means no keyword matches anywhere |
| TaskDetection.LooksLikeTask | FlashNoteCore/Sources/FlashNoteCore/Services/TaskDetectionService.swift:16-20 | a text looks like a task exactly when some keyword occurs in it as a whole word, ignoring case |
| TaskDetection.KeywordLower | FlashNoteCore/Sources/FlashNoteCore/Services/TaskDetectionService.swift:4-8 | every keyword is written in lower case |
| TaskDetection.KeywordEnds | FlashNoteCore/Sources/FlashNoteCore/Services/TaskDetectionService.swift:4-8 | every keyword starts and ends with a word character, so the word boundaries apply at both ends |
| TaskDetection.KeywordAsWord | FlashNoteCore/Sources/FlashNoteCore/Services/TaskDetectionService.swift:13-19 | a keyword standing between non-word characters, or at the ends of the text, makes the text look like a task |
| TaskDetection.DetectionIgnoresCase | FlashNoteCore/Sources/FlashNoteCore/Services/TaskDetectionService.swift:13 | detection gives the same answer for a text and its lower-cased form |
| TaskDetection.SingleWord | FlashNoteCore/Sources/FlashNoteCore/Services/TaskDetectionService.swift:13-19 | a text made of one word looks like a task exactly when that word, lower-cased, is a keyword |
| TaskDetection.FixIsTask | FlashNoteCore/Sources/FlashNoteCore/Services/TaskDetectionService.swift:6 | "Fix" looks like a task |
| TaskDetection.BuyerIsNotTask | FlashNoteCore/Sources/FlashNoteCore/Services/TaskDetectionService.swift:13 | "buyer" does not look like a task: a keyword inside a longer word does not count |
| TaskDetection.BuyMilk | FlashNoteCore/Sources/FlashNoteCore/Services/TaskDetectionService.swift:5 | "Buy milk" looks like a task |
| Triage.TriageQueue | FlashNoteApp/Features/Triage/TriageViewModel.swift:44-60 | the queue is oldest first, only active untriaged stored notes, a sub-multiset of them with exactly 50 or all when fewer, and none left out that is older than a queued one |
| Triage.TriageViewModel.IsComplete | FlashNoteApp/Features/Triage/TriageViewModel.swift:40-42 | triage is complete once the cursor has passed the last queued note |
| Triage.EntryFor | FlashNoteApp/Features/Triage/TriageViewModel.swift:65-71 | the undo entry records the note's id, the action and the note's status, triage flag and task flag before the action |
| Triage.TriageViewModel.constructor | FlashNoteApp/Features/Triage/TriageViewModel.swift:20-23 | the triage starts at index zero with no undo entries and no notes |
| Triage.TriageViewModel.CurrentNote | FlashNoteApp/Features/Triage/TriageViewModel.swift:26-29 | there is a current note exactly when triage is not complete, and it is the note at the current index |
| Triage.TriageViewModel.Remaining | FlashNoteApp/Features/Triage/TriageViewModel.swift:36-38 | nothing remains exactly when triage is complete; otherwise the notes from the current index on remain |
| Triage.TriageViewModel.Progress | FlashNoteApp/Features/Triage/TriageViewModel.swift:31-34 | progress is the current index over the number of notes, one over one when there are none, and reaches one exactly when triage is complete |
| Triage.TriageViewModel.LoadNotes | FlashNoteApp/Features/Triage/TriageViewModel.swift:44-60 | a successful fetch replaces the notes with the triage queue; a failed one keeps them |
| Triage.TriageViewModel.PerformAction | FlashNoteApp/Features/Triage/TriageViewModel.swift:62-96 | with no current note nothing changes; otherwise an undo entry with the note's previous state is pushed, the note is triaged and dated now, no field of it other than status, triage flag, task flag and update time changes, the context is saved or kept and the index advances; keep changes nothing else, archive archives and cancels the note's reminders, task makes it a task |
| Triage.Apply | FlashNoteApp/Features/Triage/TriageViewModel.swift:74-87 | the action's effect on the note: triaged and dated now, every field but status, triage flag, task flag and update time kept; keep leaves status, task flag and reminders, archive sets archived and cancels exactly the note's reminders, task sets the task status and flag |
| Triage.TriageViewModel.Undo | FlashNoteApp/Features/Triage/TriageViewModel.swift:98-114 | an empty undo stack changes nothing; otherwise the last entry is popped; if its note is among the triage notes it gets back its status, triage flag and task flag, is dated now, no other field and no other note changes, the context is saved or kept, and the index steps back without going below zero |
| Triage.TriageViewModel.ActThenUndo | FlashNoteApp/Features/Triage/TriageViewModel.swift:62-114 | an action followed by its undo restores the note's status, triage flag and task flag, the index and the undo stack, when no earlier triage note shares the note's id |
| Triage.FirstWithId | FlashNoteApp/Features/Triage/TriageViewModel.swift:100 | the first note with an id is found when no earlier note has it |
| UserDefaultsStore.Defaults.constructor | FlashNoteApp/Features/Settings/SettingsViewModel.swift:37-41 | the store starts out holding exactly the values already stored |
| UserDefaultsStore.Defaults.BoolOr | FlashNoteApp/Features/Settings/SettingsViewModel.swift:37 | a stored Bool under the key is read back; a missing key or a value of another type gives the fallback |
| UserDefaultsStore.Defaults.IntOr | FlashNoteApp/Features/Settings/SettingsViewModel.swift:38 | a stored Int under the key is read back; a missing key or a value of another type gives the fallback |
| UserDefaultsStore.Defaults.StringFor | FlashNoteApp/Features/Capture/CaptureViewModel.swift:29 | a string is read exactly when one is stored under the key, and it is that string |
| UserDefaultsStore.Defaults.Set | FlashNoteApp/Features/Capture/CaptureViewModel.swift:54 | the key now holds the value and every other key keeps its value |
| UserDefaultsStore.Defaults.Remove | FlashNoteApp/Features/Capture/CaptureViewModel.swift:52 | the key is gone and every other key keeps its value |
| WidgetData.ItemFor | FlashNoteCore/Sources/FlashNoteCore/Services/Widget/WidgetDataService.swift:27-31 | the widget item carries the note's id, at most the first 80 characters of its text (all of it when it fits) and the relative time of its creation |
| WidgetData.ItemsFor | FlashNoteCore/Sources/FlashNoteCore/Services/Widget/WidgetDataService.swift:26-32 | one item per note, in order |
| WidgetData.RecentNotes | FlashNoteCore/Sources/FlashNoteCore/Services/Widget/WidgetDataService.swift:12-22 | newest first, only active or task notes of the store, a sub-multiset of them with exactly five or all when fewer, and none left out that is newer than a chosen one |
| WidgetData.EmptyStore | FlashNoteCore/Sources/FlashNoteCore/Services/Widget/WidgetDataService.swift:24-35 | a store without notes gives the widget an empty list |
| WidgetData.WidgetStore.constructor | FlashNoteCore/Sources/FlashNoteCore/Services/Widget/WidgetDataService.swift:35 | the shared store starts out with what is already stored under the widget's key |
| WidgetData.UpdateRecentNotes | FlashNoteCore/Sources/FlashNoteCore/Services/Widget/WidgetDataService.swift:24-38 | a successful write stores the items of the recent notes; a failed one leaves the stored items as they were |

## Left out

- Writing the buffer file for real: `FileHandle`, the atomic write and the missing fsync. The file is its sequence of lines.
- Foundation's `JSONEncoder`/`JSONDecoder` for buffer entries are replaced by a concrete one-line codec. It escapes what section 7 of RFC 8259 requires and nothing more. Foundation's encoder in addition writes "/" as "\/"; the codec writes it unescaped, which changes no decoded value and adds no newline character. Key order and ISO 8601 timestamps are the codec's own: timestamps are carried as whole seconds, so sub-second parts are not modelled.
- Concurrency: the buffer's `NSLock`, the voice-capture actors and every interleaving. Each operation is atomic and runs sequentially.
- SwiftData: `ModelContext` fetches, saves and `#Predicate`s are replaced by a context of saved records plus pending inserts. The save and fetch outcomes are nondeterministic. The schema and the dependency container are not part of this model.
- Uniqueness of `UUID()`: a fresh id is some UUID, with no claim that it differs from earlier ones.
- Calendar time zones, daylight saving and the locale: `Calendar`, `DateFormatter`, `RelativeDateTimeFormatter` and the week start used by the inbox sections. Timestamps in exported text and the widgets' "time ago" labels are parameters. The calendar's section boundaries are a parameter that may be missing.
- `date(byAdding: .day, value: 1)` and similar calendar steps are modelled as plus or minus 86 400 seconds.
- Floating point: `TriageViewModel.progress` is the pair (index, count), not a `Double`. Durations are reals, and `Int(_:)` trapping on NaN or infinity is not modelled.
- "\r\n" as one line break in `components(separatedBy: .newlines)` is not modelled: both characters are separators, so the empty piece between them is dropped like any other empty line.
- UserNotifications: trigger calculation (`nextTriggerDate`), callbacks, `registerCategories` and the daily-reflection repeating request are not modelled. The centre's completion handlers are synchronous calls.
- Spotlight indexing, haptics, animations, focus, `Logger` and the `Task.sleep` delays before the capture screen's `show...` flags and banners.
- Deleting audio files and exporting to a temporary file (`exportToFile` writes; only its file name is modelled). JSON export's text is the encoder's output, given as a parameter.
- All SwiftUI views, the widgets' views and intents, the watch app, the share extension, the Siri intents and WatchConnectivity. Their only logic passed to the core is "trim, reject empty, then append".
- A test of the detail screen calls a `togglePin` that `NoteDetailViewModel` does not define. Pinning is modelled on the note itself.
- Strings.Take: counts Unicode scalars, while Swift's `prefix(n)` counts grapheme clusters (Characters). A text with combining marks or emoji sequences keeps fewer visible characters in Swift than here.
- BufferEntries.CappedText: the 50 000-character cap and the length test count Unicode scalars, while Swift's `count` and `prefix` count grapheme clusters.
- BufferEntries.MakeEntry: its text is `CappedText`'s, so the same scalar-versus-grapheme difference applies.
- Notes.Preview: the 100-character test and cut count Unicode scalars, not grapheme clusters.
- WidgetData.ItemFor: the 80-character cut counts Unicode scalars, not grapheme clusters.
- Navigation.Router.Handle: the 10 000-character prefill cut counts Unicode scalars, not grapheme clusters.
- Strings.LowerChar: lowers only the ASCII capitals A to Z; Swift's `lowercased()` applies full Unicode case mapping, so "Ä" or "Σ" stay as they are here.
- Strings.Lower: ASCII-only lower-casing, character by character; full Unicode case mapping, which may change a string's length, is not modelled.
- NoteSearch.NormaliseQuery: trims as Foundation does but lower-cases only ASCII letters.
- NoteSearch.SearchResults: `localizedStandardContains` is case- and diacritic-insensitive and locale-aware; the model matches the ASCII-lower-cased text exactly, so "cafe" does not find "café" here.
- NoteSearch.SearchResultsComplete: complete with respect to the model's ASCII-only containment, not to `localizedStandardContains`.
- TaskDetection.LooksLikeTask: ICU's `\w` and case-insensitive matching cover every Unicode letter and digit; the model's word characters and case folding are ASCII-only, so a keyword next to a non-ASCII letter counts as a whole word here.
- TaskDetection.IsWordChar: ASCII letters, digits and the underscore only, where ICU's `\w` also takes every Unicode letter, mark and digit and the connector punctuation.
- NotificationHandling.HandleAction: for keep, archive and snooze with a note id it does not restate the handlers' effects. It states the routing, that the app context never changes, that no note with another id changes, and that nothing changes without an id or for an unknown action.
- NotificationHandling.HandleKeep: each handler's own `ModelContext` is modelled as a fresh context over the saved records whose edits reach the stored note only on a successful save. The Swift handler edits its context's copy before saving; the model writes the same fields after the save succeeds. How the app's main context later picks up the change is not modelled. The same holds for HandleArchive and HandleSnooze.
- Settings.SettingsViewModel.SetDailyReflectionEnabled: states only the stored preference. Scheduling or cancelling the daily reflection is not modelled.

## Findings

| source | as written | input that shows it | evidently intended | confidence | as-written member | corrected member |
|---|---|---|---|---|---|---|
| FlashNoteCore/Sources/FlashNoteCore/Services/HotCaptureBuffer/HotCaptureBufferService.swift:55 | `readAll` splits the file with `components(separatedBy: .newlines)`, which also splits at U+2028 LINE SEPARATOR, U+2029 and U+0085; JSON leaves these unescaped, so an entry whose text holds one is cut into two pieces that both fail to decode and the entry is lost | one entry whose text is the single character U+2028, appended to a buffer without a file and read back | read the file line by line at the "\n" that `append` writes, so every appended entry is read back in order | not executed | HotCaptureBuffer.LineSeparatorLosesEntry | HotCaptureBuffer.ReadEntries |

=== FILE: buffer_entry.dfy ===
/** `BufferEntry`: one capture waiting in the hot-capture buffer. */
module BufferEntries {
  import opened Wrappers
  import opened Ids
  import opened CaptureSources

  /** Longest text an entry keeps before it is cut. */
  const MaxTextLength: nat := 50000

  /** What replaces the cut-off tail of an over-long text. */
  const TruncationMarker: string := "\n... (truncated)"

  datatype BufferEntry = BufferEntry(
    id: Uuid,
    text: string,
    sourceRaw: string,
    capturedAt: int,
    audioFileName: Option<string>)
  {
    /** `source`: the stored raw value's case, or `.keyboard` for an unknown one. */
    function Source(): (s: CaptureSource)
      ensures CaptureSources.FromRaw(sourceRaw).Some? ==> Raw(s) == sourceRaw
      ensures CaptureSources.FromRaw(sourceRaw).None? ==> s == Keyboard
    {
      FromRawOrKeyboard(sourceRaw)
    }
  }

  /** The text an entry stores for `text`: unchanged, or cut to the limit and marked. */
  function CappedText(text: string): (r: string)
    ensures |text| <= MaxTextLength ==> r == text
    ensures |text| > MaxTextLength ==> r == text[..MaxTextLength] + TruncationMarker
    ensures |r| <= MaxTextLength + |TruncationMarker|
  {
    if |text| > MaxTextLength then text[..MaxTextLength] + TruncationMarker else text
  }

  /**
   * `BufferEntry(text:source:audioFileName:)`; `id` is the fresh `UUID()` and
   * `now` the capture time.
   */
  function MakeEntry(id: Uuid, text: string, source: CaptureSource, audioFileName: Option<string>, now: int): (e: BufferEntry)
    ensures e.id == id && e.text == CappedText(text) && e.capturedAt == now
    ensures e.sourceRaw == Raw(source) && e.Source() == source
    ensures e.audioFileName == audioFileName
  {
    RawRoundTrip(source);
    BufferEntry(id, CappedText(text), Raw(source), now, audioFileName)
  }

  /**
   * A cut text is exactly 50 016 characters long, so the stored text is
   * shorter than the input only when the input exceeds 50 016 characters.
   */
  lemma CappedLength(text: string)
    ensures |text| > MaxTextLength ==> |CappedText(text)| == 50016
    ensures |CappedText(text)| < |text| <==> |text| > 50016
  {
    assert |TruncationMarker| == 16;
  }
}

=== FILE: buffer_sync.dfy ===
/**
 * `BufferSyncService.flush(to:)`: moves what the hot-capture buffer holds
 * into the model context. The steps run in the order the app runs them:
 * read the buffer, insert one note per entry, clear the buffer, then save.
 * Each early return of the app is one outcome here.
 */
module BufferSync {
  import opened Wrappers
  import opened Ids
  import opened CaptureSources
  import opened NoteStatuses
  import opened BufferEntries
  import opened HotCaptureBuffer
  import opened Notes
  import opened NoteStore

  /** How a flush ended. */
  datatype Outcome =
    | ReadFailed       // `readAll` threw: nothing happened
    | NothingBuffered  // the buffer was empty: nothing happened
    | ClearFailed      // notes inserted, buffer kept, no save attempted
    | SaveFailed       // buffer cleared, notes inserted but unsaved
    | Flushed          // buffer cleared and notes saved

  /** The note `flush` makes for an entry, apart from its fresh id and clock fields. */
  predicate FromEntry(n: Note, e: BufferEntry)
    reads n
  {
    && n.text == e.text
    && n.Source() == e.Source()
    && n.audioFileName == e.audioFileName
    && n.createdAt == e.capturedAt
    && n.Status() == Active
    && n.resurfaceCount == 0 && !n.isTriaged && !n.isTask && !n.isPinned
  }

  /** The notes match the entries one for one, in order. */
  predicate FromEntries(ns: seq<Note>, es: seq<BufferEntry>)
    reads ns
  {
    |ns| == |es| && forall i :: 0 <= i < |ns| ==> FromEntry(ns[i], es[i])
  }

  /** The loop body of `flush`: a new note with a fresh id, dated at the capture. */
  method NoteFor(e: BufferEntry, now: int) returns (note: Note)
    ensures fresh(note) && FromEntry(note, e) && note.updatedAt == now
  {
    var id := NewUuid();
    note := new Note(id, e.text, e.Source(), e.audioFileName, None, None, now);
    note.createdAt := e.capturedAt;
  }

  /** One turn of the loop: the entry's note joins the context's pending inserts. */
  method InsertOne(ctx: Context, e: BufferEntry, now: int) returns (note: Note)
    modifies ctx`pending
    ensures fresh(note) && FromEntry(note, e)
    ensures ctx.pending == old(ctx.pending) + [note]
  {
    note := NoteFor(e, now);
    ctx.Insert(note);
  }

  /** The `for entry in entries` loop: one inserted note per entry, in order. */
  method InsertAll(ctx: Context, entries: seq<BufferEntry>, now: int) returns (inserted: seq<Note>)
    modifies ctx`pending
    ensures ctx.pending == old(ctx.pending) + inserted
    ensures FromEntries(inserted, entries)
    ensures forall k :: 0 <= k < |inserted| ==> fresh(inserted[k])
  {
    inserted := [];
    for i := 0 to |entries|
      invariant ctx.pending == old(ctx.pending) + inserted
      invariant |inserted| == i
      invariant forall k :: 0 <= k < i ==> FromEntry(inserted[k], entries[k])
      invariant forall k :: 0 <= k < i ==> fresh(inserted[k])
    {
      var note := InsertOne(ctx, entries[i], now);
      inserted := inserted + [note];
    }
  }

  /** The tail of `flush`: clear the buffer, and only once that worked, save. */
  method ClearThenSave(ctx: Context, buffer: FileBuffer) returns (outcome: Outcome)
    requires buffer.Valid()
    modifies ctx, buffer
    ensures buffer.Valid()
    ensures outcome in {ClearFailed, SaveFailed, Flushed}
    ensures outcome == ClearFailed ==>
      buffer.lines == old(buffer.lines) && ctx.records == old(ctx.records) && ctx.pending == old(ctx.pending)
    ensures outcome == SaveFailed ==>
      buffer.lines == None && ctx.records == old(ctx.records) && ctx.pending == old(ctx.pending)
    ensures outcome == Flushed ==>
      buffer.lines == None && ctx.records == old(ctx.records) + old(ctx.pending) && ctx.pending == []
  {
    var cleared := buffer.Clear();
    if cleared.Err? {
      return ClearFailed;
    }
    var ok := ctx.Save();
    outcome := if ok then Flushed else SaveFailed;
  }

  /**
   * `flush(to:)`. `now` is the clock reading the new notes take as
   * `updatedAt`. `inserted` are the notes put into the context.
   */
  method Flush(ctx: Context, buffer: FileBuffer, now: int) returns (outcome: Outcome, inserted: seq<Note>)
    requires buffer.Valid()
    modifies ctx, buffer
    ensures buffer.Valid()
    ensures forall i :: 0 <= i < |inserted| ==> fresh(inserted[i])
    ensures outcome in {ReadFailed, NothingBuffered} ==>
      inserted == [] && buffer.lines == old(buffer.lines)
      && ctx.records == old(ctx.records) && ctx.pending == old(ctx.pending)
    ensures outcome == NothingBuffered ==> ReadEntriesAsWritten(old(buffer.lines).GetOr([])) == []
    ensures outcome == ReadFailed ==> old(buffer.lines).Some?
    ensures outcome !in {ReadFailed, NothingBuffered} ==>
      FromEntries(inserted, ReadEntriesAsWritten(old(buffer.lines).GetOr([]))) && inserted != []
    ensures outcome == ClearFailed ==>
      buffer.lines == old(buffer.lines)
      && ctx.records == old(ctx.records) && ctx.pending == old(ctx.pending) + inserted
    ensures outcome == SaveFailed ==>
      buffer.lines == None
      && ctx.records == old(ctx.records) && ctx.pending == old(ctx.pending) + inserted
    ensures outcome == Flushed ==>
      buffer.lines == None
      && ctx.records == old(ctx.records) + old(ctx.pending) + inserted && ctx.pending == []
  {
    inserted := [];
    var read := buffer.ReadAll();
    if read.Err? {
      return ReadFailed, [];
    }
    var entries := read.value;
    if |entries| == 0 {
      return NothingBuffered, [];
    }
    ghost var records0, pending0 := ctx.records, ctx.pending;
    assert entries == ReadEntriesAsWritten(old(buffer.lines).GetOr([]));
    inserted := InsertAll(ctx, entries, now);
    assert ctx.records == records0 && ctx.pending == pending0 + inserted;
    outcome := ClearThenSave(ctx, buffer);
  }
}

=== FILE: capture.dfy ===
/**
 * `CaptureViewModel`: the text being typed, its auto-saved draft, saving a
 * typed or voice note, the follow-up task suggestion and the prompt to merge
 * a note into one saved just before it. Haptics, animation, Spotlight and
 * the delayed `show...` flags (set after a `Task.sleep`) are left out.
 */
module Capture {
  import opened Wrappers
  import opened Strings
  import opened Ids
  import opened NoteStatuses
  import opened CaptureSources
  import opened Notes
  import opened NoteStore
  import opened NoteQueries
  import opened Notifications
  import opened UserDefaultsStore
  import opened ResurfacingScheduler
  import opened TaskDetection

  const DraftKey: string := "capture_draft"

  /** A note saved less than this many seconds after another is offered for merging. */
  const MergeWindow: int := 120

  /** The text the draft key restores: a stored, non-empty string, or nothing. */
  function RestoredDraft(values: map<string, Value>): (r: string)
    ensures DraftKey in values && values[DraftKey].StringValue? && values[DraftKey].s != [] ==> r == values[DraftKey].s
    ensures !(DraftKey in values && values[DraftKey].StringValue?) ==> r == []
    ensures DraftKey in values && values[DraftKey] == StringValue([]) ==> r == []
  {
    if DraftKey in values && values[DraftKey].StringValue? then values[DraftKey].s else []
  }

  /**
   * `checkForMerge(currentNote:context:)` without its fetch failure: the
   * second of the two newest non-deleted notes, if the current note was
   * created less than two minutes after it. The code takes for granted that
   * the newest note is the current one.
   */
  function MergeCandidate(all: seq<Note>, current: Note): (r: Option<Note>)
    reads all, current
    ensures r.Some? ==> r.value in all && r.value.statusRaw != "deleted"
    ensures r.Some? ==> current.createdAt - r.value.createdAt < MergeWindow
    ensures r.Some? ==> |Select(all, NotDeleted)| >= 2
    ensures r.Some? ==> forall a, b ::
      (&& a in all && b in all && a.statusRaw != "deleted" && b.statusRaw != "deleted"
       && a.createdAt > r.value.createdAt && b.createdAt > r.value.createdAt) ==> a == b
    ensures r.Some? <==>
      && |Select(all, NotDeleted)| >= 2
      && current.createdAt - NewestFirst(all, NotDeleted, 2)[1].createdAt < MergeWindow
    ensures r.Some? ==> r.value == NewestFirst(all, NotDeleted, 2)[1]
  {
    var recent := NewestFirst(all, NotDeleted, 2);
    if |Select(all, NotDeleted)| < 2 then None
    else
      var previous := recent[1];
      if current.createdAt - previous.createdAt < MergeWindow then
        OnlyNewestAbove(all, recent);
        Some(previous)
      else None
  }

  /**
   * When a note dated later than the one just saved exists (the clock was
   * set back, say), the merge candidate is the saved note itself.
   */
  lemma MergeCanPairNoteWithItself(later: Note, current: Note)
    requires later != current
    requires later.statusRaw != "deleted" && current.statusRaw != "deleted"
    requires later.createdAt > current.createdAt
    ensures MergeCandidate([later, current], current) == Some(current)
  {
    BothSelected(later, current);
    TwoSorted(NewestFirst([later, current], NotDeleted, 2), later, current);
  }

  lemma BothSelected(a: Note, b: Note)
    requires a.statusRaw != "deleted" && b.statusRaw != "deleted"
    ensures Select([a, b], NotDeleted) == [a, b]
  {
    assert [a, b][1..] == [b];
    assert [b][1..] == [];
  }

  /** Two distinct notes sorted newest first stand in the order of their dates. */
  lemma TwoSorted(r: seq<Note>, a: Note, b: Note)
    requires a != b && a.createdAt > b.createdAt
    requires multiset(r) == multiset([a, b]) && SortedDesc(r, ByCreatedAt)
    ensures r == [a, b]
  {
    assert |r| == 2;
    assert r == [r[0], r[1]];
    assert r[0] in multiset(r) && r[1] in multiset(r);
    assert Key(r[0], ByCreatedAt) >= Key(r[1], ByCreatedAt);
    assert r[0] == a;
  }

  /** Above the second of the two newest non-deleted notes there is only the newest. */
  lemma OnlyNewestAbove(all: seq<Note>, r: seq<Note>)
    requires r == NewestFirst(all, NotDeleted, 2) && |r| == 2
    ensures forall a :: a in all && a.statusRaw != "deleted" && a.createdAt > r[1].createdAt ==> a == r[0]
  {
    forall a | a in all && a.statusRaw != "deleted" && a.createdAt > r[1].createdAt
      ensures a == r[0]
    {
      assert Selects(NotDeleted, a);
    }
  }

  /**
   * `context.insert(note)` then `context.save()`, deleting the note again
   * when the save fails: the note ends up saved, or the context is as it was.
   */
  method InsertAndSave(ctx: Context, n: Note) returns (saved: bool)
    requires n !in ctx.records && n !in ctx.pending
    modifies ctx
    ensures saved ==> ctx.records == old(ctx.records) + old(ctx.pending) + [n] && ctx.pending == []
    ensures !saved ==> ctx.records == old(ctx.records) && ctx.pending == old(ctx.pending)
  {
    ctx.Insert(n);
    saved := ctx.Save();
    if !saved {
      ctx.Delete(n);
      WithoutAbsent(old(ctx.records), n);
      WithoutAppended(old(ctx.pending), n);
    }
  }

  /**
   * `Note(...)`, `context.insert(note)`, `context.save()` and, when the save
   * fails, `context.delete(note)`.
   */
  method CreateAndSave(ctx: Context, id: Uuid, text: string, source: CaptureSource, audioFileName: Option<string>,
                       audioDuration: Option<real>, confidence: Option<real>, now: int) returns (saved: bool, n: Note)
    modifies ctx
    ensures fresh(n) && n.id == id && n.text == text && n.Source() == source && n.Status() == Active
    ensures n.createdAt == now && n.resurfaceCount == 0
    ensures n.audioFileName == audioFileName && n.audioDuration == audioDuration && n.transcriptionConfidence == confidence
    ensures saved ==> ctx.records == old(ctx.records) + old(ctx.pending) + [n] && ctx.pending == []
    ensures !saved ==> ctx.records == old(ctx.records) && ctx.pending == old(ctx.pending)
  {
    n := new Note(id, text, source, audioFileName, audioDuration, confidence, now);
    saved := InsertAndSave(ctx, n);
  }

  class CaptureViewModel {
    var text: string
    var showSaveConfirmation: bool
    var isVoiceMode: bool
    var showTaskSuggestion: bool
    var lastSavedNote: Option<Note>
    var showMergePrompt: bool
    var mergeCurrentNote: Option<Note>
    var mergePreviousNote: Option<Note>

    /** `init`: a stored, non-empty draft comes back as the text. */
    constructor(defaults: Defaults)
      ensures text == RestoredDraft(defaults.values)
      ensures !showSaveConfirmation && !isVoiceMode && !showTaskSuggestion && !showMergePrompt
      ensures lastSavedNote == None && mergeCurrentNote == None && mergePreviousNote == None
    {
      var draft := defaults.StringFor(DraftKey);
      text := if draft.Some? && draft.value != [] then draft.value else [];
      showSaveConfirmation := false;
      isVoiceMode := false;
      showTaskSuggestion := false;
      lastSavedNote := None;
      showMergePrompt := false;
      mergeCurrentNote := None;
      mergePreviousNote := None;
    }

    /** `canSave`: the text is not blank. */
    function CanSave(): (r: bool)
      reads this
      ensures r <==> Trim(text, WhitespacesAndNewlines) != []
    {
      !IsBlank(text, WhitespacesAndNewlines)
    }

    /**
     * `saveDraft()`: a blank text removes the draft; any other text is
     * stored as typed, untrimmed. No other key changes.
     */
    method SaveDraft(defaults: Defaults)
      modifies defaults
      ensures !CanSave() ==> defaults.values == old(defaults.values) - {DraftKey}
      ensures CanSave() ==> defaults.values == old(defaults.values)[DraftKey := StringValue(text)]
    {
      if IsBlank(text, WhitespacesAndNewlines) {
        defaults.Remove(DraftKey);
      } else {
        defaults.Set(DraftKey, StringValue(text));
      }
    }

    /** `clearDraft()`. */
    method ClearDraft(defaults: Defaults)
      modifies defaults
      ensures defaults.values == old(defaults.values) - {DraftKey}
    {
      defaults.Remove(DraftKey);
    }

    /**
     * `checkForMerge(currentNote:context:)`: a failed fetch or no candidate
     * leaves the merge state alone; otherwise the pair is remembered.
     */
    method CheckForMerge(current: Note, ctx: Context) returns (armed: bool)
      modifies this`mergeCurrentNote, this`mergePreviousNote
      ensures armed ==> mergeCurrentNote == Some(current) && mergePreviousNote == MergeCandidate(ctx.All(), current)
      ensures armed ==> mergePreviousNote.Some?
      ensures !armed ==> mergeCurrentNote == old(mergeCurrentNote) && mergePreviousNote == old(mergePreviousNote)
    {
      var fetched := *;
      if !fetched {
        return false;
      }
      var previous := MergeCandidate(ctx.All(), current);
      if previous.None? {
        return false;
      }
      mergeCurrentNote := Some(current);
      mergePreviousNote := previous;
      armed := true;
    }

    /**
     * `save(context:)`: a blank text changes nothing. Otherwise a keyboard
     * note with the trimmed text is inserted and saved. On success its
     * reminder is scheduled, the text and the draft are cleared, a task-like
     * text is remembered for the suggestion, and the merge check runs. On
     * failure the note is deleted again, so the context is as before.
     */
    method Save(ctx: Context, center: Center, defaults: Defaults, id: Uuid, now: int)
      returns (saved: bool, note: Option<Note>, reminder: ReminderOutcome)
      modifies this, ctx, center, defaults
      ensures !old(CanSave()) ==> !saved && note == None
      ensures !old(CanSave()) ==> unchanged(this) && unchanged(ctx) && unchanged(center) && unchanged(defaults)
      ensures old(CanSave()) ==> note.Some? && fresh(note.value)
      ensures note.Some? ==> var n := note.value;
        && n.id == id && n.text == Trim(old(text), WhitespacesAndNewlines)
        && n.Source() == Keyboard && n.Status() == Active && n.createdAt == now
      ensures !saved && note.Some? ==>
        && ctx.records == old(ctx.records) && ctx.pending == old(ctx.pending)
        && unchanged(this) && unchanged(center) && unchanged(defaults)
      ensures saved ==> note.Some? && ctx.records == old(ctx.records) + old(ctx.pending) + [note.value] && ctx.pending == []
      ensures saved ==> showSaveConfirmation && text == [] && defaults.values == old(defaults.values) - {DraftKey}
      ensures saved ==> lastSavedNote == if LooksLikeTask(note.value.text) then note else old(lastSavedNote)
      ensures saved ==>
        || (mergeCurrentNote == old(mergeCurrentNote) && mergePreviousNote == old(mergePreviousNote))
        || (mergeCurrentNote == note && mergePreviousNote.Some? && mergePreviousNote == MergeCandidate(ctx.All(), note.value))
      ensures saved ==> Scheduled(old(center.pending), center.pending, note.value,
                                  old(defaults.BoolOr(QuietHoursKey, true)), old(defaults.IntOr(MaxDailyKey, 3)), reminder)
      ensures !saved ==> reminder == NotAsked
    {
      var trimmed := Trim(text, WhitespacesAndNewlines);
      if trimmed == [] {
        return false, None, NotAsked;
      }
      var n;
      saved, n := CreateAndSave(ctx, id, trimmed, Keyboard, None, None, None, now);
      note := Some(n);
      if !saved {
        return saved, note, NotAsked;
      }
      reminder := AfterSave(n, ctx, center, defaults);
    }

    /**
     * What `save(context:)` does once the note is stored: schedule its
     * reminder, then confirm, clear the text and the draft, remember a
     * task-like note and check for a merge.
     */
    method AfterSave(n: Note, ctx: Context, center: Center, defaults: Defaults) returns (reminder: ReminderOutcome)
      modifies this, center, defaults
      ensures showSaveConfirmation && text == [] && defaults.values == old(defaults.values) - {DraftKey}
      ensures lastSavedNote == if LooksLikeTask(n.text) then Some(n) else old(lastSavedNote)
      ensures
        || (mergeCurrentNote == old(mergeCurrentNote) && mergePreviousNote == old(mergePreviousNote))
        || (mergeCurrentNote == Some(n) && mergePreviousNote.Some? && mergePreviousNote == MergeCandidate(ctx.All(), n))
      ensures Scheduled(old(center.pending), center.pending, n,
                        old(defaults.BoolOr(QuietHoursKey, true)), old(defaults.IntOr(MaxDailyKey, 3)), reminder)
    {
      reminder := ScheduleResurfacing(n, center, defaults);
      Settle(n, ctx, defaults);
    }

    /** The steps of `save(context:)` after scheduling: confirm, clear, suggest a task, check for a merge. */
    method Settle(n: Note, ctx: Context, defaults: Defaults)
      modifies this, defaults
      ensures showSaveConfirmation && text == [] && defaults.values == old(defaults.values) - {DraftKey}
      ensures lastSavedNote == if LooksLikeTask(n.text) then Some(n) else old(lastSavedNote)
      ensures
        || (mergeCurrentNote == old(mergeCurrentNote) && mergePreviousNote == old(mergePreviousNote))
        || (mergeCurrentNote == Some(n) && mergePreviousNote.Some? && mergePreviousNote == MergeCandidate(ctx.All(), n))
    {
      showSaveConfirmation := true;
      text := [];
      ClearDraft(defaults);
      if LooksLikeTask(n.text) {
        lastSavedNote := Some(n);
      }
      var _ := CheckForMerge(n, ctx);
    }

    /**
     * A voice note with a non-blank transcript: inserted and saved, and on
     * failure deleted again; once saved, its reminder and the confirmation.
     */
    method SaveTranscript(trimmed: string, audioFileName: Option<string>, audioDuration: Option<real>,
                          confidence: Option<real>, ctx: Context, center: Center, defaults: Defaults,
                          id: Uuid, now: int) returns (saved: bool, n: Note, reminder: ReminderOutcome)
      modifies this`showSaveConfirmation, ctx, center
      ensures fresh(n) && n.id == id && n.text == trimmed
      ensures n.Source() == Voice && n.Status() == Active && n.createdAt == now
      ensures n.audioFileName == audioFileName && n.audioDuration == audioDuration
      ensures n.transcriptionConfidence == confidence
      ensures !saved ==>
        ctx.records == old(ctx.records) && ctx.pending == old(ctx.pending) && unchanged(this) && unchanged(center)
      ensures saved ==> ctx.records == old(ctx.records) + old(ctx.pending) + [n] && ctx.pending == []
      ensures saved ==> showSaveConfirmation
      ensures saved ==> Scheduled(old(center.pending), center.pending, n,
                                  defaults.BoolOr(QuietHoursKey, true), defaults.IntOr(MaxDailyKey, 3), reminder)
      ensures !saved ==> reminder == NotAsked
    {
      saved, n := CreateAndSave(ctx, id, trimmed, Voice, audioFileName, audioDuration, confidence, now);
      reminder := NotAsked;
      if saved {
        reminder := ScheduleResurfacing(n, center, defaults);
        showSaveConfirmation := true;
      }
    }

    /**
     * `saveVoiceNote(...)`: a blank transcript changes nothing; otherwise a
     * voice note with the trimmed transcript and the recording's details
     * is inserted and saved, and on failure deleted again.
     */
    method SaveVoiceNote(transcript: string, audioFileName: Option<string>, audioDuration: Option<real>,
                         confidence: Option<real>, ctx: Context, center: Center, defaults: Defaults,
                         id: Uuid, now: int) returns (saved: bool, note: Option<Note>, reminder: ReminderOutcome)
      modifies this`showSaveConfirmation, ctx, center
      ensures IsBlank(transcript, WhitespacesAndNewlines) ==>
        !saved && note == None && unchanged(this) && unchanged(ctx) && unchanged(center)
      ensures !IsBlank(transcript, WhitespacesAndNewlines) ==> note.Some? && fresh(note.value)
      ensures note.Some? ==> var n := note.value;
        && n.id == id && n.text == Trim(transcript, WhitespacesAndNewlines)
        && n.Source() == Voice && n.Status() == Active && n.createdAt == now
        && n.audioFileName == audioFileName && n.audioDuration == audioDuration
        && n.transcriptionConfidence == confidence
      ensures !saved && note.Some? ==>
        ctx.records == old(ctx.records) && ctx.pending == old(ctx.pending) && unchanged(this) && unchanged(center)
      ensures saved ==> note.Some? && ctx.records == old(ctx.records) + old(ctx.pending) + [note.value] && ctx.pending == []
      ensures saved ==> showSaveConfirmation
      ensures saved ==> Scheduled(old(center.pending), center.pending, note.value,
                                  defaults.BoolOr(QuietHoursKey, true), defaults.IntOr(MaxDailyKey, 3), reminder)
      ensures !saved ==> reminder == NotAsked
    {
      var trimmed := Trim(transcript, WhitespacesAndNewlines);
      if trimmed == [] {
        return false, None, NotAsked;
      }
      var n;
      saved, n, reminder := SaveTranscript(trimmed, audioFileName, audioDuration, confidence, ctx, center, defaults, id, now);
      note := Some(n);
    }

    /** `handlePrefill(_:)`: a present, non-empty text replaces the typed one. */
    method HandlePrefill(prefill: Option<string>)
      modifies this`text
      ensures prefill.Some? && prefill.value != [] ==> text == prefill.value
      ensures !(prefill.Some? && prefill.value != []) ==> text == old(text)
    {
      if prefill.Some? && prefill.value != [] {
        text := prefill.value;
      }
    }

    /**
     * `markAsTask(context:)`: the note remembered for the suggestion, if
     * any, becomes a task and is saved; the suggestion is then forgotten.
     */
    method MarkAsTask(ctx: Context, now: int)
      modifies this`lastSavedNote, ctx, if lastSavedNote.Some? then {lastSavedNote.value} else {}
      ensures old(lastSavedNote).None? ==> unchanged(ctx) && lastSavedNote == None
      ensures old(lastSavedNote).Some? ==> var n := old(lastSavedNote).value;
        && n.isTask && n.Status() == Task && n.updatedAt == now
        && n.isTriaged == old(n.isTriaged) && n.TriageFieldsKept()
        && SavedOrKept(ctx)
      ensures lastSavedNote == None
    {
      if lastSavedNote.None? {
        return;
      }
      var n := lastSavedNote.value;
      n.isTask := true;
      n.SetStatus(Task);
      n.updatedAt := now;
      var _ := ctx.Save();
      lastSavedNote := None;
    }

    /**
     * `mergeWithPrevious(context:)`: unless both halves of the pair are
     * remembered nothing changes. Otherwise the current note's text is
     * appended to the previous one's after a blank line, the current note
     * is soft-deleted and its reminders cancelled, the context is saved and
     * the pair is forgotten. When both are the same note, its doubled text
     * is deleted with it.
     */
    method MergeWithPrevious(ctx: Context, center: Center, now: int)
      modifies this`mergeCurrentNote, this`mergePreviousNote, ctx, center
      modifies if mergeCurrentNote.Some? && mergePreviousNote.Some? then {mergeCurrentNote.value, mergePreviousNote.value} else {}
      ensures !(old(mergeCurrentNote).Some? && old(mergePreviousNote).Some?) ==>
        && unchanged(ctx) && center.pending == old(center.pending)
        && mergeCurrentNote == old(mergeCurrentNote) && mergePreviousNote == old(mergePreviousNote)
      ensures old(mergeCurrentNote).Some? && old(mergePreviousNote).Some? ==>
        var c := old(mergeCurrentNote).value;
        var p := old(mergePreviousNote).value;
        && p.text == old(p.text) + "\n\n" + old(c.text)
        && p.updatedAt == now && c.updatedAt == now
        && c.Status() == Deleted
        && (c != p ==> p.statusRaw == old(p.statusRaw) && c.text == old(c.text))
        && p.OtherFieldsKept() && c.OtherFieldsKept()
        && center.pending == old(center.pending) - CancelIds(old(center.pending), c.id)
        && SavedOrKept(ctx)
        && mergeCurrentNote == None && mergePreviousNote == None
    {
      if mergeCurrentNote.None? || mergePreviousNote.None? {
        return;
      }
      var current := mergeCurrentNote.value;
      FoldInto(current, mergePreviousNote.value, now);
      CancelResurfacing(center, current.id);
      var _ := ctx.Save();
      mergeCurrentNote := None;
      mergePreviousNote := None;
    }

    /** `dismissMerge()`: the pair is forgotten. */
    method DismissMerge()
      modifies this`mergeCurrentNote, this`mergePreviousNote
      ensures mergeCurrentNote == None && mergePreviousNote == None
    {
      mergeCurrentNote := None;
      mergePreviousNote := None;
    }
  }

  /** The note edits of `mergeWithPrevious(context:)`. */
  method FoldInto(c: Note, p: Note, now: int)
    modifies c, p
    ensures p.text == old(p.text) + "\n\n" + old(c.text)
    ensures p.updatedAt == now && c.updatedAt == now && c.Status() == Deleted
    ensures c != p ==> p.statusRaw == old(p.statusRaw) && c.text == old(c.text)
    ensures p.OtherFieldsKept() && c.OtherFieldsKept()
  {
    p.text := p.text + "\n\n" + c.text;
    p.updatedAt := now;
    c.SetStatus(Deleted);
    c.updatedAt := now;
  }

  /**
   * A draft saved from a text that can be saved comes back unchanged when
   * the screen is next created; a blank text's draft comes back empty.
   */
  method DraftRoundTrip(vm: CaptureViewModel, defaults: Defaults) returns (next: CaptureViewModel)
    modifies defaults
    ensures vm.CanSave() ==> next.text == vm.text
    ensures !vm.CanSave() ==> next.text == []
  {
    vm.SaveDraft(defaults);
    next := new CaptureViewModel(defaults);
  }
}

=== FILE: capture_source.dfy ===
/** `CaptureSource`: where a note came from, with its label and icon tables. */
module CaptureSources {
  import opened Wrappers

  datatype CaptureSource = Keyboard | Voice | Share | Siri | Watch | Widget

  const AllCases: seq<CaptureSource> := [Keyboard, Voice, Share, Siri, Watch, Widget]

  function Raw(s: CaptureSource): string {
    match s
    case Keyboard => "keyboard"
    case Voice => "voice"
    case Share => "share"
    case Siri => "siri"
    case Watch => "watch"
    case Widget => "widget"
  }

  /** `CaptureSource(rawValue:)`: the case whose raw value is `raw`, if there is one. */
  function FromRaw(raw: string): (r: Option<CaptureSource>)
    ensures forall s :: r == Some(s) <==> Raw(s) == raw
  {
    if raw == "keyboard" then Some(Keyboard)
    else if raw == "voice" then Some(Voice)
    else if raw == "share" then Some(Share)
    else if raw == "siri" then Some(Siri)
    else if raw == "watch" then Some(Watch)
    else if raw == "widget" then Some(Widget)
    else None
  }

  /** The raw value read back with the `.keyboard` fallback used by notes and buffer entries. */
  function FromRawOrKeyboard(raw: string): (r: CaptureSource)
    ensures FromRaw(raw).Some? ==> Raw(r) == raw
    ensures FromRaw(raw).None? ==> r == Keyboard
  {
    FromRaw(raw).GetOr(Keyboard)
  }

  /** The user-facing label: pairwise different and never empty. */
  function DisplayName(s: CaptureSource): (r: string)
    ensures |r| > 0
  {
    match s
    case Keyboard => "Typed"
    case Voice => "Voice"
    case Share => "Shared"
    case Siri => "Siri"
    case Watch => "Watch"
    case Widget => "Widget"
  }

  /** The SF Symbol name shown beside a note: never empty. */
  function IconName(s: CaptureSource): (r: string)
    ensures |r| > 0
  {
    match s
    case Keyboard => "keyboard"
    case Voice => "mic.fill"
    case Share => "square.and.arrow.up"
    case Siri => "waveform"
    case Watch => "applewatch"
    case Widget => "square.grid.2x2"
  }

  /** Six cases; raw values and display names each tell the cases apart. */
  lemma CasesComplete(s: CaptureSource)
    ensures s in AllCases && |AllCases| == 6
    ensures forall i, j :: 0 <= i < j < |AllCases| ==>
      Raw(AllCases[i]) != Raw(AllCases[j]) && DisplayName(AllCases[i]) != DisplayName(AllCases[j])
  {
  }

  /** Parsing a case's raw value gives that case back; "" is no case. */
  lemma RawRoundTrip(s: CaptureSource)
    ensures FromRaw(Raw(s)) == Some(s) && FromRaw("") == None
  {
  }
}

=== FILE: capture_streak.dfy ===
/**
 * `CaptureStreakService.currentStreak(in:)`: how many consecutive days,
 * ending today, have at least one note that is not deleted. The days are
 * collected into a set, sorted newest first and walked from today back.
 */
module CaptureStreak {
  import opened Clock
  import opened Notes
  import opened NoteStore
  import opened Wrappers
  import opened NoteQueries

  /** The start of the day of each note's creation. */
  function DaysOf(ns: seq<Note>): (r: set<int>)
    reads ns
    ensures forall k :: 0 <= k < |ns| ==> StartOfDay(ns[k].createdAt) in r
    ensures forall d :: d in r ==> d % Day == 0
    decreases |ns|
  {
    if |ns| == 0 then {}
    else
      var front := ns[..|ns| - 1];
      var r := DaysOf(front) + {StartOfDay(ns[|ns| - 1].createdAt)};
      assert forall k :: 0 <= k < |front| ==> front[k] == ns[k];
      r
  }

  /** Every day of the set is the day of some note. */
  lemma {:induction false} DayOfSomeNote(ns: seq<Note>, d: int)
    requires d in DaysOf(ns)
    ensures exists k :: 0 <= k < |ns| && d == StartOfDay(ns[k].createdAt)
    decreases |ns|
  {
    var last := |ns| - 1;
    if d != StartOfDay(ns[last].createdAt) {
      var front := ns[..last];
      DayOfSomeNote(front, d);
      var k :| 0 <= k < |front| && d == StartOfDay(front[k].createdAt);
      assert front[k] == ns[k];
    }
  }

  /**
   * Reference meaning of a streak: the number of days `d`, `d - 1 day`,
   * `d - 2 days`, ... that are all in `days`, at most `fuel` of them.
   */
  function Run(days: set<int>, d: int, fuel: nat): (n: nat)
    ensures n <= fuel
    ensures n > 0 ==> d in days
    decreases fuel
  {
    if fuel == 0 || d !in days then 0 else 1 + Run(days, d - Day, fuel - 1)
  }

  /**
   * The streak the service promises: zero unless today is the newest day
   * with a note, and otherwise the run of days back from today.
   */
  function Streak(days: set<int>, today: int): (n: nat)
    ensures n <= |days|
    ensures n > 0 <==> today in days && forall d :: d in days ==> d <= today
  {
    if today in days && forall d :: d in days ==> d <= today then
      assert Run(days, today, |days|) > 0 by {
        assert |days| > 0;
      }
      Run(days, today, |days|)
    else 0
  }

  predicate StrictlyDescending(s: seq<int>) {
    forall i, j :: 0 <= i < j < |s| ==> s[i] > s[j]
  }

  /** The `for note in notes { uniqueDays.insert(...) }` loop. */
  method CollectDays(notes: seq<Note>) returns (days: set<int>)
    ensures days == DaysOf(notes)
  {
    days := {};
    for i := 0 to |notes|
      invariant days == DaysOf(notes[..i])
    {
      assert notes[..i + 1][..i] == notes[..i];
      days := days + {StartOfDay(notes[i].createdAt)};
    }
    assert notes[..|notes|] == notes;
  }

  /** Every non-empty finite set of integers has a largest element. */
  lemma {:induction false} MaxExists(s: set<int>)
    requires s != {}
    ensures exists m :: m in s && forall x :: x in s ==> x <= m
    decreases |s|
  {
    if forall y :: y !in s {
      assert false;
    }
    var y :| y in s;
    var t := s - {y};
    assert forall x :: x in s ==> x == y || x in t;
    if t != {} {
      MaxExists(t);
      var m :| m in t && forall x :: x in t ==> x <= m;
      if y > m {
        assert forall x :: x in s ==> x <= y;
      } else {
        assert m in s && forall x :: x in s ==> x <= m;
      }
    } else {
      assert forall x :: x in s ==> x == y;
    }
  }

  /** `uniqueDays.sorted(by: >)`: every day once, newest first. */
  method SortDays(days: set<int>) returns (sorted: seq<int>)
    ensures StrictlyDescending(sorted) && |sorted| == |days|
    ensures forall x :: x in days <==> x in sorted
  {
    var rest := days;
    sorted := [];
    while rest != {}
      invariant StrictlyDescending(sorted)
      invariant rest <= days
      invariant forall x :: x in days <==> x in rest || x in sorted
      invariant forall x, k :: x in rest && 0 <= k < |sorted| ==> x < sorted[k]
      invariant |sorted| + |rest| == |days|
      decreases |rest|
    {
      MaxExists(rest);
      var m :| m in rest && forall x :: x in rest ==> x <= m;
      sorted := sorted + [m];
      rest := rest - {m};
    }
  }

  /** Of two different midnights, the earlier is at least a day before the later. */
  lemma DayBefore(a: int, b: int)
    requires a % Day == 0 && b % Day == 0 && a < b
    ensures a <= b - Day
  {
    assert a == (a / Day) * Day && b == (b / Day) * Day;
  }

  /**
   * When the sorted days begin `today`, `today - 1 day`, ..., for `i`
   * places and then break off, the run back from today has length `i`.
   */
  lemma {:induction false} RunOfSorted(days: set<int>, sorted: seq<int>, today: int, i: nat, j: nat)
    requires StrictlyDescending(sorted) && |sorted| == |days|
    requires forall x :: x in days <==> x in sorted
    requires forall x :: x in days ==> x % Day == 0
    requires today % Day == 0
    requires 1 <= i <= |sorted| && j <= i
    requires forall k :: 0 <= k < i ==> sorted[k] == today - k * Day
    requires i == |sorted| || sorted[i] != today - i * Day
    ensures Run(days, today - j * Day, |days| - j) == i - j
    decreases i - j
  {
    if j < i {
      assert sorted[j] in days;
      assert today - j * Day - Day == today - (j + 1) * Day;
      RunOfSorted(days, sorted, today, i, j + 1);
    } else if i < |sorted| {
      GapMeansMissing(days, sorted, today, i);
    }
  }

  /** A gap in the sorted days after `i` matching places means the next day back is missing. */
  lemma GapMeansMissing(days: set<int>, sorted: seq<int>, today: int, i: nat)
    requires StrictlyDescending(sorted)
    requires forall x :: x in days <==> x in sorted
    requires forall x :: x in days ==> x % Day == 0
    requires today % Day == 0
    requires 1 <= i < |sorted|
    requires forall k :: 0 <= k < i ==> sorted[k] == today - k * Day
    requires sorted[i] != today - i * Day
    ensures today - i * Day !in days
  {
    var e := today - i * Day;
    var prev := sorted[i - 1];
    assert prev == e + Day;
    assert prev % Day == 0 by {
      assert prev in days;
    }
    assert sorted[i] % Day == 0 by {
      assert sorted[i] in days;
    }
    DayBefore(sorted[i], prev);
    assert sorted[i] < e;
    forall m | 0 <= m < |sorted|
      ensures sorted[m] != e
    {
      if m < i {
        assert sorted[m] == today - m * Day;
        assert m * Day < i * Day;
      } else if m > i {
        assert sorted[m] < sorted[i];
      }
    }
  }

  /**
   * The walk over the sorted days: zero when there are none or the newest
   * is not today; otherwise one, plus one for each following day that is
   * exactly one day earlier, stopping at the first gap.
   */
  method StreakOf(days: set<int>, today: int) returns (streak: nat)
    requires forall d :: d in days ==> d % Day == 0
    requires today % Day == 0
    ensures streak == Streak(days, today)
  {
    var sorted := SortDays(days);
    if |sorted| == 0 {
      return 0;
    }
    if sorted[0] != today {
      assert !(today in days && forall d :: d in days ==> d <= today) by {
        if today in days {
          assert sorted[0] in days;
        }
      }
      return 0;
    }
    assert forall d :: d in days ==> d <= today;
    streak := 1;
    var i := 1;
    while i < |sorted|
      invariant 1 <= i <= |sorted| && streak == i
      invariant forall k :: 0 <= k < i ==> sorted[k] == today - k * Day
    {
      var expected := today - i * Day;
      if sorted[i] == expected {
        streak := streak + 1;
      } else {
        break;
      }
      i := i + 1;
    }
    RunOfSorted(days, sorted, today, i, 0);
  }

  /**
   * `currentStreak(in:)`: a failed fetch gives zero; otherwise the streak
   * of the days of the notes that are not deleted, counted back from the
   * start of today. `fetched` is whether the fetch succeeded, which the
   * app does not report.
   */
  method CurrentStreak(ctx: Context, now: int) returns (fetched: bool, streak: nat)
    ensures fetched ==> streak == Streak(DaysOf(Select(ctx.All(), NotDeleted)), StartOfDay(now))
    ensures !fetched ==> streak == 0
  {
    var found := Fetch(ctx, NotDeleted);
    fetched := found.Some?;
    if found.None? {
      return false, 0;
    }
    var live := found.value;
    streak := StreakOfNotes(live, StartOfDay(now));
    assert live == Select(ctx.All(), NotDeleted);
  }

  /** The streak of a list of notes, walked newest first as the service does. */
  method StreakOfNotes(live: seq<Note>, today: int) returns (streak: nat)
    requires today % Day == 0
    ensures streak == Streak(DaysOf(live), today)
  {
    var notes := SortDesc(live, ByCreatedAt);
    var days := CollectDays(notes);
    SameDays(live, notes);
    streak := StreakOf(days, today);
  }

  /** Reordering the notes does not change their days. */
  lemma SameDays(a: seq<Note>, b: seq<Note>)
    requires multiset(a) == multiset(b)
    ensures DaysOf(a) == DaysOf(b)
  {
    forall d | d in DaysOf(a)
      ensures d in DaysOf(b)
    {
      DayOfSomeNote(a, d);
      var k :| 0 <= k < |a| && d == StartOfDay(a[k].createdAt);
      assert a[k] in multiset(b);
      var m :| 0 <= m < |b| && b[m] == a[k];
    }
    forall d | d in DaysOf(b)
      ensures d in DaysOf(a)
    {
      DayOfSomeNote(b, d);
      var k :| 0 <= k < |b| && d == StartOfDay(b[k].createdAt);
      assert b[k] in multiset(a);
      var m :| 0 <= m < |a| && a[m] == b[k];
    }
  }

  /** A note today and none later: the streak is at least one. */
  lemma TodayCounts(days: set<int>, today: int)
    requires today in days && forall d :: d in days ==> d <= today
    ensures Streak(days, today) >= 1
  {
  }

  /** Removing a day can only shorten the run back from any day. */
  lemma {:induction false} RunMonotone(days: set<int>, fewer: set<int>, d: int, fuel: nat)
    requires fewer <= days
    ensures Run(fewer, d, fuel) <= Run(days, d, fuel)
    decreases fuel
  {
    if fuel > 0 && d in fewer {
      RunMonotone(days, fewer, d - Day, fuel - 1);
    }
  }
}

=== FILE: checklist.dfy ===
/**
 * `ChecklistEditor`: a note's text edited as a list of checklist items.
 * Text is parsed into items line by line ("- [x] ", "- [X] " and "- [ ] "
 * prefixes mark the checkbox) and items are written back as "- [x] c" or
 * "- [ ] c" lines. The items list is edited in place: append, insert after
 * an item, remove an item.
 */
module Checklist {
  import opened Wrappers
  import opened Strings
  import opened Ids

  /** What an item holds apart from its identity. */
  datatype Entry = Entry(content: string, isCompleted: bool)

  /** `ChecklistItem`: an identity drawn at creation, the text and the checkbox. */
  datatype Item = Item(id: Uuid, content: string, isCompleted: bool) {
    function ToEntry(): Entry {
      Entry(content, isCompleted)
    }
  }

  function Entries(items: seq<Item>): (r: seq<Entry>)
    ensures |r| == |items|
    ensures forall i :: 0 <= i < |items| ==> r[i] == items[i].ToEntry()
    decreases |items|
  {
    if |items| == 0 then [] else [items[0].ToEntry()] + Entries(items[1..])
  }

  predicate IsLineFeed(c: char) {
    c == '\n'
  }

  /**
   * The `compactMap` closure of `parseText`: a blank line gives nothing;
   * a checked or unchecked prefix gives an item with the rest of the
   * trimmed line; any other line is an unchecked item holding all of it.
   */
  function ParseLine(line: string): (r: Option<Entry>)
    ensures r.None? <==> IsBlank(line, Whitespaces)
  {
    var trimmed := Trim(line, Whitespaces);
    if HasPrefix(trimmed, "- [x] ") || HasPrefix(trimmed, "- [X] ") then
      Some(Entry(trimmed[6..], true))
    else if HasPrefix(trimmed, "- [ ] ") then
      Some(Entry(trimmed[6..], false))
    else if trimmed != [] then Some(Entry(trimmed, false))
    else None
  }

  /** `lines.compactMap { ... }`: the entries of the non-blank lines, in order. */
  function ParseLines(lines: seq<string>): (r: seq<Entry>)
    ensures |r| <= |lines|
    decreases |lines|
  {
    if |lines| == 0 then []
    else
      var rest := ParseLines(lines[1..]);
      match ParseLine(lines[0])
      case Some(e) => [e] + rest
      case None => rest
  }

  /** What `parseText` sets the items' entries to; nothing for empty text. */
  function ParsedText(text: string): Option<seq<Entry>> {
    if text == [] then None else Some(ParseLines(SplitWhere(text, IsLineFeed)))
  }

  /**
   * The items `serializeToText` writes: the ones with content, or every
   * item when there is exactly one.
   */
  function Kept(items: seq<Item>): (r: seq<Item>)
    ensures |items| == 1 ==> r == items
    ensures |items| != 1 ==> forall i :: 0 <= i < |r| ==> r[i].content != [] && r[i] in items
    ensures |items| != 1 ==> forall i :: 0 <= i < |items| && items[i].content != [] ==> items[i] in r
    ensures (forall i :: 0 <= i < |items| ==> items[i].content != []) ==> r == items
  {
    if |items| == 1 then items else WithContent(items)
  }

  /** The items whose content is not empty, in order. */
  function WithContent(items: seq<Item>): (r: seq<Item>)
    ensures forall i :: 0 <= i < |r| ==> r[i].content != [] && r[i] in items
    ensures forall i :: 0 <= i < |items| && items[i].content != [] ==> items[i] in r
    ensures (forall i :: 0 <= i < |items| ==> items[i].content != []) ==> r == items
    decreases |items|
  {
    if |items| == 0 then []
    else
      var rest := WithContent(items[1..]);
      assert forall i :: 1 <= i < |items| ==> items[i] == items[1..][i - 1];
      if items[0].content != [] then
        assert items == [items[0]] + items[1..];
        [items[0]] + rest
      else rest
  }

  /** A single item is kept exactly when it has content. */
  lemma WithContentSingle(it: Item)
    ensures WithContent([it]) == if it.content != [] then [it] else []
  {
    assert [it][1..] == [];
  }

  /**
   * Dropping the items without content works piecewise, so it keeps the
   * order and the repetitions of the items it keeps.
   */
  lemma {:induction false} WithContentConcat(a: seq<Item>, b: seq<Item>)
    ensures WithContent(a + b) == WithContent(a) + WithContent(b)
    decreases |a|
  {
    if |a| == 0 {
      assert a + b == b;
    } else {
      assert (a + b)[0] == a[0] && (a + b)[1..] == a[1..] + b;
      WithContentConcat(a[1..], b);
    }
  }

  /** The line an item is written as. */
  function LineOf(it: Item): string {
    Checkbox(it.isCompleted) + it.content
  }

  /** `"- \(checkbox) "` with the checkbox "[x]" or "[ ]". */
  function Checkbox(completed: bool): string {
    if completed then "- [x] " else "- [ ] "
  }

  function LinesOf(items: seq<Item>): (r: seq<string>)
    ensures |r| == |items|
    ensures forall i :: 0 <= i < |items| ==> r[i] == LineOf(items[i])
    decreases |items|
  {
    if |items| == 0 then [] else [LineOf(items[0])] + LinesOf(items[1..])
  }

  /** The text `serializeToText` assigns. */
  function SerializedText(items: seq<Item>): string {
    Join(LinesOf(Kept(items)), "\n")
  }

  /**
   * Content that survives a round trip: not empty, on one line, and not
   * ending in a space or tab that trimming would drop.
   */
  predicate Survives(content: string) {
    content != [] && '\n' !in content && !IsSpace(content[|content| - 1])
  }

  /** An item's line parses back to the item's entry when its content survives. */
  lemma LineRoundTrip(it: Item)
    requires Survives(it.content)
    ensures ParseLine(LineOf(it)) == Some(it.ToEntry())
  {
    var line := LineOf(it);
    LineTrimmed(it);
    assert line[..6] == Checkbox(it.isCompleted) && line[6..] == it.content;
    if !it.isCompleted {
      assert line[3] == ' ';
    }
  }

  /** Trimming leaves an item's line as it is when its content survives. */
  lemma LineTrimmed(it: Item)
    requires Survives(it.content)
    ensures Trim(LineOf(it), Whitespaces) == LineOf(it)
  {
    var line := LineOf(it);
    assert line[0] == '-' && line[|line| - 1] == it.content[|it.content| - 1];
  }

  lemma {:induction false} LinesRoundTrip(items: seq<Item>)
    requires forall i :: 0 <= i < |items| ==> Survives(items[i].content)
    ensures ParseLines(LinesOf(items)) == Entries(items)
    decreases |items|
  {
    if |items| > 0 {
      LineRoundTrip(items[0]);
      LinesRoundTrip(items[1..]);
    }
  }

  /**
   * Serialising and parsing again gives every item's content and checkbox
   * back, in order, when each content survives.
   */
  lemma RoundTrip(items: seq<Item>)
    requires |items| >= 1
    requires forall i :: 0 <= i < |items| ==> Survives(items[i].content)
    ensures ParsedText(SerializedText(items)) == Some(Entries(items))
  {
    var lines := LinesOf(items);
    assert Kept(items) == items;
    LinesSingle(items);
    SplitJoin(lines, '\n', IsLineFeed);
    JoinNonEmpty(lines, "\n");
    LinesRoundTrip(items);
  }

  /** Lines of items whose content is on one line hold no line feed. */
  lemma LinesSingle(items: seq<Item>)
    requires forall i :: 0 <= i < |items| ==> '\n' !in items[i].content
    ensures forall k :: 0 <= k < |items| ==> NoneIn(LinesOf(items)[k], IsLineFeed)
    ensures |items| >= 1 ==> LinesOf(items)[0] != []
  {
    forall k | 0 <= k < |items|
      ensures NoneIn(LinesOf(items)[k], IsLineFeed)
    {
      LineSingle(items[k]);
    }
  }

  /** An item's line holds a line feed only if its content does. */
  lemma LineSingle(it: Item)
    requires '\n' !in it.content
    ensures NoneIn(LineOf(it), IsLineFeed)
  {
    var p := Checkbox(it.isCompleted);
    var line := LineOf(it);
    forall i | 0 <= i < |line|
      ensures !IsLineFeed(line[i])
    {
      if i >= |p| {
        assert line[i] == it.content[i - |p|];
      }
    }
  }

  /** A join of lines, the first not empty, is not empty. */
  lemma JoinNonEmpty(parts: seq<string>, sep: string)
    requires |parts| >= 1 && parts[0] != []
    ensures Join(parts, sep) != []
  {
  }

  /**
   * The exception: a single item with no content is written as "- [ ] "
   * (or "- [x] "), and trimming that line drops the final space, so it
   * parses back as an unchecked item whose content is the checkbox itself.
   */
  lemma SingleEmptyItem(it: Item)
    requires it.content == []
    ensures ParsedText(SerializedText([it])) == Some([Entry(if it.isCompleted then "- [x]" else "- [ ]", false)])
    ensures ParsedText(SerializedText([it])) != Some(Entries([it]))
  {
    var line := LineOf(it);
    assert line == Checkbox(it.isCompleted);
    assert SerializedText([it]) == line by {
      assert Kept([it]) == [it];
      assert LinesOf([it]) == [line];
    }
    LineSingle(it);
    SplitJoin([line], '\n', IsLineFeed);
    BareCheckbox(it.isCompleted);
    assert ParseLines([line]) == [Entry(line[..5], false)];
    CheckboxStem(it.isCompleted);
  }

  lemma CheckboxStem(completed: bool)
    ensures Checkbox(completed)[..5] == if completed then "- [x]" else "- [ ]"
  {
  }

  /** A checkbox with nothing after it loses its last space and matches no prefix. */
  lemma BareCheckbox(completed: bool)
    ensures ParseLine(Checkbox(completed)) == Some(Entry(Checkbox(completed)[..5], false))
  {
    var line := Checkbox(completed);
    assert line[0] == '-' && line[4] == ']' && line[5] == ' ';
    TrimLastSpace(line);
    var trimmed := line[..5];
    assert |trimmed| == 5 && trimmed != [];
    assert !HasPrefix(trimmed, "- [x] ") && !HasPrefix(trimmed, "- [X] ") && !HasPrefix(trimmed, "- [ ] ");
  }

  /** Trimming a line that ends in one space, and starts and ends otherwise, drops that space. */
  lemma TrimLastSpace(s: string)
    requires |s| >= 2 && !IsSpace(s[0]) && IsSpace(s[|s| - 1]) && !IsSpace(s[|s| - 2])
    ensures Trim(s, Whitespaces) == s[..|s| - 1]
  {
    assert TrimLeading(s, Whitespaces) == s;
    var front := s[..|s| - 1];
    assert front[|front| - 1] == s[|s| - 2];
    assert TrimTrailing(front, Whitespaces) == front;
  }

  /** The first position holding an item with this identity. */
  function FirstIndex(items: seq<Item>, id: Uuid): (r: Option<nat>)
    ensures r.None? <==> forall j :: 0 <= j < |items| ==> items[j].id != id
    ensures r.Some? ==> r.value < |items| && items[r.value].id == id
    ensures r.Some? ==> forall j :: 0 <= j < r.value ==> items[j].id != id
    decreases |items|
  {
    if |items| == 0 then None
    else if items[0].id == id then Some(0)
    else
      var rest := FirstIndex(items[1..], id);
      assert forall j :: 1 <= j < |items| ==> items[j] == items[1..][j - 1];
      if rest.Some? then Some(rest.value + 1) else None
  }

  /** `removeAll { $0.id == id }`: every other item, in order. */
  function RemoveId(items: seq<Item>, id: Uuid): (r: seq<Item>)
    ensures |r| <= |items|
    ensures forall i :: 0 <= i < |r| ==> r[i].id != id && r[i] in items
    ensures forall i :: 0 <= i < |items| && items[i].id != id ==> items[i] in r
    decreases |items|
  {
    if |items| == 0 then []
    else
      var rest := RemoveId(items[1..], id);
      assert forall i :: 1 <= i < |items| ==> items[i] == items[1..][i - 1];
      if items[0].id == id then rest else [items[0]] + rest
  }

  /** A single item is removed exactly when it has the id. */
  lemma RemoveIdSingle(it: Item, id: Uuid)
    ensures RemoveId([it], id) == if it.id == id then [] else [it]
  {
    assert [it][1..] == [];
  }

  /**
   * Removing by id works piecewise, so the remaining items keep their
   * order and each appears as often as before.
   */
  lemma {:induction false} RemoveIdConcat(a: seq<Item>, b: seq<Item>, id: Uuid)
    ensures RemoveId(a + b, id) == RemoveId(a, id) + RemoveId(b, id)
    decreases |a|
  {
    if |a| == 0 {
      assert a + b == b;
    } else {
      assert (a + b)[0] == a[0] && (a + b)[1..] == a[1..] + b;
      RemoveIdConcat(a[1..], b, id);
    }
  }

  /** An item for each entry, each with an identity of its own drawing. */
  method MakeItems(entries: seq<Entry>) returns (items: seq<Item>)
    ensures Entries(items) == entries
    decreases |entries|
  {
    if |entries| == 0 {
      return [];
    }
    var id := NewUuid();
    var rest := MakeItems(entries[1..]);
    items := [Item(id, entries[0].content, entries[0].isCompleted)] + rest;
    assert Entries(items) == [entries[0]] + entries[1..];
  }

  class ChecklistEditor {
    var text: string
    var items: seq<Item>
    var focusedItemID: Option<Uuid>

    constructor(text: string)
      ensures this.text == text && items == [] && focusedItemID == None
    {
      this.text := text;
      items := [];
      focusedItemID := None;
    }

    /** `addItem()`: a new empty, unchecked item at the end, focused. */
    method AddItem()
      modifies this`items, this`focusedItemID
      ensures |items| == |old(items)| + 1 && items[..|old(items)|] == old(items)
      ensures items[|items| - 1].ToEntry() == Entry("", false)
      ensures focusedItemID == Some(items[|items| - 1].id)
    {
      var id := NewUuid();
      var newItem := Item(id, "", false);
      items := items + [newItem];
      focusedItemID := Some(id);
    }

    /**
     * `addItemAfter(_:)`: a new empty item right after the first item with
     * the same identity, focused; nothing when there is none.
     */
    method AddItemAfter(item: Item)
      modifies this`items, this`focusedItemID
      ensures FirstIndex(old(items), item.id).None? ==>
        items == old(items) && focusedItemID == old(focusedItemID)
      ensures FirstIndex(old(items), item.id).Some? ==>
        var i := FirstIndex(old(items), item.id).value;
        && |items| == |old(items)| + 1
        && items[..i + 1] == old(items)[..i + 1]
        && items[i + 2..] == old(items)[i + 1..]
        && items[i + 1].ToEntry() == Entry("", false)
        && focusedItemID == Some(items[i + 1].id)
    {
      var index := FirstIndex(items, item.id);
      if index.None? {
        return;
      }
      var id := NewUuid();
      var newItem := Item(id, "", false);
      var at := index.value + 1;
      items := items[..at] + [newItem] + items[at..];
      focusedItemID := Some(id);
    }

    /**
     * `removeItem(_:)`: every item with that identity goes; a list left
     * empty gets one new empty item, so the list is never empty.
     */
    method RemoveItem(item: Item)
      modifies this`items, this`focusedItemID
      ensures items != []
      ensures RemoveId(old(items), item.id) != [] ==>
        items == RemoveId(old(items), item.id) && focusedItemID == old(focusedItemID)
      ensures RemoveId(old(items), item.id) == [] ==>
        |items| == 1 && items[0].ToEntry() == Entry("", false) && focusedItemID == Some(items[0].id)
    {
      items := RemoveId(items, item.id);
      if items == [] {
        AddItem();
      }
    }

    /** `parseText()`: empty text leaves the items alone; otherwise they are replaced. */
    method ParseText()
      modifies this`items
      ensures ParsedText(text).None? ==> items == old(items)
      ensures ParsedText(text).Some? ==> Entries(items) == ParsedText(text).value
    {
      if text == [] {
        return;
      }
      var lines := SplitWhere(text, IsLineFeed);
      items := MakeItems(ParseLines(lines));
    }

    /** `serializeToText()`. */
    method SerializeToText()
      modifies this`text
      ensures text == SerializedText(items)
    {
      var lines: seq<string> := LinesOf(Kept(items));
      text := Join(lines, "\n");
    }

    /**
     * `onAppear`: the text is parsed, and an empty list gets one empty
     * item, so the editor always shows at least one row.
     */
    method Appear()
      modifies this`items, this`focusedItemID
      ensures items != []
      ensures ParsedText(text).None? && old(items) != [] ==>
        items == old(items) && focusedItemID == old(focusedItemID)
      ensures ParsedText(text).Some? && ParsedText(text).value != [] ==>
        Entries(items) == ParsedText(text).value && focusedItemID == old(focusedItemID)
      ensures ParsedText(text) == Some([]) || (ParsedText(text).None? && old(items) == []) ==>
        Entries(items) == [Entry("", false)] && focusedItemID == Some(items[0].id)
    {
      ParseText();
      if items == [] {
        AddItem();
      }
    }
  }
}

=== FILE: clock.dfy ===
/**
 * Wall-clock time as integer seconds in one fixed time zone without daylight
 * saving: the instant 0 is a midnight, every day has 86 400 seconds.
 */
module Clock {

  const Day: int := 86400
  const HourLength: int := 3600

  /** `Calendar.component(.hour, from: t)`. */
  function Hour(t: int): (h: int)
    ensures 0 <= h < 24
  {
    (t % Day) / HourLength
  }

  /** `Calendar.startOfDay(for: t)`: the midnight that begins t's day. */
  function StartOfDay(t: int): (d: int)
    ensures d <= t < d + Day && d % Day == 0
  {
    t - t % Day
  }

  /** `Calendar.isDate(a, inSameDayAs: b)`. */
  predicate SameDay(a: int, b: int) {
    StartOfDay(a) == StartOfDay(b)
  }

  /** An instant `k` seconds after a midnight lies on that midnight's day. */
  lemma DayOffset(d: int, k: int)
    requires d % Day == 0 && 0 <= k < Day
    ensures StartOfDay(d + k) == d && Hour(d + k) == k / HourLength
  {
    assert d == (d / Day) * Day;
    assert (d + k) % Day == k;
  }

  /** `date(bySettingHour: h, minute: 0, second: 0, of: t)`. */
  function AtHour(t: int, h: int): (r: int)
    requires 0 <= h < 24
    ensures SameDay(r, t) && Hour(r) == h && r == StartOfDay(t) + h * HourLength
    ensures r % HourLength == 0 && r % 60 == 0
  {
    var d := StartOfDay(t);
    var r := d + h * HourLength;
    DayOffset(d, h * HourLength);
    var q := d / Day;
    assert d == q * Day;
    assert r == (q * 24 + h) * HourLength == (q * 1440 + h * 60) * 60;
    MultipleMod(q * 24 + h);
    MultipleMod(q * 1440 + h * 60);
    r
  }

  lemma MultipleMod(k: int)
    ensures (k * HourLength) % HourLength == 0 && (k * 60) % 60 == 0
  {
  }

  /** The same clock time one calendar day later (`date(byAdding: .day, value: 1, to: t)`). */
  function NextDay(t: int): (r: int)
    ensures StartOfDay(r) == StartOfDay(t) + Day && Hour(r) == Hour(t)
  {
    var r := t + Day;
    DayOffset(StartOfDay(t) + Day, t - StartOfDay(t));
    DayOffset(StartOfDay(t), t - StartOfDay(t));
    r
  }

  /**
   * A calendar trigger built from year, month, day, hour and minute fires at
   * the start of that minute.
   */
  function MinuteOf(t: int): (r: int)
    ensures r <= t < r + 60 && r % 60 == 0
  {
    t - t % 60
  }
}

=== FILE: date_helpers.dfy ===
/**
 * `DateHelpers.durationString(from:)`: a recording length shown as
 * minutes and two-digit seconds. The interval is a real number of
 * seconds; `Int(_:)` truncates it toward zero, and Swift's `/` and `%`
 * truncate toward zero as well.
 */
module DateHelpers {
  import opened Wrappers
  import opened Strings
  import opened Ints

  /**
   * `String(format: "%02d", n)`: at least two characters, a zero put in
   * front of a single digit; a negative number already fills the width
   * once its sign is counted.
   */
  function Pad2(n: int): (r: string)
    ensures 0 <= n < 10 ==> r == ['0', DigitChar(n)]
  {
    if 0 <= n < 10 then "0" + IntToString(n) else IntToString(n)
  }

  /**
   * `durationString(from:)`: for every interval, negative ones included,
   * a minutes part and a seconds part of at least two characters around
   * exactly one colon; under a minute the minutes part is "0".
   */
  function DurationString(interval: real): (r: string)
    ensures |SplitWhere(r, IsColon)| == 2 && |SplitWhere(r, IsColon)[1]| >= 2
    ensures SplitWhere(r, IsColon)[0] != []
    ensures interval < 60.0 ==> SplitWhere(r, IsColon)[0] == "0"
  {
    var whole := Truncate(interval);
    var minutes := TruncDiv(whole, 60);
    var seconds := TruncRem(whole, 60);
    var m := if minutes > 0 then IntToString(minutes) else "0";
    IntToStringNoColon(minutes);
    IntToStringNoColon(seconds);
    SplitJoin([m, Pad2(seconds)], ':', IsColon);
    m + ":" + Pad2(seconds)
  }

  predicate IsColon(c: char) {
    c == ':'
  }

  /** A written integer, sign included, holds no colon. */
  lemma IntToStringNoColon(i: int)
    ensures NoneIn(IntToString(i), IsColon) && NoneIn(Pad2(i), IsColon)
    ensures |Pad2(i)| >= 2
  {
    NatToStringDigits(if i < 0 then -i else i);
    if i >= 10 {
      NatToStringDigits(i / 10);
    }
  }

  /**
   * Reading "M:SS" back as seconds: a non-empty digit string, a colon and
   * exactly two digits. This is the inverse the display is meant to have.
   */
  function ParseDuration(s: string): (r: Option<nat>)
    ensures r.Some? ==> ':' in s
  {
    var parts := SplitWhere(s, IsColon);
    if |parts| == 2 && |parts[0]| >= 1 && AllDigits(parts[0]) && |parts[1]| == 2 && AllDigits(parts[1]) then
      SplitHasSeparator(s, IsColon);
      Some(DigitsValue(parts[0]) * 60 + DigitsValue(parts[1]))
    else None
  }

  /** A split into more than one piece found a separator. */
  lemma {:induction false} SplitHasSeparator(s: string, isSep: char -> bool)
    requires |SplitWhere(s, isSep)| >= 2
    ensures exists i :: 0 <= i < |s| && isSep(s[i])
    decreases |s|
  {
    if s != [] && !isSep(s[0]) {
      SplitHasSeparator(s[1..], isSep);
      var i :| 0 <= i < |s[1..]| && isSep(s[1..][i]);
      assert isSep(s[i + 1]);
    }
  }

  /** Two decimal digits read back as the number they were made from. */
  lemma Pad2Value(n: nat)
    requires n < 60
    ensures |Pad2(n)| == 2 && AllDigits(Pad2(n)) && DigitsValue(Pad2(n)) == n
  {
    var p := Pad2(n);
    if n < 10 {
      assert p[..1] == "0";
    } else {
      NatToStringDigits(n);
      NatToStringDigits(n / 10);
      assert IntToString(n) == NatToString(n / 10) + [DigitChar(n % 10)];
      assert NatToString(n / 10) == [DigitChar(n / 10)];
      assert p[..1] == [DigitChar(n / 10)];
    }
  }

  /** Digits hold no colon. */
  lemma DigitsNoColon(s: string)
    requires AllDigits(s)
    ensures NoneIn(s, IsColon)
  {
  }

  /**
   * For a non-negative interval the display reads back as its whole
   * seconds: minutes, a colon, then the seconds in two digits.
   */
  lemma DurationRoundTrip(interval: real)
    requires interval >= 0.0
    ensures ParseDuration(DurationString(interval)) == Some(Truncate(interval) as nat)
  {
    var whole := Truncate(interval);
    DurationShape(interval);
    ParseShown(whole / 60, whole % 60);
  }

  /** A non-negative interval shows as its minutes and its padded seconds around a colon. */
  lemma DurationShape(interval: real)
    requires interval >= 0.0
    ensures Truncate(interval) >= 0
    ensures DurationString(interval) == Join([IntToString(Truncate(interval) / 60), Pad2(Truncate(interval) % 60)], ":")
  {
    assert IntToString(0) == "0";
  }

  /** Minutes and two-digit seconds around a colon are read back as that many seconds. */
  lemma ParseShown(minutes: nat, seconds: nat)
    requires seconds < 60
    ensures ParseDuration(Join([IntToString(minutes), Pad2(seconds)], ":")) == Some(minutes * 60 + seconds)
  {
    var m := IntToString(minutes);
    var ss := Pad2(seconds);
    NatToStringDigits(minutes);
    Pad2Value(seconds);
    DigitsNoColon(m);
    DigitsNoColon(ss);
    SplitJoin([m, ss], ':', IsColon);
  }

  /** Under a minute the display starts with "0:"; the fractional part is dropped. */
  lemma DurationUnderMinute(interval: real)
    requires 0.0 <= interval < 60.0
    ensures DurationString(interval) == "0:" + Pad2(Truncate(interval))
  {
  }

  /**
   * A negative interval keeps only the sign of its seconds: two minutes
   * and five seconds before shows as "0:-5".
   */
  lemma NegativeInterval()
    ensures DurationString(-125.0) == "0:-5"
  {
    assert Truncate(-125.0) == -125;
    assert TruncDiv(-125, 60) == -2;
    assert TruncRem(-125, 60) == -5;
    assert IntToString(-5) == "-5";
  }
}

=== FILE: entry_codec.dfy ===
/**
 * The one-line JSON form of a buffer entry. The encoder escapes what
 * RFC 8259 section 7 requires (quotation mark, reverse solidus and the
 * control characters U+0000 to U+001F) and nothing else; the decoder
 * accepts the form the encoder writes. Timestamps are whole seconds.
 */
module EntryCodec {
  import opened Wrappers
  import opened Strings
  import opened Ids
  import opened BufferEntries

  /** A character the encoder leaves as it is. */
  predicate IsPlain(c: char) {
    c >= ' ' && c != '"' && c != '\\'
  }

  function HexDigit(d: nat): (c: char)
    requires d < 16
  {
    if d < 10 then (d + '0' as int) as char else (d - 10 + 'a' as int) as char
  }

  predicate IsLowerHex(c: char) {
    ('0' <= c <= '9') || ('a' <= c <= 'f')
  }

  function HexValue(c: char): (d: nat)
    requires IsLowerHex(c)
    ensures d < 16
  {
    if c <= '9' then c as int - '0' as int else c as int - 'a' as int + 10
  }

  lemma HexRoundTrip(d: nat)
    requires d < 16
    ensures IsLowerHex(HexDigit(d)) && HexValue(HexDigit(d)) == d
  {
  }

  /** The escaped form of one character. */
  function EscapeChar(c: char): (r: string)
    ensures |r| >= 1 && forall i :: 0 <= i < |r| ==> r[i] >= ' '
  {
    if c == '"' then "\\\""
    else if c == '\\' then "\\\\"
    else if c < ' ' then "\\u00" + [HexDigit(c as int / 16), HexDigit(c as int % 16)]
    else [c]
  }

  /** The body of a JSON string literal holding `s`. */
  function Escape(s: string): (r: string)
    ensures forall i :: 0 <= i < |r| ==> r[i] >= ' '
    decreases |s|
  {
    if |s| == 0 then "" else EscapeChar(s[0]) + Escape(s[1..])
  }

  /** Prepends `c` to the decoded part of a string-literal parse. */
  function Cons(c: char, p: Option<(string, string)>): Option<(string, string)> {
    match p
    case None => None
    case Some(q) => Some(([c] + q.0, q.1))
  }

  /**
   * Decodes a string literal whose opening quote is already consumed: the
   * characters up to the closing quote and what follows it.
   */
  function ParseString(s: string): Option<(string, string)>
    decreases |s|
  {
    if |s| == 0 then None
    else if s[0] == '"' then Some(("", s[1..]))
    else if s[0] == '\\' then
      if |s| >= 2 && (s[1] == '"' || s[1] == '\\') then Cons(s[1], ParseString(s[2..]))
      else if |s| >= 6 && s[1] == 'u' && s[2] == '0' && s[3] == '0' && IsLowerHex(s[4]) && IsLowerHex(s[5]) then
        Cons((HexValue(s[4]) * 16 + HexValue(s[5])) as char, ParseString(s[6..]))
      else None
    else if s[0] < ' ' then None
    else Cons(s[0], ParseString(s[1..]))
  }

  /** One escaped character decodes to itself in front of whatever follows. */
  lemma ParseEscapedChar(c: char, tail: string)
    ensures ParseString(EscapeChar(c) + tail) == Cons(c, ParseString(tail))
  {
    var s := EscapeChar(c) + tail;
    if c == '"' || c == '\\' {
      assert s[0] == '\\' && s[1] == c && s[2..] == tail;
    } else if c < ' ' {
      var hi, lo := c as int / 16, c as int % 16;
      HexRoundTrip(hi);
      HexRoundTrip(lo);
      assert s[0] == '\\' && s[1] == 'u' && s[2] == '0' && s[3] == '0';
      assert s[4] == HexDigit(hi) && s[5] == HexDigit(lo) && s[6..] == tail;
      assert (hi * 16 + lo) as char == c;
    } else {
      assert s[0] == c && s[1..] == tail;
    }
  }

  /** The body of a string field followed by its closing quote and the rest of the line. */
  function Field(x: string, rest: string): string {
    Escape(x) + "\"" + rest
  }

  lemma {:induction false} ParseEscaped(x: string, rest: string)
    ensures ParseString(Field(x, rest)) == Some((x, rest))
    decreases |x|
  {
    if |x| == 0 {
      assert Field(x, rest) == "\"" + rest;
    } else {
      ParseEscaped(x[1..], rest);
      assert Field(x, rest) == EscapeChar(x[0]) + Field(x[1..], rest);
      ParseEscapedChar(x[0], Field(x[1..], rest));
      assert [x[0]] + x[1..] == x;
    }
  }

  /** A string the encoder writes unchanged is its own escaped form. */
  lemma {:induction false} EscapePlain(s: string)
    requires forall i :: 0 <= i < |s| ==> IsPlain(s[i])
    ensures Escape(s) == s
    decreases |s|
  {
    if |s| > 0 {
      EscapePlain(s[1..]);
      assert s == [s[0]] + s[1..];
    }
  }

  /** Without a closing quote there is no string literal to decode. */
  lemma {:induction false} ParseUnterminated(x: string)
    ensures ParseString(Escape(x)) == None
    decreases |x|
  {
    if |x| > 0 {
      var c := x[0];
      var tail := Escape(x[1..]);
      ParseUnterminated(x[1..]);
      var s := EscapeChar(c) + tail;
      if c == '"' || c == '\\' {
        assert s[0] == '\\' && s[1] == c && s[2..] == tail;
      } else if c < ' ' {
        assert s[0] == '\\' && s[1] == 'u' && s[2] == '0' && s[3] == '0' && s[6..] == tail;
      } else {
        assert s[0] == c && s[1..] == tail;
      }
    }
  }

  /** The leading run of decimal digits. */
  function DigitRun(s: string): (n: nat)
    ensures n <= |s| && AllDigits(s[..n]) && (n == |s| || !IsDigit(s[n]))
    decreases |s|
  {
    if |s| > 0 && IsDigit(s[0]) then
      var n := 1 + DigitRun(s[1..]);
      assert s[..n] == [s[0]] + s[1..][..n - 1];
      n
    else 0
  }

  /** Decodes an optionally signed decimal integer and returns what follows it. */
  function ParseInt(s: string): Option<(int, string)> {
    if |s| > 0 && s[0] == '-' then
      var n := DigitRun(s[1..]);
      if n == 0 then None else Some((0 - DigitsValue(s[1..][..n]), s[1..][n..]))
    else
      var n := DigitRun(s);
      if n == 0 then None else Some((DigitsValue(s[..n]), s[n..]))
  }

  lemma {:induction false} DigitRunOf(d: string, rest: string)
    requires AllDigits(d) && (rest == [] || !IsDigit(rest[0]))
    ensures DigitRun(d + rest) == |d|
    decreases |d|
  {
    if |d| > 0 {
      assert (d + rest)[1..] == d[1..] + rest;
      DigitRunOf(d[1..], rest);
    } else {
      assert d + rest == rest;
    }
  }

  lemma ParseDigitsOf(n: nat, rest: string)
    requires rest == [] || !IsDigit(rest[0])
    ensures var d := NatToString(n);
      DigitRun(d + rest) == |d| && (d + rest)[..|d|] == d && (d + rest)[|d|..] == rest
      && DigitsValue(d) == n
  {
    var d := NatToString(n);
    NatToStringDigits(n);
    DigitRunOf(d, rest);
    assert (d + rest)[..|d|] == d && (d + rest)[|d|..] == rest;
  }

  lemma ParseIntOf(i: int, rest: string)
    requires rest == [] || !IsDigit(rest[0])
    ensures ParseInt(IntToString(i) + rest) == Some((i, rest))
  {
    if i < 0 {
      var d := NatToString(-i);
      assert IntToString(i) == "-" + d;
      assert IntToString(i) + rest == "-" + (d + rest);
      ParseNegativeOf(-i, rest);
    } else {
      ParseNaturalOf(i, rest);
    }
  }

  lemma ParseNaturalOf(n: nat, rest: string)
    requires rest == [] || !IsDigit(rest[0])
    ensures ParseInt(NatToString(n) + rest) == Some((n, rest))
  {
    var d := NatToString(n);
    var s := d + rest;
    ParseDigitsOf(n, rest);
    NatToStringDigits(n);
    assert s[0] == d[0] && IsDigit(d[0]);
  }

  lemma ParseNegativeOf(n: nat, rest: string)
    requires rest == [] || !IsDigit(rest[0])
    ensures ParseInt("-" + (NatToString(n) + rest)) == Some((0 - n, rest))
  {
    var d := NatToString(n);
    var s := "-" + (d + rest);
    ParseDigitsOf(n, rest);
    NatToStringDigits(n);
    assert s[0] == '-' && s[1..] == d + rest;
  }

  /** Consumes the literal `lit` from the front of `s`. */
  function Expect(lit: string, s: string): (r: Option<string>)
    ensures r.Some? <==> HasPrefix(s, lit)
    ensures r.Some? ==> s == lit + r.value
  {
    if HasPrefix(s, lit) then
      assert s == s[..|lit|] + s[|lit|..];
      Some(s[|lit|..])
    else None
  }

  lemma ExpectOf(lit: string, rest: string)
    ensures Expect(lit, lit + rest) == Some(rest)
  {
    assert (lit + rest)[..|lit|] == lit;
    assert (lit + rest)[|lit|..] == rest;
  }

  const IdKey: string := "{\"id\":\""
  const TextKey: string := ",\"text\":\""
  const SourceKey: string := ",\"sourceRaw\":\""
  const CapturedKey: string := ",\"capturedAt\":"
  const AudioKey: string := ",\"audioFileName\":\""

  /** The fields after `capturedAt`: the optional audio file name and the closing brace. */
  function Tail(audio: Option<string>): string {
    match audio
    case None => "}"
    case Some(a) => AudioKey + Field(a, "}")
  }

  /** `JSONEncoder().encode(entry)` as one line of text; a nil audio name is omitted. */
  function Serialise(e: BufferEntry): string {
    IdKey + Field(e.id, TextKey + Field(e.text, SourceKey + Field(e.sourceRaw,
      CapturedKey + (IntToString(e.capturedAt) + Tail(e.audioFileName)))))
  }

  /** No control character: every character is at least U+0020. */
  predicate NoControl(s: string) {
    forall i :: 0 <= i < |s| ==> s[i] >= ' '
  }

  lemma NoControlConcat(a: string, b: string)
    requires NoControl(a) && NoControl(b)
    ensures NoControl(a + b)
  {
    assert forall i :: |a| <= i < |a| + |b| ==> (a + b)[i] == b[i - |a|];
  }

  lemma NoControlField(x: string, rest: string)
    requires NoControl(rest)
    ensures NoControl(Field(x, rest))
  {
    NoControlConcat("\"", rest);
    NoControlConcat(Escape(x), "\"" + rest);
    assert Field(x, rest) == Escape(x) + ("\"" + rest);
  }

  lemma NoControlInt(i: int)
    ensures NoControl(IntToString(i))
  {
    NatToStringDigits(if i < 0 then -i else i);
    if i < 0 {
      NoControlConcat("-", NatToString(-i));
    }
  }

  lemma NoControlTail(audio: Option<string>)
    ensures NoControl(Tail(audio))
  {
    match audio
    case None =>
    case Some(a) =>
      NoControlField(a, "}");
      NoControlConcat(AudioKey, Field(a, "}"));
  }

  lemma NoControlKeyed(key: string, x: string, rest: string)
    requires NoControl(key) && NoControl(rest)
    ensures NoControl(key + Field(x, rest))
  {
    NoControlField(x, rest);
    NoControlConcat(key, Field(x, rest));
  }

  /**
   * An encoded entry holds no control character, so in particular no line
   * feed: `append` adds exactly one line to the file.
   */
  lemma SerialiseNoControl(e: BufferEntry)
    ensures NoControl(Serialise(e)) && '\n' !in Serialise(e)
  {
    var tail := Tail(e.audioFileName);
    NoControlTail(e.audioFileName);
    NoControlInt(e.capturedAt);
    NoControlConcat(IntToString(e.capturedAt), tail);
    var r3 := CapturedKey + (IntToString(e.capturedAt) + tail);
    NoControlConcat(CapturedKey, IntToString(e.capturedAt) + tail);
    var r2 := SourceKey + Field(e.sourceRaw, r3);
    NoControlKeyed(SourceKey, e.sourceRaw, r3);
    var r1 := TextKey + Field(e.text, r2);
    NoControlKeyed(TextKey, e.text, r2);
    NoControlKeyed(IdKey, e.id, r1);
    assert Serialise(e) == IdKey + Field(e.id, r1);
  }

  /** `JSONDecoder().decode(BufferEntry.self, from:)`: the entry, or None for a line it rejects. */
  function Parse(line: string): Option<BufferEntry> {
    var a :- Expect(IdKey, line);
    var idPart :- ParseString(a);
    var id :- ParseUuid(idPart.0);
    var b :- Expect(TextKey, idPart.1);
    var textPart :- ParseString(b);
    var c :- Expect(SourceKey, textPart.1);
    var sourcePart :- ParseString(c);
    var d :- Expect(CapturedKey, sourcePart.1);
    var at :- ParseInt(d);
    if at.1 == "}" then Some(BufferEntry(id, textPart.0, sourcePart.0, at.0, None))
    else
      var f :- Expect(AudioKey, at.1);
      var audioPart :- ParseString(f);
      if audioPart.1 == "}" then Some(BufferEntry(id, textPart.0, sourcePart.0, at.0, Some(audioPart.0)))
      else None
  }

  /** Decoding an encoded entry gives the entry back, every field intact. */
  lemma ParseSerialise(e: BufferEntry)
    ensures Parse(Serialise(e)) == Some(e)
  {
    var tail := Tail(e.audioFileName);
    var r3 := CapturedKey + (IntToString(e.capturedAt) + tail);
    var r2 := SourceKey + Field(e.sourceRaw, r3);
    var r1 := TextKey + Field(e.text, r2);
    ExpectOf(IdKey, Field(e.id, r1));
    ParseEscaped(e.id, r1);
    ParseCanonical(e.id);
    ExpectOf(TextKey, Field(e.text, r2));
    ParseEscaped(e.text, r2);
    ExpectOf(SourceKey, Field(e.sourceRaw, r3));
    ParseEscaped(e.sourceRaw, r3);
    ExpectOf(CapturedKey, IntToString(e.capturedAt) + tail);
    ParseIntOf(e.capturedAt, tail);
    match e.audioFileName
    case None =>
    case Some(a) =>
      ExpectOf(AudioKey, Field(a, "}"));
      ParseEscaped(a, "}");
  }
}

=== FILE: export_format.dfy ===
/**
 * `ExportFormat`: the three formats notes can be exported in, with the
 * name shown to the user, the file extension and the MIME type of each,
 * and the raw value the enum is stored under.
 */
module ExportFormats {
  import opened Wrappers

  datatype ExportFormat = Markdown | PlainText | Json

  /** `allCases`, in declaration order. */
  const AllFormats: seq<ExportFormat> := [Markdown, PlainText, Json]

  /** `displayName`: never empty. */
  function DisplayName(f: ExportFormat): (r: string)
    ensures |r| > 0
  {
    match f
    case Markdown => "Markdown"
    case PlainText => "Plain Text"
    case Json => "JSON"
  }

  /** `fileExtension`: a short lower-case word without a dot. */
  function FileExtension(f: ExportFormat): (r: string)
    ensures 2 <= |r| <= 4 && '.' !in r
  {
    match f
    case Markdown => "md"
    case PlainText => "txt"
    case Json => "json"
  }

  /** `mimeType`: a `type/subtype` pair. */
  function MimeType(f: ExportFormat): (r: string)
    ensures '/' in r
  {
    match f
    case Markdown => "text/markdown"
    case PlainText => "text/plain"
    case Json => "application/json"
  }

  /** The `String` raw value of the enum: the case name. */
  function RawValue(f: ExportFormat): string {
    match f
    case Markdown => "markdown"
    case PlainText => "plainText"
    case Json => "json"
  }

  /** `ExportFormat(rawValue:)`: the case whose raw value this is, if any. */
  function FromRawValue(s: string): (r: Option<ExportFormat>)
    ensures r.Some? ==> RawValue(r.value) == s
  {
    if s == "markdown" then Some(Markdown)
    else if s == "plainText" then Some(PlainText)
    else if s == "json" then Some(Json)
    else None
  }

  /** Every format is read back from its raw value. */
  lemma RawValueRoundTrip(f: ExportFormat)
    ensures FromRawValue(RawValue(f)) == Some(f)
  {
    match f
    case Markdown =>
    case PlainText =>
    case Json =>
  }

  /** `allCases` lists every format once. */
  lemma AllFormatsComplete(f: ExportFormat)
    ensures f in AllFormats
    ensures forall i, j :: 0 <= i < j < |AllFormats| ==> AllFormats[i] != AllFormats[j]
  {
  }

  /** The tables tell the formats apart: no two share an extension or a MIME type. */
  lemma TablesDistinct(f: ExportFormat, g: ExportFormat)
    requires f != g
    ensures FileExtension(f) != FileExtension(g)
    ensures MimeType(f) != MimeType(g)
    ensures DisplayName(f) != DisplayName(g)
  {
  }
}

=== FILE: export_service.dfy ===
/**
 * `DefaultExportService`: notes rendered as Markdown or plain text, one
 * block of lines per note in input order, the lines joined with "\n".
 * A note's timestamp is rendered by `stamp`, standing in for the locale's
 * full date formatter; the JSON encoder's output is a parameter.
 */
module ExportService {
  import opened Wrappers
  import opened Strings
  import opened Notes
  import opened ExportFormats

  /** The two layouts built line by line. */
  datatype Layout = MarkdownLayout | PlainLayout

  /** The lines Markdown output opens with. */
  const MarkdownHeader: seq<string> := ["# FlashNote Export", ""]

  function Header(l: Layout): seq<string> {
    match l
    case MarkdownLayout => MarkdownHeader
    case PlainLayout => []
  }

  /** How many lines one note contributes. */
  function BlockSize(l: Layout): nat {
    match l
    case MarkdownLayout => 6
    case PlainLayout => 3
  }

  /** Where in its block a note's text goes. */
  function TextLine(l: Layout): nat {
    match l
    case MarkdownLayout => 2
    case PlainLayout => 1
  }

  /** The lines one note adds: its timestamp heading, its text verbatim, and separators. */
  function Block(l: Layout, n: Note, stamp: int -> string): (r: seq<string>)
    reads n
    ensures |r| == BlockSize(l) && TextLine(l) < |r| && r[TextLine(l)] == n.text
  {
    match l
    case MarkdownLayout => ["## " + stamp(n.createdAt), "", n.text, "", "---", ""]
    case PlainLayout => ["[" + stamp(n.createdAt) + "]", n.text, ""]
  }

  /** The blocks of the notes, in input order. */
  function Blocks(l: Layout, ns: seq<Note>, stamp: int -> string): seq<string>
    reads ns
    decreases |ns|
  {
    if |ns| == 0 then []
    else Blocks(l, ns[..|ns| - 1], stamp) + Block(l, ns[|ns| - 1], stamp)
  }

  /** Every line of the output. */
  function Lines(l: Layout, ns: seq<Note>, stamp: int -> string): seq<string>
    reads ns
  {
    Header(l) + Blocks(l, ns, stamp)
  }

  /** The exported text. */
  function Render(l: Layout, ns: seq<Note>, stamp: int -> string): string
    reads ns
  {
    Join(Lines(l, ns, stamp), "\n")
  }

  /**
   * Note `i`'s block sits at `BlockSize * i` among the blocks, which hold
   * nothing else.
   */
  lemma {:induction false} BlocksAt(l: Layout, ns: seq<Note>, stamp: int -> string, i: nat)
    requires i < |ns|
    ensures |Blocks(l, ns, stamp)| == BlockSize(l) * |ns|
    ensures BlockSize(l) * i + BlockSize(l) <= |Blocks(l, ns, stamp)|
    ensures Blocks(l, ns, stamp)[BlockSize(l) * i .. BlockSize(l) * i + BlockSize(l)] == Block(l, ns[i], stamp)
    decreases |ns|
  {
    var k := BlockSize(l);
    var front := ns[..|ns| - 1];
    BlocksLength(l, front, stamp);
    assert k * |front| + k == k * |ns|;
    if i < |front| {
      BlocksAt(l, front, stamp, i);
      assert front[i] == ns[i];
      assert k * i + k <= k * |front| by {
        assert k * (|front| - i - 1) >= 0;
      }
    }
  }

  /** The blocks hold `BlockSize` lines per note. */
  lemma {:induction false} BlocksLength(l: Layout, ns: seq<Note>, stamp: int -> string)
    ensures |Blocks(l, ns, stamp)| == BlockSize(l) * |ns|
    decreases |ns|
  {
    if |ns| > 0 {
      BlocksLength(l, ns[..|ns| - 1], stamp);
    }
  }

  /**
   * The shape of the output: the header, then for each note, in input
   * order, its block of lines and nothing in between.
   */
  lemma LinesShape(l: Layout, ns: seq<Note>, stamp: int -> string, i: nat)
    requires i < |ns|
    ensures var h := |Header(l)|;
      var k := BlockSize(l);
      var ls := Lines(l, ns, stamp);
      && |ls| == h + k * |ns|
      && ls[..h] == Header(l)
      && h + k * i + k <= |ls|
      && ls[h + k * i .. h + k * i + k] == Block(l, ns[i], stamp)
  {
    BlocksAt(l, ns, stamp, i);
    var h := |Header(l)|;
    var k := BlockSize(l);
    var b := Blocks(l, ns, stamp);
    var ls := Lines(l, ns, stamp);
    var lo := k * i;
    assert ls == Header(l) + b;
    assert ls[..h] == Header(l);
    assert lo + k <= |b|;
    assert ls[h + lo .. h + lo + k] == b[lo .. lo + k];
  }

  /** Every note's text occurs verbatim, unescaped, in the exported text. */
  lemma TextExported(l: Layout, ns: seq<Note>, stamp: int -> string, i: nat)
    requires i < |ns|
    ensures Contains(Render(l, ns, stamp), ns[i].text)
  {
    LinesShape(l, ns, stamp, i);
    var h := |Header(l)|;
    var k := BlockSize(l);
    var at := h + k * i + TextLine(l);
    var ls := Lines(l, ns, stamp);
    assert ls[at] == ls[h + k * i .. h + k * i + k][TextLine(l)];
    JoinContains(ls, "\n", at);
  }

  /** Markdown output opens with the title line and a line break. */
  lemma MarkdownOpens(ns: seq<Note>, stamp: int -> string)
    ensures HasPrefix(Render(MarkdownLayout, ns, stamp), "# FlashNote Export\n")
  {
    var ls := Lines(MarkdownLayout, ns, stamp);
    assert ls[0] == "# FlashNote Export" && |ls| >= 2;
    assert Join(ls, "\n") == ls[0] + "\n" + Join(ls[1..], "\n");
  }

  /** A string without a '-' holds no "---". */
  lemma NoDashes(s: string)
    requires '-' !in s
    ensures !Contains(s, "---")
  {
    forall i | 0 <= i <= |s|
      ensures !HasPrefix(s[i..], "---")
    {
      if i < |s| {
        assert s[i..][0] == s[i];
      }
    }
  }

  /** Exporting no notes as Markdown gives the title line alone, with no separator. */
  lemma EmptyMarkdown(stamp: int -> string)
    ensures Render(MarkdownLayout, [], stamp) == "# FlashNote Export\n"
    ensures !Contains(Render(MarkdownLayout, [], stamp), "---")
  {
    assert Lines(MarkdownLayout, [], stamp) == MarkdownHeader;
    NoDashes("# FlashNote Export\n");
  }

  /** Exporting no notes as plain text gives the empty string. */
  lemma EmptyPlain(stamp: int -> string)
    ensures Render(PlainLayout, [], stamp) == ""
  {
    assert Lines(PlainLayout, [], stamp) == [];
  }

  /** `exportMarkdown` and `exportPlainText`: one pass appending each note's block. */
  method ExportLines(l: Layout, notes: seq<Note>, stamp: int -> string) returns (text: string)
    ensures text == Render(l, notes, stamp)
  {
    var lines := Header(l);
    for i := 0 to |notes|
      invariant lines == Header(l) + Blocks(l, notes[..i], stamp)
    {
      var note := notes[i];
      assert notes[..i + 1][..i] == notes[..i];
      match l {
        case MarkdownLayout =>
          lines := lines + ["## " + stamp(note.createdAt)];
          lines := lines + [""];
          lines := lines + [note.text];
          lines := lines + [""];
          lines := lines + ["---"];
          lines := lines + [""];
        case PlainLayout =>
          lines := lines + ["[" + stamp(note.createdAt) + "]"];
          lines := lines + [note.text];
          lines := lines + [""];
      }
    }
    assert notes[..|notes|] == notes;
    text := Join(lines, "\n");
  }

  /**
   * `export(notes:format:)`: Markdown and plain text as above; JSON is the
   * encoder's output, or "[]" when encoding fails (`encoded` is `None`).
   */
  method Export(notes: seq<Note>, format: ExportFormat, stamp: int -> string, encoded: Option<string>)
    returns (text: string)
    ensures format == Markdown ==> text == Render(MarkdownLayout, notes, stamp)
    ensures format == PlainText ==> text == Render(PlainLayout, notes, stamp)
    ensures format == Json ==> text == encoded.GetOr("[]")
  {
    match format {
      case Markdown =>
        text := ExportLines(MarkdownLayout, notes, stamp);
      case PlainText =>
        text := ExportLines(PlainLayout, notes, stamp);
      case Json =>
        text := if encoded.Some? then encoded.value else "[]";
    }
  }

  /** The name `exportToFile` writes under: a dated stem and the format's extension. */
  function ExportFileName(date: string, format: ExportFormat): (r: string)
    ensures HasPrefix(r, "FlashNote_Export_")
    ensures r[|r| - |FileExtension(format)| - 1..] == "." + FileExtension(format)
  {
    "FlashNote_Export_" + date + "." + FileExtension(format)
  }
}

=== FILE: hot_capture_buffer.dfy ===
/**
 * `FileBasedHotCaptureBuffer`: an append-only file with one encoded entry per
 * line. The file is modelled by its lines (None when there is no file); its
 * text is every line followed by a line feed.
 */
module HotCaptureBuffer {
  import opened Wrappers
  import opened Strings
  import opened Ids
  import opened BufferEntries
  import opened EntryCodec

  /** `BufferError`, plus the file-system errors the operations rethrow. */
  datatype BufferError = EncodingFailed | FileError

  predicate IsLineFeed(c: char) {
    c == '\n'
  }

  /** The text of a file holding `lines`: each line followed by "\n". */
  function Content(lines: seq<string>): string
    decreases |lines|
  {
    if |lines| == 0 then "" else lines[0] + "\n" + Content(lines[1..])
  }

  /** Lines written by `append` hold no line feed of their own. */
  predicate WellFormed(lines: seq<string>) {
    forall k :: 0 <= k < |lines| ==> NoneIn(lines[k], IsLineFeed)
  }

  /** `compactMap` of the decoder: the entries of the lines that decode, in order. */
  function DecodeAll(lines: seq<string>): (r: seq<BufferEntry>)
    ensures |r| <= |lines|
    decreases |lines|
  {
    if |lines| == 0 then []
    else
      match Parse(lines[0])
      case Some(e) => [e] + DecodeAll(lines[1..])
      case None => DecodeAll(lines[1..])
  }

  lemma {:induction false} DecodeAllConcat(a: seq<string>, b: seq<string>)
    ensures DecodeAll(a + b) == DecodeAll(a) + DecodeAll(b)
    decreases |a|
  {
    if |a| == 0 {
      assert a + b == b;
    } else {
      assert (a + b)[0] == a[0] && (a + b)[1..] == a[1..] + b;
      DecodeAllConcat(a[1..], b);
    }
  }

  /**
   * `readAll` as written: the text is split at every character of
   * `CharacterSet.newlines`, empty pieces are dropped and the rest decoded.
   */
  function ReadEntriesAsWritten(lines: seq<string>): seq<BufferEntry> {
    DecodeAll(NonEmpty(SplitWhere(Content(lines), IsNewline)))
  }

  /**
   * `readAll` corrected: split at the line feed that `append` writes, so
   * no other newline character can cut an entry apart.
   */
  function ReadEntries(lines: seq<string>): seq<BufferEntry> {
    DecodeAll(NonEmpty(SplitWhere(Content(lines), IsLineFeed)))
  }

  /** On well-formed lines, reading decodes exactly the non-empty lines. */
  lemma ReadWellFormed(lines: seq<string>)
    requires WellFormed(lines)
    ensures ReadEntries(lines) == DecodeAll(NonEmpty(lines))
  {
    SplitContent(lines, IsLineFeed);
    NonEmptyConcat(lines, [""]);
    assert NonEmpty([""]) == [];
    assert NonEmpty(lines) + [] == NonEmpty(lines);
  }

  /** Splitting the file text at a separator no line holds gives the lines and one empty tail. */
  lemma {:induction false} SplitContent(lines: seq<string>, isSep: char -> bool)
    requires isSep('\n')
    requires forall k :: 0 <= k < |lines| ==> NoneIn(lines[k], isSep)
    ensures SplitWhere(Content(lines), isSep) == lines + [""]
    decreases |lines|
  {
    if |lines| > 0 {
      var rest := Content(lines[1..]);
      SplitContent(lines[1..], isSep);
      assert ("\n" + rest)[0] == '\n' && ("\n" + rest)[1..] == rest;
      assert SplitWhere("\n" + rest, isSep) == [""] + SplitWhere(rest, isSep);
      assert Content(lines) == lines[0] + ("\n" + rest);
      SplitPrefix(lines[0], "\n" + rest, isSep);
      assert lines[0] + "" == lines[0];
      assert lines == [lines[0]] + lines[1..];
    }
  }

  /** The lines `append` writes for `es`, in order. */
  function Lines(es: seq<BufferEntry>): (r: seq<string>)
    ensures |r| == |es| && forall k :: 0 <= k < |es| ==> r[k] == Serialise(es[k])
    decreases |es|
  {
    if |es| == 0 then [] else [Serialise(es[0])] + Lines(es[1..])
  }

  lemma LinesSnoc(init: seq<BufferEntry>, last: BufferEntry)
    ensures Lines(init + [last]) == Lines(init) + [Serialise(last)]
  {
    var a, b := Lines(init + [last]), Lines(init) + [Serialise(last)];
    assert |a| == |b|;
    forall k | 0 <= k < |a| ensures a[k] == b[k] {
      if k < |init| {
        assert (init + [last])[k] == init[k];
      }
    }
  }

  lemma LineWellFormed(e: BufferEntry)
    ensures NoneIn(Serialise(e), IsLineFeed) && Serialise(e) != []
  {
    SerialiseNoControl(e);
    assert Serialise(e)[0] == '{';
  }

  /**
   * Reading the lines after one more `append` gives what was read before
   * followed by the appended entry.
   */
  lemma AppendThenRead(lines: seq<string>, e: BufferEntry)
    requires WellFormed(lines)
    ensures WellFormed(lines + [Serialise(e)])
    ensures ReadEntries(lines + [Serialise(e)]) == ReadEntries(lines) + [e]
  {
    LineWellFormed(e);
    var more := lines + [Serialise(e)];
    assert WellFormed(more);
    ReadWellFormed(lines);
    ReadWellFormed(more);
    NonEmptyConcat(lines, [Serialise(e)]);
    assert NonEmpty([Serialise(e)]) == [Serialise(e)];
    DecodeAllConcat(NonEmpty(lines), [Serialise(e)]);
    ParseSerialise(e);
  }

  /** None of the three newline characters that JSON leaves unescaped. */
  predicate NoWideNewline(s: string) {
    forall i :: 0 <= i < |s| ==> s[i] != '\U{85}' && s[i] != '\U{2028}' && s[i] != '\U{2029}'
  }

  /** The entry's strings hold none of the newlines that survive encoding. */
  predicate PlainEntry(e: BufferEntry) {
    && NoWideNewline(e.text) && NoWideNewline(e.sourceRaw)
    && (e.audioFileName.Some? ==> NoWideNewline(e.audioFileName.value))
  }

  lemma {:induction false} EscapeClean(x: string)
    requires NoWideNewline(x)
    ensures NoneIn(Escape(x), IsNewline)
    decreases |x|
  {
    if |x| > 0 {
      EscapeClean(x[1..]);
      var c := x[0];
      assert c != '\U{85}' && c != '\U{2028}' && c != '\U{2029}';
      if c < ' ' {
        HexRoundTrip(c as int / 16);
        HexRoundTrip(c as int % 16);
      }
      NoneInConcat(EscapeChar(c), Escape(x[1..]));
    }
  }

  lemma FieldClean(x: string, rest: string)
    requires NoWideNewline(x) && NoneIn(rest, IsNewline)
    ensures NoneIn(Field(x, rest), IsNewline)
  {
    EscapeClean(x);
    NoneInConcat("\"", rest);
    NoneInConcat(Escape(x), "\"" + rest);
    assert Field(x, rest) == Escape(x) + ("\"" + rest);
  }

  lemma KeyedClean(key: string, x: string, rest: string)
    requires NoneIn(key, IsNewline) && NoWideNewline(x) && NoneIn(rest, IsNewline)
    ensures NoneIn(key + Field(x, rest), IsNewline)
  {
    FieldClean(x, rest);
    NoneInConcat(key, Field(x, rest));
  }

  /**
   * An entry whose strings hold no U+0085, U+2028 or U+2029 is encoded
   * without any newline character at all.
   */
  lemma SerialisePlain(e: BufferEntry)
    requires PlainEntry(e)
    ensures NoneIn(Serialise(e), IsNewline)
  {
    var r3 := CapturedKey + (IntToString(e.capturedAt) + Tail(e.audioFileName));
    CapturedClean(e.capturedAt, e.audioFileName);
    KeyedClean(SourceKey, e.sourceRaw, r3);
    var r2 := SourceKey + Field(e.sourceRaw, r3);
    KeyedClean(TextKey, e.text, r2);
    var r1 := TextKey + Field(e.text, r2);
    UuidNoNewline(e.id);
    KeyedClean(IdKey, e.id, r1);
    assert Serialise(e) == IdKey + Field(e.id, r1);
  }

  lemma CapturedClean(at: int, audio: Option<string>)
    requires audio.Some? ==> NoWideNewline(audio.value)
    ensures NoneIn(CapturedKey + (IntToString(at) + Tail(audio)), IsNewline)
  {
    var digits, tail := IntToString(at), Tail(audio);
    TailClean(audio);
    DigitsClean(at);
    NoneInConcat(digits, tail);
    assert NoneIn(CapturedKey, IsNewline);
    NoneInConcat(CapturedKey, digits + tail);
  }

  lemma TailClean(audio: Option<string>)
    requires audio.Some? ==> NoWideNewline(audio.value)
    ensures NoneIn(Tail(audio), IsNewline)
  {
    if audio.Some? {
      KeyedClean(AudioKey, audio.value, "}");
    }
  }

  lemma DigitsClean(i: int)
    ensures NoneIn(IntToString(i), IsNewline)
  {
    NatToStringDigits(if i < 0 then -i else i);
    if i < 0 {
      NoneInConcat("-", NatToString(-i));
    }
  }

  /** Lines without any newline character read the same either way. */
  lemma {:induction false} AsWrittenAgrees(lines: seq<string>)
    requires forall k :: 0 <= k < |lines| ==> NoneIn(lines[k], IsNewline)
    ensures WellFormed(lines)
    ensures ReadEntriesAsWritten(lines) == ReadEntries(lines)
  {
    forall k | 0 <= k < |lines|
      ensures NoneIn(lines[k], IsLineFeed)
    {
      assert forall i :: 0 <= i < |lines[k]| ==> !IsNewline(lines[k][i]);
    }
    SplitContent(lines, IsNewline);
    SplitContent(lines, IsLineFeed);
  }

  /**
   * As written, appending one more entry whose strings hold none of
   * U+0085, U+2028, U+2029 reads back as what was read before followed by
   * that entry.
   */
  lemma {:induction false} AppendThenReadAsWritten(lines: seq<string>, e: BufferEntry)
    requires forall k :: 0 <= k < |lines| ==> NoneIn(lines[k], IsNewline)
    requires PlainEntry(e)
    ensures ReadEntriesAsWritten(lines + [Serialise(e)]) == ReadEntriesAsWritten(lines) + [e]
  {
    SerialisePlain(e);
    var more := lines + [Serialise(e)];
    assert forall k :: 0 <= k < |more| ==> NoneIn(more[k], IsNewline) by {
      forall k | 0 <= k < |more| ensures NoneIn(more[k], IsNewline) {
        if k < |lines| {
          assert more[k] == lines[k];
        }
      }
    }
    AsWrittenAgrees(lines);
    AsWrittenAgrees(more);
    AppendThenRead(lines, e);
  }

  /**
   * As written, appending e1..en whose strings hold none of U+0085,
   * U+2028, U+2029 to a buffer without a file and reading gives e1..en.
   */
  lemma {:induction false} ReadAppendedAsWritten(es: seq<BufferEntry>)
    requires forall k :: 0 <= k < |es| ==> PlainEntry(es[k])
    ensures ReadEntriesAsWritten(Lines(es)) == es
  {
    var ls := Lines(es);
    forall k | 0 <= k < |ls|
      ensures NoneIn(ls[k], IsNewline)
    {
      assert ls[k] == Serialise(es[k]);
      SerialisePlain(es[k]);
    }
    AsWrittenAgrees(ls);
    ReadAppended(es);
  }

  /** Appending e1..en to a buffer without a file and reading gives e1..en, in append order. */
  lemma {:induction false} ReadAppended(es: seq<BufferEntry>)
    ensures WellFormed(Lines(es)) && ReadEntries(Lines(es)) == es
    decreases |es|
  {
    if |es| == 0 {
      ReadNothing();
    } else {
      var init, last := es[..|es| - 1], es[|es| - 1];
      assert es == init + [last];
      ReadAppended(init);
      LinesSnoc(init, last);
      AppendThenRead(Lines(init), last);
    }
  }

  /** No lines are well formed and read as no entries. */
  lemma ReadNothing()
    ensures WellFormed([]) && ReadEntries([]) == []
  {
    ReadWellFormed([]);
    assert NonEmpty([]) == [];
  }

  /**
   * A line that does not decode is skipped and every other line is still
   * read, in order.
   */
  lemma SkipsCorrupt(before: seq<string>, bad: string, after: seq<string>)
    requires Parse(bad).None?
    ensures DecodeAll(before + [bad] + after) == DecodeAll(before) + DecodeAll(after)
  {
    DecodeAllConcat(before + [bad], after);
    DecodeAllConcat(before, [bad]);
  }

  /** Empty lines are dropped before decoding. */
  lemma SkipsEmpty(before: seq<string>, after: seq<string>)
    ensures NonEmpty(before + [""] + after) == NonEmpty(before) + NonEmpty(after)
  {
    NonEmptyConcat(before + [""], after);
    NonEmptyConcat(before, [""]);
  }

  class FileBuffer {
    /** The lines of the buffer file, or None when the file does not exist. */
    var lines: Option<seq<string>>

    ghost predicate Valid()
      reads this
    {
      lines.Some? ==> WellFormed(lines.value)
    }

    /** A buffer over a file with the given lines, or over no file. */
    constructor(file: Option<seq<string>>)
      requires file.Some? ==> WellFormed(file.value)
      ensures Valid() && lines == file
    {
      lines := file;
    }

    /**
     * `append(_:)`: one more line at the end, created with the file if there
     * was none. A failing write leaves the file as it was.
     */
    method Append(e: BufferEntry) returns (r: Result<(), BufferError>)
      requires Valid()
      modifies this
      ensures Valid()
      ensures r.Ok? ==> lines == Some(old(lines).GetOr([]) + [Serialise(e)])
      ensures r.Err? ==> r.error == FileError && lines == old(lines)
    {
      var line := Serialise(e);
      LineWellFormed(e);
      var writeFails: bool := *;
      if writeFails {
        return Err(FileError);
      }
      if lines.None? {
        assert [] + [line] == [line];
        lines := Some([line]);
      } else {
        lines := Some(lines.value + [line]);
      }
      r := Ok(());
    }

    /**
     * `readAll()`: no file reads as no entries; otherwise the decodable
     * pieces of the text split at every newline character, unless reading
     * the file fails. The file is not changed.
     */
    method ReadAll() returns (r: Result<seq<BufferEntry>, BufferError>)
      requires Valid()
      ensures lines.None? ==> r == Ok([])
      ensures r.Ok? ==> r.value == ReadEntriesAsWritten(lines.GetOr([]))
      ensures r.Err? ==> lines.Some? && r.error == FileError
    {
      match lines
      case None =>
        r := Ok([]);
        assert ReadEntriesAsWritten([]) == [] by {
          assert NonEmpty([""]) == [];
        }
      case Some(ls) =>
        var readFails: bool := *;
        if readFails {
          r := Err(FileError);
        } else {
          r := Ok(ReadEntriesAsWritten(ls));
        }
    }

    /**
     * `clear()`: removes the file; without a file it succeeds and does
     * nothing. A failing removal leaves the file as it was.
     */
    method Clear() returns (r: Result<(), BufferError>)
      requires Valid()
      modifies this
      ensures Valid()
      ensures old(lines).None? ==> r.Ok?
      ensures r.Ok? ==> lines == None
      ensures r.Err? ==> r.error == FileError && lines == old(lines)
    {
      if lines.None? {
        return Ok(());
      }
      var removeFails: bool := *;
      if removeFails {
        return Err(FileError);
      }
      lines := None;
      r := Ok(());
    }
  }

  /**
   * The entries the finding below is about: the text is a single U+2028 LINE
   * SEPARATOR, every other field is arbitrary.
   */
  function SeparatorEntry(u: Uuid, sourceRaw: string, capturedAt: int): BufferEntry {
    BufferEntry(u, "\U{2028}", sourceRaw, capturedAt, None)
  }

  /** What the encoder writes before the text of such an entry. */
  function SeparatorHead(u: Uuid): string {
    IdKey + (Escape(u) + ("\"" + TextKey))
  }

  /** What the encoder writes after the text of such an entry. */
  function SeparatorRest(sourceRaw: string, capturedAt: int): string {
    "\"" + (SourceKey + Field(sourceRaw, CapturedKey + (IntToString(capturedAt) + "}")))
  }

  lemma {:induction false} EscapeNoNewline(x: string)
    requires NoneIn(x, IsNewline)
    ensures NoneIn(Escape(x), IsNewline)
    decreases |x|
  {
    if |x| > 0 {
      EscapeNoNewline(x[1..]);
      assert !IsNewline(x[0]);
      NoneInConcat(EscapeChar(x[0]), Escape(x[1..]));
    }
  }

  lemma TimestampNoNewline(capturedAt: int)
    ensures NoneIn(CapturedKey + (IntToString(capturedAt) + "}"), IsNewline)
  {
    var digits := IntToString(capturedAt);
    NatToStringDigits(if capturedAt < 0 then -capturedAt else capturedAt);
    NoneInConcat(digits, "}");
    NoneInConcat(CapturedKey, digits + "}");
  }

  lemma FieldNoNewline(x: string, rest: string)
    requires NoneIn(x, IsNewline) && NoneIn(rest, IsNewline)
    ensures NoneIn(Field(x, rest), IsNewline)
  {
    EscapeNoNewline(x);
    NoneInConcat("\"", rest);
    NoneInConcat(Escape(x), "\"" + rest);
    assert Field(x, rest) == Escape(x) + ("\"" + rest);
  }

  lemma SeparatorRestNoNewline(sourceRaw: string, capturedAt: int)
    requires NoneIn(sourceRaw, IsNewline)
    ensures NoneIn(SeparatorRest(sourceRaw, capturedAt), IsNewline)
  {
    var t1 := CapturedKey + (IntToString(capturedAt) + "}");
    TimestampNoNewline(capturedAt);
    FieldNoNewline(sourceRaw, t1);
    NoneInConcat(SourceKey, Field(sourceRaw, t1));
    NoneInConcat("\"", SourceKey + Field(sourceRaw, t1));
  }

  lemma SeparatorHeadNoNewline(u: Uuid)
    ensures NoneIn(SeparatorHead(u), IsNewline)
  {
    UuidNoNewline(u);
    KeysNoNewline();
    NoneInConcat(u, "\"" + TextKey);
    NoneInConcat(IdKey, u + ("\"" + TextKey));
  }

  lemma UuidNoNewline(u: Uuid)
    ensures Escape(u) == u && NoneIn(u, IsNewline)
  {
    EscapePlain(u);
  }

  lemma KeysNoNewline()
    ensures NoneIn(IdKey, IsNewline) && NoneIn("\"" + TextKey, IsNewline)
  {
    NoneInConcat("\"", TextKey);
  }

  lemma EscapeLineSeparator(r: string)
    ensures Field("\U{2028}", r) == "\U{2028}" + ("\"" + r)
  {
    assert Escape("\U{2028}") == EscapeChar('\U{2028}') + Escape("");
  }

  lemma Regroup(a: string, b: string, c: string, d: string, e: string)
    ensures a + ((b + c) + (d + e)) == (a + (b + (c + d))) + e
  {
    assert (b + c) + (d + e) == b + (c + (d + e));
    assert c + (d + e) == (c + d) + e;
    assert b + ((c + d) + e) == (b + (c + d)) + e;
  }

  /** The encoded line of such an entry is two newline-free pieces around the raw U+2028. */
  lemma SeparatorLine(u: Uuid, sourceRaw: string, capturedAt: int)
    requires NoneIn(sourceRaw, IsNewline)
    ensures Serialise(SeparatorEntry(u, sourceRaw, capturedAt))
      == SeparatorHead(u) + ("\U{2028}" + SeparatorRest(sourceRaw, capturedAt))
    ensures NoneIn(SeparatorHead(u), IsNewline) && NoneIn(SeparatorRest(sourceRaw, capturedAt), IsNewline)
  {
    var r := SourceKey + Field(sourceRaw, CapturedKey + (IntToString(capturedAt) + "}"));
    EscapeLineSeparator(r);
    var h := "\U{2028}" + ("\"" + r);
    assert Serialise(SeparatorEntry(u, sourceRaw, capturedAt)) == IdKey + ((Escape(u) + "\"") + (TextKey + h));
    Regroup(IdKey, Escape(u), "\"", TextKey, h);
    SeparatorHeadNoNewline(u);
    SeparatorRestNoNewline(sourceRaw, capturedAt);
  }

  /** Neither piece decodes: the first stops inside the text field, the second lacks the opening brace. */
  lemma SeparatorPiecesRejected(u: Uuid, sourceRaw: string, capturedAt: int)
    ensures Parse(SeparatorHead(u)).None? && Parse(SeparatorRest(sourceRaw, capturedAt)).None?
  {
    assert SeparatorHead(u) == IdKey + Field(u, TextKey);
    ExpectOf(IdKey, Field(u, TextKey));
    ParseEscaped(u, TextKey);
    ParseCanonical(u);
    ExpectOf(TextKey, "");
    assert TextKey + "" == TextKey;
    assert SeparatorRest(sourceRaw, capturedAt)[0] == '"' && IdKey[0] == '{';
    assert !HasPrefix(SeparatorRest(sourceRaw, capturedAt), IdKey);
  }

  /**
   * As written, an entry whose text holds U+2028 LINE SEPARATOR, which JSON
   * leaves unescaped, is split into two pieces that both fail to decode, so
   * `readAll` loses it; the corrected reading returns it.
   */
  lemma LineSeparatorLosesEntry(u: Uuid, sourceRaw: string, capturedAt: int)
    requires NoneIn(sourceRaw, IsNewline)
    ensures ReadEntriesAsWritten([Serialise(SeparatorEntry(u, sourceRaw, capturedAt))]) == []
    ensures ReadEntries([Serialise(SeparatorEntry(u, sourceRaw, capturedAt))]) == [SeparatorEntry(u, sourceRaw, capturedAt)]
  {
    var e := SeparatorEntry(u, sourceRaw, capturedAt);
    ReadAppended([e]);
    assert Lines([e]) == [Serialise(e)];
    SeparatorLine(u, sourceRaw, capturedAt);
    SeparatorPiecesRejected(u, sourceRaw, capturedAt);
    var a, b := SeparatorHead(u), SeparatorRest(sourceRaw, capturedAt);
    assert a[0] == '{' && b[0] == '"';
    UndecodablePieces(Serialise(e), a, b);
  }

  /** A line made of two undecodable newline-free pieces around U+2028 yields nothing as written. */
  lemma UndecodablePieces(line: string, a: string, b: string)
    requires line == a + ("\U{2028}" + b)
    requires NoneIn(a, IsNewline) && NoneIn(b, IsNewline) && a != [] && b != []
    requires Parse(a).None? && Parse(b).None?
    ensures ReadEntriesAsWritten([line]) == []
  {
    assert Content([line]) == line + "\n" + Content([]);
    assert line + "\n" + "" == a + ("\U{2028}" + (b + "\n"));
    SplitAroundSeparator(a, b);
    assert [a, b][1..] == [b] && [b][1..] == [];
    assert DecodeAll([a, b]) == DecodeAll([b]) == DecodeAll([]);
  }

  /** Splitting on every newline character cuts `a`, U+2028, `b`, LF into `a`, `b`. */
  lemma SplitAroundSeparator(a: string, b: string)
    requires NoneIn(a, IsNewline) && NoneIn(b, IsNewline)
    requires a != [] && b != []
    ensures NonEmpty(SplitWhere(a + ("\U{2028}" + (b + "\n")), IsNewline)) == [a, b]
  {
    SplitPrefix(a, "\U{2028}" + (b + "\n"), IsNewline);
    assert ("\U{2028}" + (b + "\n"))[1..] == b + "\n";
    SplitPrefix(b, "\n", IsNewline);
    assert SplitWhere("\n", IsNewline) == ["", ""];
    assert a + "" == a && b + "" == b;
    assert SplitWhere(a + ("\U{2028}" + (b + "\n")), IsNewline) == [a, b, ""];
    assert NonEmpty([a, b, ""]) == [a] + NonEmpty([b, ""]);
    assert [b, ""][1..] == [""];
  }

  lemma NoneInConcat(a: string, b: string)
    requires NoneIn(a, IsNewline) && NoneIn(b, IsNewline)
    ensures NoneIn(a + b, IsNewline)
  {
    assert forall i :: |a| <= i < |a| + |b| ==> (a + b)[i] == b[i - |a|];
  }
}

=== FILE: ids.dfy ===
/**
 * Foundation's `UUID` as text: `uuidString` is the canonical upper-case
 * 8-4-4-4-12 form, and `UUID(uuidString:)` accepts that form in either case.
 */
module Ids {
  import opened Wrappers

  predicate IsDashPosition(i: int) {
    i == 8 || i == 13 || i == 18 || i == 23
  }

  predicate IsHexDigit(c: char) {
    ('0' <= c <= '9') || ('a' <= c <= 'f') || ('A' <= c <= 'F')
  }

  /** The textual form `UUID(uuidString:)` accepts. */
  predicate IsUuidText(s: string) {
    |s| == 36 && forall i :: 0 <= i < |s| ==> if IsDashPosition(i) then s[i] == '-' else IsHexDigit(s[i])
  }

  /** The form `uuidString` produces: no lower-case hex digit. */
  predicate IsCanonicalUuid(s: string) {
    IsUuidText(s) && forall i :: 0 <= i < |s| ==> !('a' <= s[i] <= 'f')
  }

  type Uuid = s: string | IsCanonicalUuid(s) witness "00000000-0000-0000-0000-000000000000"

  function UpperHex(c: char): (r: char)
    ensures 'a' <= c <= 'f' ==> r as int == c as int - 32
    ensures !('a' <= c <= 'f') ==> r == c
  {
    if 'a' <= c <= 'f' then (c as int - 32) as char else c
  }

  /**
   * `UUID(uuidString:)` followed by `uuidString`: the text is accepted exactly
   * when it has the 8-4-4-4-12 shape, and the value is the same text with its
   * hex digits in upper case.
   */
  function ParseUuid(s: string): (r: Option<Uuid>)
    ensures r.Some? <==> IsUuidText(s)
    ensures r.Some? ==> |r.value| == |s| && forall i :: 0 <= i < |s| ==> r.value[i] == UpperHex(s[i])
  {
    if IsUuidText(s) then
      var u := seq(|s|, i requires 0 <= i < |s| => UpperHex(s[i]));
      assert IsCanonicalUuid(u);
      Some(u)
    else None
  }

  /** The canonical text of a UUID parses back to that UUID. */
  lemma ParseCanonical(u: Uuid)
    ensures ParseUuid(u) == Some(u)
  {
    var r := ParseUuid(u);
    assert r.value == u;
  }

  /** `UUID()`: some UUID; which one is left open, and uniqueness is not modelled. */
  method NewUuid() returns (u: Uuid)
  {
    u := *;
  }
}

=== FILE: inbox.dfy ===
/**
 * `InboxViewModel`: the search field and its results, and the swipe actions
 * that delete, archive or pin a note.
 */
module Inbox {
  import opened Wrappers
  import opened Strings
  import opened NoteStatuses
  import opened Notes
  import opened NoteStore
  import opened NoteSearch
  import opened Notifications
  import opened ResurfacingScheduler

  class InboxViewModel {
    var searchText: string
    var searchResults: seq<Note>
    var isSearching: bool

    constructor()
      ensures searchText == "" && searchResults == [] && !isSearching
    {
      searchText := "";
      searchResults := [];
      isSearching := false;
    }

    /** `isSearchActive`: the search text has a character that is neither whitespace nor a newline. */
    function IsSearchActive(): (r: bool)
      reads this
      ensures r <==> exists i :: 0 <= i < |searchText| && !InClass(searchText[i], WhitespacesAndNewlines)
    {
      !IsBlank(searchText, WhitespacesAndNewlines)
    }

    /**
     * `search(in:)`: an inactive search clears the results without a fetch;
     * otherwise the results are the service's, or `[]` when it throws
     * (`failed`). Either way `isSearching` is false afterwards.
     */
    method Search(ctx: Context) returns (failed: bool)
      modifies this`searchResults, this`isSearching
      ensures !isSearching
      ensures !old(IsSearchActive()) ==> searchResults == [] && !failed
      ensures failed ==> searchResults == []
      ensures old(IsSearchActive()) && !failed ==> searchResults == old(SearchResults(ctx.All(), searchText))
    {
      if !IsSearchActive() {
        assert IsBlank(searchText, WhitespacesAndNewlines);
        searchResults := [];
        isSearching := false;
        return false;
      }
      var fetched := *;
      var found := NoteSearch.Search(ctx.All(), searchText, fetched);
      isSearching := true;
      failed := found.None?;
      searchResults := found.GetOr([]);
      isSearching := false;
    }
  }

  /**
   * `deleteNote(_:context:)`: a soft delete. The status becomes deleted,
   * the note's reminders are cancelled and the context is saved.
   */
  method DeleteNote(n: Note, ctx: Context, center: Center, now: int)
    modifies n`statusRaw, n`updatedAt, ctx, center
    ensures n.Status() == Deleted && n.updatedAt == now
    ensures center.pending == old(center.pending) - CancelIds(old(center.pending), n.id)
    ensures SavedOrKept(ctx)
  {
    n.SetStatus(Deleted);
    n.updatedAt := now;
    CancelResurfacing(center, n.id);
    var _ := ctx.Save();
  }

  /** `togglePin(_:context:)`: exactly `Note.togglePin`, then a save. */
  method TogglePin(n: Note, ctx: Context, now: int)
    modifies n`isPinned, n`pinnedAt, n`updatedAt, ctx
    ensures n.isPinned == !old(n.isPinned)
    ensures n.pinnedAt == if n.isPinned then Some(now) else None
    ensures n.updatedAt == now
    ensures SavedOrKept(ctx)
  {
    n.TogglePin(now);
    var _ := ctx.Save();
  }

  /**
   * `archiveNote(_:context:)`: archived and triaged, reminders cancelled,
   * then a save.
   */
  method ArchiveNote(n: Note, ctx: Context, center: Center, now: int)
    modifies n`statusRaw, n`updatedAt, n`isTriaged, ctx, center
    ensures n.Status() == Archived && n.isTriaged && n.updatedAt == now
    ensures center.pending == old(center.pending) - CancelIds(old(center.pending), n.id)
    ensures SavedOrKept(ctx)
  {
    n.SetStatus(Archived);
    n.updatedAt := now;
    n.isTriaged := true;
    CancelResurfacing(center, n.id);
    var _ := ctx.Save();
  }
}

=== FILE: inbox_sections.dfy ===
/**
 * `InboxSectionBuilder.build(from:)`: the inbox list split into titled
 * sections. Pinned notes form one section, most recently pinned first;
 * every other note goes to the first date bucket whose start it is not
 * before, keeping input order. Empty sections are left out. The calendar's
 * start of yesterday, of the week and of the month are a parameter that may
 * be missing, in which case everything goes into one "All" section.
 */
module InboxSections {
  import opened Wrappers
  import opened Clock
  import opened Notes
  import opened NoteStore

  datatype Bucket = PinnedBucket | TodayBucket | YesterdayBucket | ThisWeekBucket | ThisMonthBucket | OlderBucket

  /** `InboxSectionBuilder.Section`: a title and its notes. */
  datatype Section = Section(title: string, notes: seq<Note>)

  /** The starts the calendar supplies: yesterday, this week and this month. */
  datatype CalendarStarts = CalendarStarts(yesterday: int, week: int, month: int)

  /** All four boundaries a note's creation time is compared against. */
  datatype Boundaries = Boundaries(today: int, yesterday: int, week: int, month: int)

  /** The sections in the order they are shown. */
  const AllBuckets: seq<Bucket> :=
    [PinnedBucket, TodayBucket, YesterdayBucket, ThisWeekBucket, ThisMonthBucket, OlderBucket]

  function Title(k: Bucket): string {
    match k
    case PinnedBucket => "Pinned"
    case TodayBucket => "Today"
    case YesterdayBucket => "Yesterday"
    case ThisWeekBucket => "This Week"
    case ThisMonthBucket => "This Month"
    case OlderBucket => "Older"
  }

  /** A bucket's place in the display order. */
  function Rank(k: Bucket): (r: nat)
    ensures r < |AllBuckets| && AllBuckets[r] == k
  {
    match k
    case PinnedBucket => 0
    case TodayBucket => 1
    case YesterdayBucket => 2
    case ThisWeekBucket => 3
    case ThisMonthBucket => 4
    case OlderBucket => 5
  }

  /** Different buckets have different titles, so a section's title names its bucket. */
  lemma TitlesDistinct(k: Bucket, k': Bucket)
    requires k != k'
    ensures Title(k) != Title(k')
  {
  }

  /** The bucket the loop appends a note to: pinned first, then the first start not after its creation. */
  function BucketOf(n: Note, b: Boundaries): Bucket
    reads n
  {
    if n.isPinned then PinnedBucket
    else if n.createdAt >= b.today then TodayBucket
    else if n.createdAt >= b.yesterday then YesterdayBucket
    else if n.createdAt >= b.week then ThisWeekBucket
    else if n.createdAt >= b.month then ThisMonthBucket
    else OlderBucket
  }

  /** The notes of one bucket, in input order. */
  function InBucket(ns: seq<Note>, b: Boundaries, k: Bucket): (r: seq<Note>)
    reads ns
    ensures |r| <= |ns|
    decreases |ns|
  {
    if |ns| == 0 then []
    else
      var front := ns[..|ns| - 1];
      var last := ns[|ns| - 1];
      assert ns == front + [last];
      InBucket(front, b, k) + if BucketOf(last, b) == k then [last] else []
  }

  /** A bucket holds notes of the input, each no more often than the input does. */
  lemma {:induction false} InBucketSub(ns: seq<Note>, b: Boundaries, k: Bucket)
    ensures multiset(InBucket(ns, b, k)) <= multiset(ns)
    decreases |ns|
  {
    if |ns| > 0 {
      var front := ns[..|ns| - 1];
      InBucketSub(front, b, k);
      assert ns == front + [ns[|ns| - 1]];
    }
  }

  /** Every note of a bucket belongs to that bucket. */
  lemma {:induction false} InBucketSound(ns: seq<Note>, b: Boundaries, k: Bucket)
    ensures forall i :: 0 <= i < |InBucket(ns, b, k)| ==> BucketOf(InBucket(ns, b, k)[i], b) == k
    decreases |ns|
  {
    if |ns| > 0 {
      InBucketSound(ns[..|ns| - 1], b, k);
    }
  }

  /** The loop's step: the note at `i` joins its own bucket's list and no other. */
  lemma InBucketSnoc(ns: seq<Note>, b: Boundaries, i: nat)
    requires i < |ns|
    ensures forall k ::
      InBucket(ns[..i + 1], b, k) == InBucket(ns[..i], b, k) + (if BucketOf(ns[i], b) == k then [ns[i]] else [])
  {
    assert ns[..i + 1][..i] == ns[..i];
  }

  /** A note of the input is in its own bucket. */
  lemma {:induction false} InOwnBucket(ns: seq<Note>, b: Boundaries, i: nat)
    requires i < |ns|
    ensures ns[i] in InBucket(ns, b, BucketOf(ns[i], b))
    decreases |ns|
  {
    var front := ns[..|ns| - 1];
    if i < |ns| - 1 {
      InOwnBucket(front, b, i);
      assert front[i] == ns[i];
    }
  }

  /** Bucketing keeps input order: it distributes over concatenation. */
  lemma {:induction false} InBucketAppend(a: seq<Note>, c: seq<Note>, b: Boundaries, k: Bucket)
    ensures InBucket(a + c, b, k) == InBucket(a, b, k) + InBucket(c, b, k)
    decreases |c|
  {
    if |c| > 0 {
      var front := c[..|c| - 1];
      assert (a + c)[..|a + c| - 1] == a + front;
      assert (a + c)[|a + c| - 1] == c[|c| - 1];
      InBucketAppend(a, front, b, k);
    } else {
      assert a + c == a;
    }
  }

  /** A bucket's section notes: the pinned ones sorted by `pinnedAt`, newest first, the others as they came. */
  function BucketNotes(ns: seq<Note>, b: Boundaries, k: Bucket): (r: seq<Note>)
    reads ns
    ensures multiset(r) == multiset(InBucket(ns, b, k))
  {
    if k == PinnedBucket then
      InBucketSub(ns, b, k);
      SubMembers(InBucket(ns, b, k), ns);
      SortDesc(InBucket(ns, b, k), ByPinnedAt)
    else InBucket(ns, b, k)
  }

  /** The six buckets' section notes, in display order. */
  function Lists(ns: seq<Note>, b: Boundaries): (ls: seq<seq<Note>>)
    reads ns
    ensures |ls| == |AllBuckets|
    ensures forall k :: ls[Rank(k)] == BucketNotes(ns, b, k)
  {
    [BucketNotes(ns, b, PinnedBucket), BucketNotes(ns, b, TodayBucket), BucketNotes(ns, b, YesterdayBucket),
     BucketNotes(ns, b, ThisWeekBucket), BucketNotes(ns, b, ThisMonthBucket), BucketNotes(ns, b, OlderBucket)]
  }

  /** The section a bucket contributes: none when it is empty. */
  function Part(l: seq<Note>, k: Bucket): (r: seq<Section>)
    ensures |r| <= 1
  {
    if l == [] then [] else [Section(Title(k), l)]
  }

  /** The sections of the first `n` bucket lists: each list's part appended in turn. */
  function Assemble(ls: seq<seq<Note>>, ks: seq<Bucket>, n: nat): seq<Section>
    requires |ls| == |ks| && n <= |ks|
    decreases n
  {
    if n == 0 then [] else Assemble(ls, ks, n - 1) + Part(ls[n - 1], ks[n - 1])
  }

  /** What `build` returns once the calendar has supplied its starts. */
  function Sections(ns: seq<Note>, b: Boundaries): seq<Section>
    reads ns
  {
    Assemble(Lists(ns, b), AllBuckets, |AllBuckets|)
  }

  /** The positions among the first `n` whose lists are not empty, in increasing order. */
  function ShownAt(ls: seq<seq<Note>>, n: nat): (s: seq<nat>)
    requires n <= |ls|
    ensures |s| <= n
    ensures forall i :: 0 <= i < |s| ==> s[i] < n && ls[s[i]] != []
    ensures forall i, j :: 0 <= i < j < |s| ==> s[i] < s[j]
    decreases n
  {
    if n == 0 then []
    else ShownAt(ls, n - 1) + if ls[n - 1] != [] then [n - 1] else []
  }

  /** A position is shown exactly when its list is not empty. */
  lemma {:induction false} ShownAtMembers(ls: seq<seq<Note>>, n: nat, j: nat)
    requires j < n <= |ls|
    ensures j in ShownAt(ls, n) <==> ls[j] != []
    decreases n
  {
    if j < n - 1 {
      ShownAtMembers(ls, n - 1, j);
    } else {
      assert j !in ShownAt(ls, n - 1);
    }
  }

  /**
   * The sections of the first `n` lists: one per list that is not empty,
   * in the order of the lists, under that list's bucket's title and
   * holding that list.
   */
  lemma {:induction false} AssembleShown(ls: seq<seq<Note>>, ks: seq<Bucket>, n: nat)
    requires |ls| == |ks| && n <= |ks|
    ensures |Assemble(ls, ks, n)| == |ShownAt(ls, n)|
    ensures forall i :: 0 <= i < |ShownAt(ls, n)| ==>
      Assemble(ls, ks, n)[i] == Section(Title(ks[ShownAt(ls, n)[i]]), ls[ShownAt(ls, n)[i]])
    decreases n
  {
    if n > 0 {
      AssembleShown(ls, ks, n - 1);
    }
  }

  /** Every note of the sections, section after section. */
  function Flatten(secs: seq<Section>): seq<Note>
    decreases |secs|
  {
    if |secs| == 0 then [] else secs[0].notes + Flatten(secs[1..])
  }

  /** Every note of the first `n` lists, list after list. */
  function Concat(ls: seq<seq<Note>>, n: nat): seq<Note>
    requires n <= |ls|
    decreases n
  {
    if n == 0 then [] else Concat(ls, n - 1) + ls[n - 1]
  }

  lemma {:induction false} FlattenAppend(p: seq<Section>, q: seq<Section>)
    ensures Flatten(p + q) == Flatten(p) + Flatten(q)
    decreases |p|
  {
    if |p| == 0 {
      assert p + q == q;
    } else {
      assert (p + q)[1..] == p[1..] + q;
      FlattenAppend(p[1..], q);
    }
  }

  /** Dropping the empty lists loses no note: the sections hold the lists' notes, in order. */
  lemma {:induction false} FlattenAssemble(ls: seq<seq<Note>>, ks: seq<Bucket>, n: nat)
    requires |ls| == |ks| && n <= |ks|
    ensures Flatten(Assemble(ls, ks, n)) == Concat(ls, n)
    decreases n
  {
    if n > 0 {
      var front := Assemble(ls, ks, n - 1);
      var p := Part(ls[n - 1], ks[n - 1]);
      assert Assemble(ls, ks, n) == front + p;
      FlattenAssemble(ls, ks, n - 1);
      FlattenAppend(front, p);
      FlattenPart(ls[n - 1], ks[n - 1]);
    }
  }

  lemma FlattenPart(l: seq<Note>, k: Bucket)
    ensures Flatten(Part(l, k)) == l
  {
    if l != [] {
      assert Part(l, k)[1..] == [];
    }
  }

  /** The notes of the six buckets taken together. */
  function BucketSum(ns: seq<Note>, b: Boundaries): multiset<Note>
    reads ns
  {
    multiset(InBucket(ns, b, PinnedBucket)) + multiset(InBucket(ns, b, TodayBucket)) +
    multiset(InBucket(ns, b, YesterdayBucket)) + multiset(InBucket(ns, b, ThisWeekBucket)) +
    multiset(InBucket(ns, b, ThisMonthBucket)) + multiset(InBucket(ns, b, OlderBucket))
  }

  /** The bucket at a position of the display order has that rank. */
  lemma RankAt(i: nat)
    requires i < |AllBuckets|
    ensures Rank(AllBuckets[i]) == i
  {
    if i == 0 {
    } else if i == 1 {
    } else if i == 2 {
    } else if i == 3 {
    } else if i == 4 {
    } else {
      assert i == 5;
    }
  }

  /** The notes of six lists laid end to end are the six lists' notes together. */
  lemma ConcatSix(ls: seq<seq<Note>>)
    requires |ls| == 6
    ensures multiset(Concat(ls, 6)) ==
      multiset(ls[0]) + multiset(ls[1]) + multiset(ls[2]) + multiset(ls[3]) + multiset(ls[4]) + multiset(ls[5])
  {
    assert Concat(ls, 2) == ls[0] + ls[1];
    assert Concat(ls, 4) == Concat(ls, 2) + ls[2] + ls[3];
    assert Concat(ls, 6) == Concat(ls, 4) + ls[4] + ls[5];
  }

  /** The section notes of all six buckets are those buckets' notes, rearranged. */
  lemma ConcatLists(ns: seq<Note>, b: Boundaries)
    ensures multiset(Concat(Lists(ns, b), |AllBuckets|)) == BucketSum(ns, b)
  {
    var ls := Lists(ns, b);
    ConcatSix(ls);
    assert Rank(PinnedBucket) == 0 && Rank(TodayBucket) == 1 && Rank(YesterdayBucket) == 2;
    assert Rank(ThisWeekBucket) == 3 && Rank(ThisMonthBucket) == 4 && Rank(OlderBucket) == 5;
    assert multiset(ls[0]) == multiset(InBucket(ns, b, PinnedBucket));
    assert multiset(ls[1]) == multiset(InBucket(ns, b, TodayBucket));
    assert multiset(ls[2]) == multiset(InBucket(ns, b, YesterdayBucket));
    assert multiset(ls[3]) == multiset(InBucket(ns, b, ThisWeekBucket));
    assert multiset(ls[4]) == multiset(InBucket(ns, b, ThisMonthBucket));
    assert multiset(ls[5]) == multiset(InBucket(ns, b, OlderBucket));
  }

  /** One element, or none. */
  function Once<T>(c: bool, x: T): multiset<T> {
    if c then multiset{x} else multiset{}
  }

  /** Adding a note at the end adds it to its own bucket only. */
  lemma InBucketStep(ns: seq<Note>, b: Boundaries, k: Bucket)
    requires |ns| > 0
    ensures multiset(InBucket(ns, b, k)) ==
      multiset(InBucket(ns[..|ns| - 1], b, k)) + Once(BucketOf(ns[|ns| - 1], b) == k, ns[|ns| - 1])
  {
  }

  /** Adding an element to exactly one of six summands adds it to the sum once. */
  lemma AddToOne<T>(a0: multiset<T>, a1: multiset<T>, a2: multiset<T>, a3: multiset<T>, a4: multiset<T>, a5: multiset<T>,
                    c0: bool, c1: bool, c2: bool, c3: bool, c4: bool, c5: bool, x: T)
    requires (if c0 then 1 else 0) + (if c1 then 1 else 0) + (if c2 then 1 else 0) +
      (if c3 then 1 else 0) + (if c4 then 1 else 0) + (if c5 then 1 else 0) == 1
    ensures (a0 + Once(c0, x)) + (a1 + Once(c1, x)) + (a2 + Once(c2, x)) +
      (a3 + Once(c3, x)) + (a4 + Once(c4, x)) + (a5 + Once(c5, x)) ==
      a0 + a1 + a2 + a3 + a4 + a5 + multiset{x}
  {
  }

  /** A note added at the end is added to the buckets' notes once. */
  lemma BucketSumStep(ns: seq<Note>, b: Boundaries)
    requires |ns| > 0
    ensures BucketSum(ns, b) == BucketSum(ns[..|ns| - 1], b) + multiset{ns[|ns| - 1]}
  {
    var front := ns[..|ns| - 1];
    var x := ns[|ns| - 1];
    var k := BucketOf(x, b);
    InBucketStep(ns, b, PinnedBucket);
    InBucketStep(ns, b, TodayBucket);
    InBucketStep(ns, b, YesterdayBucket);
    InBucketStep(ns, b, ThisWeekBucket);
    InBucketStep(ns, b, ThisMonthBucket);
    InBucketStep(ns, b, OlderBucket);
    AddToOne(multiset(InBucket(front, b, PinnedBucket)), multiset(InBucket(front, b, TodayBucket)),
             multiset(InBucket(front, b, YesterdayBucket)), multiset(InBucket(front, b, ThisWeekBucket)),
             multiset(InBucket(front, b, ThisMonthBucket)), multiset(InBucket(front, b, OlderBucket)),
             k == PinnedBucket, k == TodayBucket, k == YesterdayBucket,
             k == ThisWeekBucket, k == ThisMonthBucket, k == OlderBucket, x);
  }

  /** A sequence's elements are those of its front and its last element. */
  lemma MultisetSnoc<T>(s: seq<T>)
    requires |s| > 0
    ensures multiset(s) == multiset(s[..|s| - 1]) + multiset{s[|s| - 1]}
  {
    assert s == s[..|s| - 1] + [s[|s| - 1]];
  }

  /** The six buckets split the input: every note lands in exactly one of them. */
  lemma {:induction false} BucketsPartition(ns: seq<Note>, b: Boundaries)
    ensures BucketSum(ns, b) == multiset(ns)
    decreases |ns|
  {
    if |ns| > 0 {
      var front := ns[..|ns| - 1];
      BucketsPartition(front, b);
      BucketSumStep(ns, b);
      MultisetSnoc(ns);
    }
  }

  /**
   * Every input note appears in exactly one section, as often as it
   * appears in the input: the sections are a rearrangement of the input.
   */
  lemma SectionsPartition(ns: seq<Note>, b: Boundaries)
    ensures multiset(Flatten(Sections(ns, b))) == multiset(ns)
  {
    FlattenAssemble(Lists(ns, b), AllBuckets, |AllBuckets|);
    ConcatLists(ns, b);
    BucketsPartition(ns, b);
  }

  /**
   * The shape the inbox promises: one section per bucket that holds a
   * note, in the order Pinned, Today, Yesterday, This Week, This Month,
   * Older, under the bucket's title and holding the bucket's notes.
   */
  lemma SectionsShape(ns: seq<Note>, b: Boundaries)
    ensures var r := Sections(ns, b);
      var s := ShownAt(Lists(ns, b), |AllBuckets|);
      && |r| == |s|
      && (forall i :: 0 <= i < |r| ==>
            && s[i] < |AllBuckets|
            && r[i].title == Title(AllBuckets[s[i]])
            && r[i].notes == BucketNotes(ns, b, AllBuckets[s[i]])
            && r[i].notes != [])
      && (forall i, j :: 0 <= i < j < |r| ==> s[i] < s[j])
  {
    var s := ShownAt(Lists(ns, b), |AllBuckets|);
    AssembleShown(Lists(ns, b), AllBuckets, |AllBuckets|);
    forall i | 0 <= i < |s|
      ensures Lists(ns, b)[s[i]] == BucketNotes(ns, b, AllBuckets[s[i]])
    {
      RankAt(s[i]);
    }
  }

  /** A bucket has a section exactly when one of the input's notes falls into it. */
  lemma ShownIffNonEmpty(ns: seq<Note>, b: Boundaries, k: Bucket)
    ensures Rank(k) in ShownAt(Lists(ns, b), |AllBuckets|) <==> InBucket(ns, b, k) != []
  {
    ShownAtMembers(Lists(ns, b), |AllBuckets|, Rank(k));
    assert |BucketNotes(ns, b, k)| == |InBucket(ns, b, k)| by {
      assert |multiset(BucketNotes(ns, b, k))| == |multiset(InBucket(ns, b, k))|;
    }
  }

  /**
   * A bucket's section notes are exactly the input's notes of that bucket:
   * the pinned ones whatever their date, sorted by `pinnedAt` newest first,
   * and each other note in the first date bucket whose start it is not before.
   */
  lemma BucketMembers(ns: seq<Note>, b: Boundaries, k: Bucket, n: Note)
    ensures n in BucketNotes(ns, b, k) <==> n in ns && BucketOf(n, b) == k
    ensures k == PinnedBucket ==> SortedDesc(BucketNotes(ns, b, k), ByPinnedAt)
  {
    var l := InBucket(ns, b, k);
    assert n in BucketNotes(ns, b, k) <==> n in multiset(l);
    if n in ns && BucketOf(n, b) == k {
      var i :| 0 <= i < |ns| && ns[i] == n;
      InOwnBucket(ns, b, i);
    }
    if n in l {
      InBucketSub(ns, b, k);
      InBucketSound(ns, b, k);
      SubMembers(l, ns);
    }
  }

  /**
   * The loop of `build(from:)`: one pass over the notes appending each one
   * to the list of its bucket, pinned notes first whatever their date.
   */
  method Distribute(notes: seq<Note>, b: Boundaries)
    returns (pinned: seq<Note>, today: seq<Note>, yesterday: seq<Note>,
             thisWeek: seq<Note>, thisMonth: seq<Note>, older: seq<Note>)
    ensures pinned == InBucket(notes, b, PinnedBucket) && today == InBucket(notes, b, TodayBucket)
    ensures yesterday == InBucket(notes, b, YesterdayBucket) && thisWeek == InBucket(notes, b, ThisWeekBucket)
    ensures thisMonth == InBucket(notes, b, ThisMonthBucket) && older == InBucket(notes, b, OlderBucket)
  {
    pinned, today, yesterday, thisWeek, thisMonth, older := [], [], [], [], [], [];
    for i := 0 to |notes|
      invariant pinned == InBucket(notes[..i], b, PinnedBucket)
      invariant today == InBucket(notes[..i], b, TodayBucket)
      invariant yesterday == InBucket(notes[..i], b, YesterdayBucket)
      invariant thisWeek == InBucket(notes[..i], b, ThisWeekBucket)
      invariant thisMonth == InBucket(notes[..i], b, ThisMonthBucket)
      invariant older == InBucket(notes[..i], b, OlderBucket)
    {
      var note := notes[i];
      InBucketSnoc(notes, b, i);
      if note.isPinned {
        pinned := pinned + [note];
        continue;
      }
      var created := note.createdAt;
      if created >= b.today {
        today := today + [note];
      } else if created >= b.yesterday {
        yesterday := yesterday + [note];
      } else if created >= b.week {
        thisWeek := thisWeek + [note];
      } else if created >= b.month {
        thisMonth := thisMonth + [note];
      } else {
        older := older + [note];
      }
    }
    assert notes[..|notes|] == notes;
  }

  /**
   * The end of `build(from:)`: a section for each list that is not empty,
   * in display order.
   */
  method Collect(pinned: seq<Note>, today: seq<Note>, yesterday: seq<Note>,
                 thisWeek: seq<Note>, thisMonth: seq<Note>, older: seq<Note>)
    returns (sections: seq<Section>)
    ensures sections == Assemble([pinned, today, yesterday, thisWeek, thisMonth, older], AllBuckets, |AllBuckets|)
  {
    ghost var ls := [pinned, today, yesterday, thisWeek, thisMonth, older];
    sections := [];
    if pinned != [] { sections := sections + [Section("Pinned", pinned)]; }
    assert sections == Assemble(ls, AllBuckets, 1);
    if today != [] { sections := sections + [Section("Today", today)]; }
    assert sections == Assemble(ls, AllBuckets, 2);
    if yesterday != [] { sections := sections + [Section("Yesterday", yesterday)]; }
    assert sections == Assemble(ls, AllBuckets, 3);
    if thisWeek != [] { sections := sections + [Section("This Week", thisWeek)]; }
    assert sections == Assemble(ls, AllBuckets, 4);
    if thisMonth != [] { sections := sections + [Section("This Month", thisMonth)]; }
    assert sections == Assemble(ls, AllBuckets, 5);
    if older != [] { sections := sections + [Section("Older", older)]; }
  }

  /**
   * `build(from:)`: with the calendar's starts missing, one "All" section
   * holding the input; otherwise the notes are distributed over six
   * buckets, the pinned bucket is sorted, and the non-empty buckets become
   * sections in display order.
   */
  method Build(notes: seq<Note>, now: int, starts: Option<CalendarStarts>) returns (sections: seq<Section>)
    ensures starts.None? ==> sections == [Section("All", notes)]
    ensures starts.Some? ==>
      sections == Sections(notes, Boundaries(StartOfDay(now), starts.value.yesterday, starts.value.week, starts.value.month))
  {
    if starts.None? {
      return [Section("All", notes)];
    }
    var b := Boundaries(StartOfDay(now), starts.value.yesterday, starts.value.week, starts.value.month);
    var pinned, today, yesterday, thisWeek, thisMonth, older := Distribute(notes, b);
    InBucketSub(notes, b, PinnedBucket);
    SubMembers(pinned, notes);
    pinned := SortDesc(pinned, ByPinnedAt);
    assert [pinned, today, yesterday, thisWeek, thisMonth, older] == Lists(notes, b);
    sections := Collect(pinned, today, yesterday, thisWeek, thisMonth, older);
  }
}

=== FILE: ints.dfy ===
/**
 * Swift's integer conversions and operators where they differ from
 * Dafny's: `Int(_:)` on a real truncates toward zero, and `/` and `%`
 * truncate toward zero where Dafny's are Euclidean.
 */
module Ints {

  /** `Int(x)` for a finite `x`: the integer part, rounded toward zero. */
  function Truncate(x: real): (r: int)
    ensures x >= 0.0 ==> r as real <= x < r as real + 1.0
    ensures x < 0.0 ==> r as real - 1.0 < x <= r as real
  {
    if x >= 0.0 then x.Floor else -((-x).Floor)
  }

  /** Swift's `/` on `Int`: the quotient rounded toward zero. */
  function TruncDiv(a: int, d: int): (q: int)
    requires d > 0
    ensures a >= 0 ==> 0 <= q && q * d <= a < q * d + d
    ensures a < 0 ==> q <= 0 && q * d - d < a <= q * d
  {
    if a >= 0 then
      DivBounds(a, d);
      a / d
    else
      DivBounds(-a, d);
      NegTimes((-a) / d, d);
      -((-a) / d)
  }

  /** Dafny's `/` on a non-negative numerator: the quotient is the floor. */
  lemma DivBounds(a: int, d: int)
    requires a >= 0 && d > 0
    ensures 0 <= a / d && (a / d) * d <= a < (a / d) * d + d
  {
    var q, r := a / d, a % d;
    assert a == q * d + r && 0 <= r < d;
  }

  lemma NegTimes(q: int, d: int)
    ensures (-q) * d == -(q * d)
  {
  }

  /** Swift's `%` on `Int`: the remainder takes the sign of the dividend. */
  function TruncRem(a: int, d: int): (r: int)
    requires d > 0
    ensures TruncDiv(a, d) * d + r == a
    ensures -d < r < d && (a >= 0 ==> r >= 0) && (a <= 0 ==> r <= 0)
  {
    a - TruncDiv(a, d) * d
  }
}

=== FILE: navigation_router.dfy ===
/**
 * `NavigationRouter`: the selected tab, the note to open, text to prefill
 * and the triage sheet, driven by `flashnote://` deep links. URLs arrive
 * already split into their RFC 3986 components.
 */
module Navigation {
  import opened Wrappers
  import opened Strings
  import opened Ids

  datatype AppTab = CaptureTab | InboxTab

  /** One `URLQueryItem`: a name and an optional value. */
  datatype QueryItem = QueryItem(name: string, value: Option<string>)

  /**
   * The parts of a URL the router looks at. `pathComponents` follows
   * Foundation: for `flashnote://note/ID` it is `["/", "ID"]`.
   */
  datatype Url = Url(
    scheme: Option<string>,
    host: Option<string>,
    pathComponents: seq<string>,
    queryItems: seq<QueryItem>)

  const PrefillLimit: nat := 10000

  /**
   * `queryValue(for:)`: the value of the first item named `key`, absent when
   * no item has that name or the first one has no value.
   */
  function QueryValue(items: seq<QueryItem>, key: string): (r: Option<string>)
    ensures (forall i :: 0 <= i < |items| ==> items[i].name != key) ==> r.None?
    ensures r.Some? ==>
      exists i :: 0 <= i < |items| && items[i].name == key && items[i].value == r
        && forall j :: 0 <= j < i ==> items[j].name != key
    ensures forall i :: 0 <= i < |items| && items[i].name == key && (forall j :: 0 <= j < i ==> items[j].name != key) ==>
      r == items[i].value
    decreases |items|
  {
    if |items| == 0 then None
    else if items[0].name == key then items[0].value
    else
      var r := QueryValue(items[1..], key);
      if r.Some? then
        var i :| 0 <= i < |items[1..]| && items[1..][i].name == key && items[1..][i].value == r
          && forall j :: 0 <= j < i ==> items[1..][j].name != key;
        assert items[i + 1].name == key && forall j :: 0 <= j < i + 1 ==> items[j].name != key;
        r
      else r
  }

  /** `url.pathComponents.dropFirst().first`. */
  function SecondComponent(parts: seq<string>): (r: Option<string>)
    ensures r.Some? <==> |parts| >= 2
    ensures r.Some? ==> r.value == parts[1]
  {
    if |parts| >= 2 then Some(parts[1]) else None
  }

  class Router {
    var selectedTab: AppTab
    var selectedNoteID: Option<Uuid>
    var prefillText: Option<string>
    var showTriage: bool

    constructor()
      ensures selectedTab == CaptureTab && selectedNoteID == None
      ensures prefillText == None && !showTriage
    {
      selectedTab := CaptureTab;
      selectedNoteID := None;
      prefillText := None;
      showTriage := false;
    }

    /** `handle(url:)`. */
    method Handle(url: Url)
      modifies this
      ensures url.scheme != Some("flashnote") ==> unchanged(this)
      ensures url.scheme == Some("flashnote") && url.host == Some("capture") ==>
        && selectedTab == CaptureTab
        && prefillText == (if QueryValue(url.queryItems, "text").Some?
                           then Some(Take(QueryValue(url.queryItems, "text").value, PrefillLimit))
                           else old(prefillText))
        && selectedNoteID == old(selectedNoteID) && showTriage == old(showTriage)
      ensures url.scheme == Some("flashnote") && url.host == Some("inbox") ==>
        && selectedTab == InboxTab
        && selectedNoteID == old(selectedNoteID) && prefillText == old(prefillText) && showTriage == old(showTriage)
      ensures url.scheme == Some("flashnote") && url.host == Some("triage") ==>
        && selectedTab == InboxTab && showTriage
        && selectedNoteID == old(selectedNoteID) && prefillText == old(prefillText)
      ensures url.scheme == Some("flashnote") && url.host == Some("note") && NoteTarget(url).Some? ==>
        && selectedTab == InboxTab && selectedNoteID == NoteTarget(url)
        && prefillText == old(prefillText) && showTriage == old(showTriage)
      ensures url.scheme == Some("flashnote") && url.host == Some("note") && NoteTarget(url).None? ==>
        unchanged(this)
      ensures url.scheme == Some("flashnote") && url.host !in {Some("capture"), Some("inbox"), Some("triage"), Some("note")} ==>
        unchanged(this)
    {
      if url.scheme != Some("flashnote") {
        return;
      }
      if url.host == Some("capture") {
        selectedTab := CaptureTab;
        var text := QueryValue(url.queryItems, "text");
        if text.Some? {
          prefillText := Some(Take(text.value, PrefillLimit));
        }
      } else if url.host == Some("inbox") {
        selectedTab := InboxTab;
      } else if url.host == Some("triage") {
        selectedTab := InboxTab;
        showTriage := true;
      } else if url.host == Some("note") {
        var id := NoteTarget(url);
        if id.Some? {
          selectedTab := InboxTab;
          selectedNoteID := id;
        }
      }
    }
  }

  /** The note a `flashnote://note/<id>` link names: its first path segment, read as a UUID. */
  function NoteTarget(url: Url): (r: Option<Uuid>)
    ensures r.Some? <==> |url.pathComponents| >= 2 && IsUuidText(url.pathComponents[1])
    ensures r.Some? ==> r == ParseUuid(url.pathComponents[1])
  {
    var part :- SecondComponent(url.pathComponents);
    ParseUuid(part)
  }
}

=== FILE: note_detail.dfy ===
/**
 * `NoteDetailViewModel`: the editor state of one note and the edits the
 * detail screen makes to it. Spotlight indexing is left out.
 */
module NoteDetail {
  import opened Strings
  import opened NoteStatuses
  import opened Notes
  import opened NoteStore
  import opened ResurfacingScheduler
  import opened Notifications

  class NoteDetailViewModel {
    var editedText: string
    var isEditing: bool
    var showExport: bool
    var showDeleteConfirmation: bool
    const note: Note

    /** `init(note:)`: the editor starts on the note's text, not editing. */
    constructor(n: Note)
      ensures note == n && editedText == n.text
      ensures !isEditing && !showExport && !showDeleteConfirmation
    {
      note := n;
      editedText := n.text;
      isEditing := false;
      showExport := false;
      showDeleteConfirmation := false;
    }

    /**
     * `saveEdit(context:)`: a blank edit changes nothing. Otherwise the note
     * takes the trimmed text, so its text is never blank and never starts
     * or ends in whitespace; editing ends only when the save succeeds.
     */
    method SaveEdit(ctx: Context, now: int) returns (saved: bool)
      modifies this`isEditing, note`text, note`updatedAt, ctx
      ensures IsBlank(old(editedText), WhitespacesAndNewlines) ==>
        !saved && unchanged(this) && unchanged(note) && unchanged(ctx)
      ensures !IsBlank(old(editedText), WhitespacesAndNewlines) ==>
        && note.text == Trim(old(editedText), WhitespacesAndNewlines)
        && note.updatedAt == now
        && Trim(note.text, WhitespacesAndNewlines) == note.text
        && !IsBlank(note.text, WhitespacesAndNewlines)
      ensures saved ==> !isEditing && ctx.records == old(ctx.records) + old(ctx.pending) && ctx.pending == []
      ensures !saved ==> isEditing == old(isEditing) && ctx.records == old(ctx.records) && ctx.pending == old(ctx.pending)
    {
      var trimmed := Trim(editedText, WhitespacesAndNewlines);
      if trimmed == [] {
        return false;
      }
      note.text := trimmed;
      note.updatedAt := now;
      saved := ctx.Save();
      if saved {
        isEditing := false;
      }
    }

    /** `deleteNote(context:)`: soft delete, reminders cancelled, then a save. */
    method DeleteNote(ctx: Context, center: Center, now: int)
      modifies note`statusRaw, note`updatedAt, ctx, center
      ensures note.Status() == Deleted && note.updatedAt == now
      ensures center.pending == old(center.pending) - CancelIds(old(center.pending), note.id)
      ensures SavedOrKept(ctx)
    {
      note.SetStatus(Deleted);
      note.updatedAt := now;
      CancelResurfacing(center, note.id);
      var _ := ctx.Save();
    }

    /**
     * `toggleTask(context:)`: a task flips its completion; any other note
     * becomes an open task with the task status.
     */
    method ToggleTask(ctx: Context, now: int)
      modifies note`isTask, note`isTaskCompleted, note`statusRaw, note`updatedAt, ctx
      ensures old(note.isTask) ==>
        note.isTask && note.isTaskCompleted == !old(note.isTaskCompleted) && note.statusRaw == old(note.statusRaw)
      ensures !old(note.isTask) ==> note.isTask && !note.isTaskCompleted && note.Status() == Task
      ensures note.updatedAt == now
      ensures SavedOrKept(ctx)
    {
      if note.isTask {
        note.isTaskCompleted := !note.isTaskCompleted;
      } else {
        note.isTask := true;
        note.isTaskCompleted := false;
        note.SetStatus(Task);
      }
      note.updatedAt := now;
      var _ := ctx.Save();
    }

    /** `cancelEdit()`: the editor goes back to the note's text. */
    method CancelEdit()
      modifies this`editedText, this`isEditing
      ensures editedText == note.text && !isEditing
    {
      editedText := note.text;
      isEditing := false;
    }

    /**
     * Toggling a task twice gives back its completion flag and status:
     * after the first toggle every note is a task, so the second only flips.
     */
    method ToggleTaskTwice(ctx: Context, now: int, later: int)
      requires note.isTask
      modifies note`isTask, note`isTaskCompleted, note`statusRaw, note`updatedAt, ctx
      ensures note.isTask && note.isTaskCompleted == old(note.isTaskCompleted)
      ensures note.statusRaw == old(note.statusRaw) && note.updatedAt == later
    {
      ToggleTask(ctx, now);
      ToggleTask(ctx, later);
    }
  }
}

=== FILE: note_queries.dfy ===
/**
 * The fetch descriptors the app builds over notes: each `#Predicate` it
 * uses, the selection a fetch makes with one, and a fetch that may fail.
 * Every predicate compares the stored `statusRaw`, not the decoded status.
 */
module NoteQueries {
  import opened Wrappers
  import opened Strings
  import opened Notes
  import opened NoteStore

  /** The `#Predicate<Note>` values the app fetches with. */
  datatype NoteFilter =
    | TriageCandidate          // statusRaw == "active" && !isTriaged
    | NotDeleted               // statusRaw != "deleted"
    | StatusRawIs(raw: string) // statusRaw == raw
    | ActiveOrTask             // statusRaw == "active" || statusRaw == "task"
    | TextMatches(query: string) // the text contains the query, and not deleted
    | DeletedBefore(cutoff: int) // statusRaw == "deleted" && updatedAt < cutoff

  /**
   * `localizedStandardContains` on an already lower-cased query: containment
   * in the case-folded text.
   */
  predicate TextContains(text: string, query: string) {
    Contains(Lower(text), query)
  }

  predicate Selects(f: NoteFilter, n: Note)
    reads n
  {
    match f
    case TriageCandidate => n.statusRaw == "active" && !n.isTriaged
    case NotDeleted => n.statusRaw != "deleted"
    case StatusRawIs(raw) => n.statusRaw == raw
    case ActiveOrTask => n.statusRaw == "active" || n.statusRaw == "task"
    case TextMatches(q) => TextContains(n.text, q) && n.statusRaw != "deleted"
    case DeletedBefore(cutoff) => n.statusRaw == "deleted" && n.updatedAt < cutoff
  }

  /** The notes a fetch with `f` returns, in store order. */
  function Select(ns: seq<Note>, f: NoteFilter): (r: seq<Note>)
    reads ns
    ensures |r| <= |ns|
    ensures forall i :: 0 <= i < |r| ==> r[i] in ns && Selects(f, r[i])
    ensures forall i :: 0 <= i < |ns| && Selects(f, ns[i]) ==> ns[i] in r
    decreases |ns|
  {
    if |ns| == 0 then []
    else if Selects(f, ns[0]) then [ns[0]] + Select(ns[1..], f)
    else Select(ns[1..], f)
  }

  /** A note of the store is selected exactly when the filter holds for it. */
  lemma SelectMember(ns: seq<Note>, f: NoteFilter, n: Note)
    requires n in ns
    ensures n in Select(ns, f) <==> Selects(f, n)
  {
    var i :| 0 <= i < |ns| && ns[i] == n;
  }

  /** The selection holds notes of the store, exactly those the filter holds for. */
  lemma SelectMembers(ns: seq<Note>, f: NoteFilter)
    ensures forall n :: n in Select(ns, f) ==> n in ns && Selects(f, n)
    ensures forall n :: n in ns ==> (n in Select(ns, f) <==> Selects(f, n))
  {
    forall n | n in ns
      ensures n in Select(ns, f) <==> Selects(f, n)
    {
      SelectMember(ns, f, n);
    }
  }

  /** A filter that holds for no note of the store selects nothing. */
  lemma {:induction false} SelectNone(ns: seq<Note>, f: NoteFilter)
    requires forall i :: 0 <= i < |ns| ==> !Selects(f, ns[i])
    ensures Select(ns, f) == []
    decreases |ns|
  {
    if |ns| > 0 {
      assert forall i :: 0 <= i < |ns[1..]| ==> ns[1..][i] == ns[i + 1];
      SelectNone(ns[1..], f);
    }
  }

  /** `fetchCount(descriptor)`: how many notes a fetch with `f` would return. */
  function FetchCount(ns: seq<Note>, f: NoteFilter): (c: nat)
    reads ns
    ensures c <= |ns|
  {
    |Select(ns, f)|
  }

  /**
   * `fetch(descriptor)` with only a predicate: may fail, and otherwise
   * returns the selection over everything the context holds.
   */
  method Fetch(ctx: Context, f: NoteFilter) returns (r: Option<seq<Note>>)
    ensures r.Some? ==> r.value == Select(ctx.All(), f)
  {
    var ok := *;
    if ok {
      r := Some(Select(ctx.All(), f));
    } else {
      r := None;
    }
  }

  /**
   * Cutting a sorted list to its first `k` notes keeps the smallest keys:
   * a note of the list left out has a key no smaller than any kept one.
   */
  lemma PrefixOfSortedAsc(s: seq<Note>, k: SortKey, limit: nat, n: Note)
    requires SortedAsc(s, k) && n in s && n !in Limit(s, limit)
    ensures forall i :: 0 <= i < |Limit(s, limit)| ==> Key(Limit(s, limit)[i], k) <= Key(n, k)
  {
    var p := Limit(s, limit);
    var j :| 0 <= j < |s| && s[j] == n;
    forall i | 0 <= i < |p|
      ensures Key(p[i], k) <= Key(n, k)
    {
      assert p[i] == s[i];
    }
  }

  /** The descending counterpart of `PrefixOfSortedAsc`. */
  lemma PrefixOfSortedDesc(s: seq<Note>, k: SortKey, limit: nat, n: Note)
    requires SortedDesc(s, k) && n in s && n !in Limit(s, limit)
    ensures forall i :: 0 <= i < |Limit(s, limit)| ==> Key(Limit(s, limit)[i], k) >= Key(n, k)
  {
    var p := Limit(s, limit);
    var j :| 0 <= j < |s| && s[j] == n;
    forall i | 0 <= i < |p|
      ensures Key(p[i], k) >= Key(n, k)
    {
      assert p[i] == s[i];
    }
  }

  /** A selected note of the store is in the selection, sorted or not. */
  lemma SelectedInSorted(ns: seq<Note>, f: NoteFilter, sorted: seq<Note>, n: Note)
    requires multiset(sorted) == multiset(Select(ns, f))
    requires n in ns && Selects(f, n)
    ensures n in sorted
  {
    SelectMember(ns, f, n);
    assert n in multiset(Select(ns, f));
  }

  /** Every note of a limited, sorted selection is a selected note of the store. */
  lemma LimitedSelected(ns: seq<Note>, f: NoteFilter, sorted: seq<Note>, limit: nat)
    requires multiset(sorted) == multiset(Select(ns, f))
    ensures forall i :: 0 <= i < |Limit(sorted, limit)| ==>
      Limit(sorted, limit)[i] in ns && Selects(f, Limit(sorted, limit)[i])
    ensures multiset(Limit(sorted, limit)) <= multiset(Select(ns, f))
  {
    var r := Limit(sorted, limit);
    var sel := Select(ns, f);
    assert sorted == r + sorted[|r|..];
    assert multiset(sorted) == multiset(r) + multiset(sorted[|r|..]);
    forall i | 0 <= i < |r|
      ensures r[i] in ns && Selects(f, r[i])
    {
      assert r[i] == sorted[i];
      assert sorted[i] in multiset(sel);
    }
  }

  /**
   * The notes a fetch sorted by creation time, oldest first, and limited to
   * `limit` returns. It holds only selected notes, at most `limit` of them,
   * every selected note when there are no more than that, and no selected
   * note left out is older than one kept.
   */
  function OldestFirst(ns: seq<Note>, f: NoteFilter, limit: nat): (r: seq<Note>)
    reads ns
    ensures |r| <= limit && SortedAsc(r, ByCreatedAt)
    ensures |r| == if |Select(ns, f)| < limit then |Select(ns, f)| else limit
    ensures forall i :: 0 <= i < |r| ==> r[i] in ns && Selects(f, r[i])
    ensures multiset(r) <= multiset(Select(ns, f))
    ensures |Select(ns, f)| <= limit ==> multiset(r) == multiset(Select(ns, f))
    ensures forall n :: n in ns && Selects(f, n) && n !in r ==>
      forall i :: 0 <= i < |r| ==> Key(r[i], ByCreatedAt) <= Key(n, ByCreatedAt)
  {
    var sorted := SortAsc(Select(ns, f), ByCreatedAt);
    LimitedSelected(ns, f, sorted, limit);
    forall n | n in ns && Selects(f, n) && n !in Limit(sorted, limit)
      ensures forall i :: 0 <= i < |Limit(sorted, limit)| ==> Key(Limit(sorted, limit)[i], ByCreatedAt) <= Key(n, ByCreatedAt)
    {
      SelectedInSorted(ns, f, sorted, n);
      PrefixOfSortedAsc(sorted, ByCreatedAt, limit, n);
    }
    Limit(sorted, limit)
  }

  /** The newest-first counterpart of `OldestFirst`. */
  function NewestFirst(ns: seq<Note>, f: NoteFilter, limit: nat): (r: seq<Note>)
    reads ns
    ensures |r| <= limit && SortedDesc(r, ByCreatedAt)
    ensures |r| == if |Select(ns, f)| < limit then |Select(ns, f)| else limit
    ensures forall i :: 0 <= i < |r| ==> r[i] in ns && Selects(f, r[i])
    ensures multiset(r) <= multiset(Select(ns, f))
    ensures |Select(ns, f)| <= limit ==> multiset(r) == multiset(Select(ns, f))
    ensures forall n :: n in ns && Selects(f, n) && n !in r ==>
      forall i :: 0 <= i < |r| ==> Key(r[i], ByCreatedAt) >= Key(n, ByCreatedAt)
  {
    var sorted := SortDesc(Select(ns, f), ByCreatedAt);
    LimitedSelected(ns, f, sorted, limit);
    forall n | n in ns && Selects(f, n) && n !in Limit(sorted, limit)
      ensures forall i :: 0 <= i < |Limit(sorted, limit)| ==> Key(Limit(sorted, limit)[i], ByCreatedAt) >= Key(n, ByCreatedAt)
    {
      SelectedInSorted(ns, f, sorted, n);
      PrefixOfSortedDesc(sorted, ByCreatedAt, limit, n);
    }
    Limit(sorted, limit)
  }

  /**
   * `fetchCount` never counts a note twice under two statuses: the active
   * and the archived notes together are at most the non-deleted ones.
   */
  lemma {:induction false} StatusCountsBounded(ns: seq<Note>)
    ensures FetchCount(ns, StatusRawIs("active")) + FetchCount(ns, StatusRawIs("archived")) <= FetchCount(ns, NotDeleted)
    decreases |ns|
  {
    if |ns| > 0 {
      StatusCountsBounded(ns[1..]);
    }
  }
}

=== FILE: note_search.dfy ===
/**
 * `LocalNoteSearchService.search(query:in:)`: the query is trimmed and
 * lower-cased, an empty one finds nothing, and otherwise the fetch returns
 * the non-deleted notes whose text contains it, newest first, at most 50.
 */
module NoteSearch {
  import opened Wrappers
  import opened Strings
  import opened Notes
  import opened NoteStore
  import opened NoteQueries

  const SearchLimit: nat := 50

  /** The query as the service compares it: trimmed of whitespace and newlines, lower-cased. */
  function NormaliseQuery(query: string): (q: string)
    ensures q == [] <==> IsBlank(query, WhitespacesAndNewlines)
    ensures q == Lower(q)
    ensures |q| <= |query|
  {
    var t := Trim(query, WhitespacesAndNewlines);
    assert Contains(query, t);
    Lower(t)
  }

  /**
   * What a successful search returns: nothing for a blank query, otherwise
   * the newest 50 non-deleted notes matching the normalised query.
   */
  function SearchResults(all: seq<Note>, query: string): (r: seq<Note>)
    reads all
    ensures IsBlank(query, WhitespacesAndNewlines) ==> r == []
    ensures |r| <= SearchLimit
  {
    var q := NormaliseQuery(query);
    if q == [] then [] else NewestFirst(all, TextMatches(q), SearchLimit)
  }

  /**
   * The results are non-deleted notes of the store whose text contains
   * the normalised query, newest first.
   */
  lemma SearchResultsSound(all: seq<Note>, query: string)
    ensures var r := SearchResults(all, query);
      && SortedDesc(r, ByCreatedAt)
      && forall i :: 0 <= i < |r| ==>
           r[i] in all && r[i].statusRaw != "deleted" && TextContains(r[i].text, NormaliseQuery(query))
  {
    var q := NormaliseQuery(query);
    if q != [] {
      var r := NewestFirst(all, TextMatches(q), SearchLimit);
      assert SearchResults(all, query) == r;
      forall i | 0 <= i < |r|
        ensures r[i] in all && r[i].statusRaw != "deleted" && TextContains(r[i].text, q)
      {
        assert Selects(TextMatches(q), r[i]);
      }
    }
  }

  /**
   * A search with a non-blank query returns every matching note when at
   * most 50 match, exactly 50 of them otherwise, and leaves out none newer
   * than one it returns.
   */
  lemma SearchResultsComplete(all: seq<Note>, query: string)
    requires !IsBlank(query, WhitespacesAndNewlines)
    ensures var r := SearchResults(all, query);
      var f := TextMatches(NormaliseQuery(query));
      && |r| == (if |Select(all, f)| < SearchLimit then |Select(all, f)| else SearchLimit)
      && multiset(r) <= multiset(Select(all, f))
      && (|Select(all, f)| <= SearchLimit ==> multiset(r) == multiset(Select(all, f)))
      && forall n :: n in all && Selects(f, n) && n !in r ==>
           forall i :: 0 <= i < |r| ==> Key(r[i], ByCreatedAt) >= Key(n, ByCreatedAt)
  {
    var f := TextMatches(NormaliseQuery(query));
    var r := NewestFirst(all, f, SearchLimit);
    assert SearchResults(all, query) == r;
    assert |r| == (if |Select(all, f)| < SearchLimit then |Select(all, f)| else SearchLimit);
  }

  /**
   * `search(query:in:)` on the notes of a context; `fetched` is whether the
   * fetch succeeds, and a fetch that throws gives `None`. A blank query
   * returns `[]` without fetching, so it cannot fail.
   */
  function Search(all: seq<Note>, query: string, fetched: bool): (r: Option<seq<Note>>)
    reads all
    ensures IsBlank(query, WhitespacesAndNewlines) ==> r == Some([])
    ensures !IsBlank(query, WhitespacesAndNewlines) ==> (r.None? <==> !fetched)
    ensures r.Some? ==> r.value == SearchResults(all, query)
  {
    if NormaliseQuery(query) == [] then Some([])
    else if !fetched then None
    else Some(SearchResults(all, query))
  }

  /** Folding is idempotent. */
  lemma LowerLower(s: string)
    ensures Lower(Lower(s)) == Lower(s)
  {
  }

  /**
   * Matching ignores case on both sides: a query matches a text exactly
   * when it matches the text folded, and a query and its folded form
   * normalise alike.
   */
  lemma MatchIgnoresCase(text: string, query: string)
    ensures TextContains(Lower(text), NormaliseQuery(query)) <==> TextContains(text, NormaliseQuery(query))
    ensures NormaliseQuery(Lower(query)) == NormaliseQuery(query)
  {
    LowerLower(text);
    LowerTrim(query);
  }

  /** Folding a character never moves it into or out of a trimmed class. */
  lemma LowerKeepsClass(c: char, k: CharClass)
    ensures InClass(LowerChar(c), k) <==> InClass(c, k)
  {
    if 'A' <= c <= 'Z' {
      assert 'a' <= LowerChar(c) <= 'z';
    }
  }

  /** Folding commutes with trimming, since no folded letter is whitespace. */
  lemma LowerTrim(s: string)
    ensures Trim(Lower(s), WhitespacesAndNewlines) == Lower(Trim(s, WhitespacesAndNewlines))
  {
    var k := WhitespacesAndNewlines;
    LowerTrimLeading(s, k);
    LowerTrimTrailing(TrimLeading(s, k), k);
  }

  lemma {:induction false} LowerTrimLeading(s: string, k: CharClass)
    ensures TrimLeading(Lower(s), k) == Lower(TrimLeading(s, k))
    decreases |s|
  {
    if |s| > 0 {
      var t := Lower(s);
      LowerKeepsClass(s[0], k);
      assert InClass(t[0], k) <==> InClass(s[0], k);
      if InClass(s[0], k) {
        assert t[1..] == Lower(s[1..]);
        assert TrimLeading(t, k) == TrimLeading(t[1..], k);
        LowerTrimLeading(s[1..], k);
      } else {
        assert TrimLeading(t, k) == t;
      }
    }
  }

  lemma {:induction false} LowerTrimTrailing(s: string, k: CharClass)
    ensures TrimTrailing(Lower(s), k) == Lower(TrimTrailing(s, k))
    decreases |s|
  {
    if |s| == 0 {
      assert Lower(s) == [];
    } else {
      var last := |s| - 1;
      LowerKeepsClass(s[last], k);
      LowerFront(s);
      TrimTrailingStep(s, k);
      TrimTrailingStep(Lower(s), k);
      LowerTrimTrailing(s[..last], k);
    }
  }

  /** Folding the front of a string is the front of the folded string. */
  lemma LowerFront(s: string)
    requires |s| > 0
    ensures Lower(s)[..|s| - 1] == Lower(s[..|s| - 1]) && Lower(s)[|s| - 1] == LowerChar(s[|s| - 1])
  {
  }

  /** One step of `TrimTrailing`: a trailing member of the class goes, anything else stops it. */
  lemma TrimTrailingStep(s: string, k: CharClass)
    requires |s| > 0
    ensures InClass(s[|s| - 1], k) ==> TrimTrailing(s, k) == TrimTrailing(s[..|s| - 1], k)
    ensures !InClass(s[|s| - 1], k) ==> TrimTrailing(s, k) == s
  {
  }
}

=== FILE: note_status.dfy ===
/** `NoteStatus`: the lifecycle state of a note, stored by its raw string. */
module NoteStatuses {
  import opened Wrappers

  datatype NoteStatus = Active | Archived | Task | Deleted

  /** Every case, in declaration order (`allCases`). */
  const AllCases: seq<NoteStatus> := [Active, Archived, Task, Deleted]

  function Raw(st: NoteStatus): string {
    match st
    case Active => "active"
    case Archived => "archived"
    case Task => "task"
    case Deleted => "deleted"
  }

  /** `NoteStatus(rawValue:)`: the case whose raw value is `raw`, if there is one. */
  function FromRaw(raw: string): (r: Option<NoteStatus>)
    ensures forall st :: r == Some(st) <==> Raw(st) == raw
  {
    if raw == "active" then Some(Active)
    else if raw == "archived" then Some(Archived)
    else if raw == "task" then Some(Task)
    else if raw == "deleted" then Some(Deleted)
    else None
  }

  /** There are exactly four cases, and their raw values are pairwise different. */
  lemma CasesComplete(st: NoteStatus)
    ensures st in AllCases && |AllCases| == 4
    ensures forall i, j :: 0 <= i < j < |AllCases| ==> Raw(AllCases[i]) != Raw(AllCases[j])
  {
  }

  /** Parsing a case's raw value gives that case back; "" is no case. */
  lemma RawRoundTrip(st: NoteStatus)
    ensures FromRaw(Raw(st)) == Some(st) && FromRaw("") == None
  {
  }
}

=== FILE: note_store.dfy ===
/**
 * The SwiftData model context as seen by the app: saved records plus
 * inserts that are not yet saved, a save that may fail, and the orderings
 * that fetch descriptors sort by.
 */
module NoteStore {
  import opened Wrappers
  import opened Ids
  import opened Notes

  /** `Date.distantPast` (0001-01-01T00:00:00Z) in seconds since 1970. */
  const DistantPast: int := -62135596800

  /** The keys fetches and sorts order notes by. */
  datatype SortKey = ByCreatedAt | ByPinnedAt

  /** A note's sort key; a missing `pinnedAt` counts as `distantPast`. */
  function Key(n: Note, k: SortKey): int
    reads n
  {
    match k
    case ByCreatedAt => n.createdAt
    case ByPinnedAt => n.pinnedAt.GetOr(DistantPast)
  }

  predicate SortedDesc(ns: seq<Note>, k: SortKey)
    reads ns
  {
    forall i, j :: 0 <= i < j < |ns| ==> Key(ns[i], k) >= Key(ns[j], k)
  }

  predicate SortedAsc(ns: seq<Note>, k: SortKey)
    reads ns
  {
    forall i, j :: 0 <= i < j < |ns| ==> Key(ns[i], k) <= Key(ns[j], k)
  }

  /** Every note of a sub-multiset of `b` is a note of `b`. */
  lemma SubMembers(a: seq<Note>, b: seq<Note>)
    requires multiset(a) <= multiset(b)
    ensures forall i :: 0 <= i < |a| ==> a[i] in b
  {
    forall i | 0 <= i < |a|
      ensures a[i] in b
    {
      assert a[i] in multiset(a);
    }
  }

  /** Puts `n` into a descending list after every note whose key is at least n's. */
  function InsertDesc(n: Note, ns: seq<Note>, k: SortKey): (r: seq<Note>)
    reads n, ns
    requires SortedDesc(ns, k)
    ensures SortedDesc(r, k)
    ensures |r| == |ns| + 1 && forall i :: 0 <= i < |r| ==> r[i] == n || r[i] in ns
    decreases |ns|
  {
    if |ns| == 0 then [n]
    else if Key(ns[0], k) >= Key(n, k) then [ns[0]] + InsertDesc(n, ns[1..], k)
    else [n] + ns
  }

  lemma {:induction false} InsertDescPermutes(n: Note, ns: seq<Note>, k: SortKey)
    requires SortedDesc(ns, k)
    ensures multiset(InsertDesc(n, ns, k)) == multiset(ns) + multiset{n}
    decreases |ns|
  {
    if |ns| > 0 && Key(ns[0], k) >= Key(n, k) {
      InsertDescPermutes(n, ns[1..], k);
      assert ns == [ns[0]] + ns[1..];
      assert InsertDesc(n, ns, k) == [ns[0]] + InsertDesc(n, ns[1..], k);
    }
  }

  /** `sortBy: [SortDescriptor(key, order: .reverse)]`: the same notes, largest key first. */
  function SortDesc(ns: seq<Note>, k: SortKey): (r: seq<Note>)
    reads ns
    ensures multiset(r) == multiset(ns) && SortedDesc(r, k)
    ensures |r| == |ns|
    decreases |ns|
  {
    if |ns| == 0 then []
    else
      var t := SortDesc(ns[1..], k);
      SortDescStep(ns, t, k);
      InsertDesc(ns[0], t, k)
  }

  /** Putting the first note into the sorted rest gives back the notes of `ns`. */
  lemma SortDescStep(ns: seq<Note>, t: seq<Note>, k: SortKey)
    requires |ns| > 0 && multiset(t) == multiset(ns[1..]) && SortedDesc(t, k)
    ensures forall i :: 0 <= i < |t| ==> t[i] in ns
    ensures multiset(InsertDesc(ns[0], t, k)) == multiset(ns)
  {
    assert ns == [ns[0]] + ns[1..];
    SubMembers(t, ns);
    InsertDescPermutes(ns[0], t, k);
  }

  /** Puts `n` into an ascending list after every note whose key is at most n's. */
  function InsertAsc(n: Note, ns: seq<Note>, k: SortKey): (r: seq<Note>)
    reads n, ns
    requires SortedAsc(ns, k)
    ensures SortedAsc(r, k)
    ensures |r| == |ns| + 1 && forall i :: 0 <= i < |r| ==> r[i] == n || r[i] in ns
    decreases |ns|
  {
    if |ns| == 0 then [n]
    else if Key(ns[0], k) <= Key(n, k) then [ns[0]] + InsertAsc(n, ns[1..], k)
    else [n] + ns
  }

  lemma {:induction false} InsertAscPermutes(n: Note, ns: seq<Note>, k: SortKey)
    requires SortedAsc(ns, k)
    ensures multiset(InsertAsc(n, ns, k)) == multiset(ns) + multiset{n}
    decreases |ns|
  {
    if |ns| > 0 && Key(ns[0], k) <= Key(n, k) {
      InsertAscPermutes(n, ns[1..], k);
      assert ns == [ns[0]] + ns[1..];
      assert InsertAsc(n, ns, k) == [ns[0]] + InsertAsc(n, ns[1..], k);
    }
  }

  /** `sortBy: [SortDescriptor(key, order: .forward)]`: the same notes, smallest key first. */
  function SortAsc(ns: seq<Note>, k: SortKey): (r: seq<Note>)
    reads ns
    ensures multiset(r) == multiset(ns) && SortedAsc(r, k)
    ensures |r| == |ns|
    decreases |ns|
  {
    if |ns| == 0 then []
    else
      var t := SortAsc(ns[1..], k);
      SortAscStep(ns, t, k);
      InsertAsc(ns[0], t, k)
  }

  /** Putting the first note into the sorted rest gives back the notes of `ns`. */
  lemma SortAscStep(ns: seq<Note>, t: seq<Note>, k: SortKey)
    requires |ns| > 0 && multiset(t) == multiset(ns[1..]) && SortedAsc(t, k)
    ensures forall i :: 0 <= i < |t| ==> t[i] in ns
    ensures multiset(InsertAsc(ns[0], t, k)) == multiset(ns)
  {
    assert ns == [ns[0]] + ns[1..];
    SubMembers(t, ns);
    InsertAscPermutes(ns[0], t, k);
  }

  /** `fetchLimit`: at most `limit` notes, from the front. */
  function Limit(ns: seq<Note>, limit: nat): (r: seq<Note>)
    ensures |r| == if |ns| < limit then |ns| else limit
    ensures r == ns[..|r|]
  {
    if |ns| <= limit then ns else ns[..limit]
  }

  /** The list without `n`. */
  function Without(ns: seq<Note>, n: Note): (r: seq<Note>)
    ensures n !in r && |r| <= |ns|
    ensures forall i :: 0 <= i < |r| ==> r[i] in ns
    ensures forall i :: 0 <= i < |ns| && ns[i] != n ==> ns[i] in r
    decreases |ns|
  {
    if |ns| == 0 then []
    else if ns[0] == n then Without(ns[1..], n)
    else [ns[0]] + Without(ns[1..], n)
  }

  /** Removing a note that is not there changes nothing. */
  lemma {:induction false} WithoutAbsent(ns: seq<Note>, n: Note)
    requires n !in ns
    ensures Without(ns, n) == ns
    decreases |ns|
  {
    if |ns| > 0 {
      WithoutAbsent(ns[1..], n);
      assert ns == [ns[0]] + ns[1..];
    }
  }

  /** Removing a note just appended to a list that did not hold it gives the list back. */
  lemma {:induction false} WithoutAppended(ns: seq<Note>, n: Note)
    requires n !in ns
    ensures Without(ns + [n], n) == ns
    decreases |ns|
  {
    if |ns| == 0 {
      assert [n][1..] == [];
    } else {
      assert (ns + [n])[1..] == ns[1..] + [n];
      WithoutAppended(ns[1..], n);
      assert ns == [ns[0]] + ns[1..];
    }
  }

  /** `fetch` with `#Predicate { $0.id == id }` then `.first`. */
  function FindById(ns: seq<Note>, id: Uuid): (r: Option<Note>)
    reads ns
    ensures r.Some? ==> r.value in ns && r.value.id == id
    ensures r.None? ==> forall i :: 0 <= i < |ns| ==> ns[i].id != id
    decreases |ns|
  {
    if |ns| == 0 then None
    else if ns[0].id == id then Some(ns[0])
    else FindById(ns[1..], id)
  }

  /** A model context: the saved records and the inserts a `save` would persist. */
  class Context {
    var records: seq<Note>
    var pending: seq<Note>

    /** Everything a fetch in this context sees, pending inserts included. */
    function All(): seq<Note>
      reads this
    {
      records + pending
    }

    constructor(saved: seq<Note>)
      ensures records == saved && pending == []
    {
      records := saved;
      pending := [];
    }

    /** `insert(_:)`: the note joins the pending inserts. */
    method Insert(n: Note)
      modifies this`pending
      ensures pending == old(pending) + [n]
    {
      pending := pending + [n];
    }

    /** `delete(_:)`: the note leaves the context, saved or not. */
    method Delete(n: Note)
      modifies this
      ensures records == Without(old(records), n) && pending == Without(old(pending), n)
    {
      records := Without(records, n);
      pending := Without(pending, n);
    }

    /**
     * `save()`: may fail. On success the pending inserts become records; on
     * failure nothing moves and the inserts stay pending.
     */
    method Save() returns (ok: bool)
      modifies this
      ensures ok ==> records == old(records) + old(pending) && pending == []
      ensures !ok ==> records == old(records) && pending == old(pending)
    {
      ok := *;
      if ok {
        records := records + pending;
        pending := [];
      }
    }
  }

  /**
   * The context after a `save` whose failure the caller ignores: either the
   * pending inserts became records, or nothing moved.
   */
  twostate predicate SavedOrKept(ctx: Context)
    reads ctx
  {
    || (ctx.records == old(ctx.records) + old(ctx.pending) && ctx.pending == [])
    || (ctx.records == old(ctx.records) && ctx.pending == old(ctx.pending))
  }
}

=== FILE: notes.dfy ===
/**
 * The persistent `Note` record. Status and source are stored as raw strings
 * and read back through the enum tables with a fallback; the remaining
 * computed properties are pure functions of the stored text and fields.
 */
module Notes {
  import opened Wrappers
  import opened Strings
  import opened Ids
  import opened NoteStatuses
  import opened CaptureSources

  /** `Character.isWhitespace`: Unicode White_Space, spaces and newlines alike. */
  predicate IsWhitespace(c: char) {
    InClass(c, WhitespacesAndNewlines)
  }

  /**
   * Reference count of words: the positions where a maximal run of
   * non-whitespace characters ends.
   */
  function RunEnds(s: string): nat
    decreases |s|
  {
    if |s| == 0 then 0
    else (if !IsWhitespace(s[0]) && (|s| == 1 || IsWhitespace(s[1])) then 1 else 0) + RunEnds(s[1..])
  }

  lemma {:induction false} WordsAreRuns(s: string)
    ensures |NonEmpty(SplitWhere(s, IsWhitespace))| == RunEnds(s)
    decreases |s|
  {
    if |s| > 0 {
      var rest := SplitWhere(s[1..], IsWhitespace);
      WordsAreRuns(s[1..]);
      assert rest == [rest[0]] + rest[1..];
      if IsWhitespace(s[0]) {
        assert NonEmpty([""] + rest) == NonEmpty(rest);
      } else {
        var all := [[s[0]] + rest[0]] + rest[1..];
        assert all[1..] == rest[1..];
        assert NonEmpty(all) == [all[0]] + NonEmpty(rest[1..]);
        if rest[0] != [] {
          assert NonEmpty(rest) == [rest[0]] + NonEmpty(rest[1..]);
        }
      }
    }
  }

  /**
   * `wordCount`: `split(whereSeparator: \.isWhitespace).count`, which drops
   * empty pieces, equals the number of maximal non-whitespace runs.
   */
  function WordCount(text: string): (n: nat)
    ensures n == RunEnds(text)
    ensures n == 0 <==> forall i :: 0 <= i < |text| ==> IsWhitespace(text[i])
  {
    WordsAreRuns(text);
    NoWordsBlank(text);
    |NonEmpty(SplitWhere(text, IsWhitespace))|
  }

  lemma {:induction false} NoWordsBlank(s: string)
    ensures RunEnds(s) == 0 <==> forall i :: 0 <= i < |s| ==> IsWhitespace(s[i])
    decreases |s|
  {
    if |s| > 0 {
      NoWordsBlank(s[1..]);
      if |s| > 1 && !IsWhitespace(s[0]) && !IsWhitespace(s[1]) {
        assert RunEnds(s[1..]) > 0 by { NoWordsBlank(s[1..]); }
      }
      forall i | 1 <= i < |s| ensures s[i] == s[1..][i - 1] { }
    }
  }

  const PreviewLength: nat := 100

  /** `previewText`: short text unchanged, longer text cut to 100 characters plus "...". */
  function Preview(text: string): (r: string)
    ensures |text| <= PreviewLength ==> r == text
    ensures |text| > PreviewLength ==> |r| == PreviewLength + 3 && r == text[..PreviewLength] + "..."
  {
    if |text| <= PreviewLength then text else Take(text, PreviewLength) + "..."
  }

  class Note {
    var id: Uuid
    var text: string
    var createdAt: int
    var updatedAt: int
    var statusRaw: string
    var sourceRaw: string
    var audioFileName: Option<string>
    var audioDuration: Option<real>
    var transcriptionConfidence: Option<real>
    var resurfaceCount: int
    var lastResurfacedAt: Option<int>
    var nextResurfaceAt: Option<int>
    var isTriaged: bool
    var isTask: bool
    var isTaskCompleted: bool
    var spotlightID: Option<string>
    var isPinned: bool
    var pinnedAt: Option<int>

    /**
     * `Note(text:source:audioFileName:audioDuration:transcriptionConfidence:)`;
     * `id` is the fresh `UUID()` and `now` the clock reading.
     */
    constructor(id: Uuid, text: string, source: CaptureSource, audioFileName: Option<string>,
                audioDuration: Option<real>, transcriptionConfidence: Option<real>, now: int)
      ensures this.id == id && this.text == text && createdAt == now && updatedAt == now
      ensures Status() == Active && statusRaw == NoteStatuses.Raw(Active)
      ensures Source() == source && sourceRaw == CaptureSources.Raw(source)
      ensures this.audioFileName == audioFileName && this.audioDuration == audioDuration
      ensures this.transcriptionConfidence == transcriptionConfidence
      ensures resurfaceCount == 0 && lastResurfacedAt == None && nextResurfaceAt == None
      ensures !isTriaged && !isTask && !isTaskCompleted && spotlightID == None
      ensures !isPinned && pinnedAt == None
    {
      this.id := id;
      this.text := text;
      createdAt := now;
      updatedAt := now;
      statusRaw := NoteStatuses.Raw(Active);
      sourceRaw := CaptureSources.Raw(source);
      this.audioFileName := audioFileName;
      this.audioDuration := audioDuration;
      this.transcriptionConfidence := transcriptionConfidence;
      resurfaceCount := 0;
      lastResurfacedAt := None;
      nextResurfaceAt := None;
      isTriaged := false;
      isTask := false;
      isTaskCompleted := false;
      spotlightID := None;
      isPinned := false;
      pinnedAt := None;
      NoteStatuses.RawRoundTrip(Active);
      CaptureSources.RawRoundTrip(source);
    }

    /** `status`: the stored raw value's case, or `.active` for an unknown one. */
    function Status(): (st: NoteStatus)
      reads this
      ensures NoteStatuses.FromRaw(statusRaw).Some? ==> NoteStatuses.Raw(st) == statusRaw
      ensures NoteStatuses.FromRaw(statusRaw).None? ==> st == Active
    {
      NoteStatuses.FromRaw(statusRaw).GetOr(Active)
    }

    /** `source`: the stored raw value's case, or `.keyboard` for an unknown one. */
    function Source(): (s: CaptureSource)
      reads this
      ensures CaptureSources.FromRaw(sourceRaw).Some? ==> CaptureSources.Raw(s) == sourceRaw
      ensures CaptureSources.FromRaw(sourceRaw).None? ==> s == Keyboard
    {
      CaptureSources.FromRawOrKeyboard(sourceRaw)
    }

    /** Every field but `text`, `updatedAt` and `statusRaw` is as it was. */
    twostate predicate OtherFieldsKept()
      reads this
    {
      && id == old(id) && createdAt == old(createdAt) && sourceRaw == old(sourceRaw)
      && audioFileName == old(audioFileName) && audioDuration == old(audioDuration)
      && transcriptionConfidence == old(transcriptionConfidence)
      && resurfaceCount == old(resurfaceCount) && lastResurfacedAt == old(lastResurfacedAt)
      && nextResurfaceAt == old(nextResurfaceAt) && isTriaged == old(isTriaged)
      && isTask == old(isTask) && isTaskCompleted == old(isTaskCompleted)
      && spotlightID == old(spotlightID) && isPinned == old(isPinned) && pinnedAt == old(pinnedAt)
    }

    /** Every field but `statusRaw`, `isTriaged`, `isTask` and `updatedAt` is as it was. */
    twostate predicate TriageFieldsKept()
      reads this
    {
      && id == old(id) && text == old(text) && createdAt == old(createdAt) && sourceRaw == old(sourceRaw)
      && audioFileName == old(audioFileName) && audioDuration == old(audioDuration)
      && transcriptionConfidence == old(transcriptionConfidence)
      && resurfaceCount == old(resurfaceCount) && lastResurfacedAt == old(lastResurfacedAt)
      && nextResurfaceAt == old(nextResurfaceAt) && isTaskCompleted == old(isTaskCompleted)
      && spotlightID == old(spotlightID) && isPinned == old(isPinned) && pinnedAt == old(pinnedAt)
    }

    /** Every field but `statusRaw`, `resurfaceCount` and `updatedAt` is as it was. */
    twostate predicate ResurfaceFieldsKept()
      reads this
    {
      && id == old(id) && text == old(text) && createdAt == old(createdAt) && sourceRaw == old(sourceRaw)
      && audioFileName == old(audioFileName) && audioDuration == old(audioDuration)
      && transcriptionConfidence == old(transcriptionConfidence)
      && lastResurfacedAt == old(lastResurfacedAt) && nextResurfaceAt == old(nextResurfaceAt)
      && isTriaged == old(isTriaged) && isTask == old(isTask) && isTaskCompleted == old(isTaskCompleted)
      && spotlightID == old(spotlightID) && isPinned == old(isPinned) && pinnedAt == old(pinnedAt)
    }

    /** The `status` setter stores the raw value, so the getter returns `st`. */
    method SetStatus(st: NoteStatus)
      modifies this`statusRaw
      ensures statusRaw == NoteStatuses.Raw(st) && Status() == st
    {
      statusRaw := NoteStatuses.Raw(st);
      NoteStatuses.RawRoundTrip(st);
    }

    /** The `source` setter stores the raw value, so the getter returns `s`. */
    method SetSource(s: CaptureSource)
      modifies this`sourceRaw
      ensures sourceRaw == CaptureSources.Raw(s) && Source() == s
    {
      sourceRaw := CaptureSources.Raw(s);
      CaptureSources.RawRoundTrip(s);
    }

    /** `audioURL`: `<container>/Audio/<audioFileName>`, absent without a file name. */
    function AudioUrl(container: string): (r: Option<string>)
      reads this
      ensures r.None? <==> audioFileName.None?
      ensures r.Some? ==> exists dir :: r.value == dir + "/" + audioFileName.value
    {
      match audioFileName
      case None => None
      case Some(name) =>
        var dir := container + "/Audio";
        assert container + "/Audio/" + name == dir + "/" + name;
        Some(dir + "/" + name)
    }

    /** `togglePin()`: flips the pin and keeps `pinnedAt` present exactly while pinned. */
    method TogglePin(now: int)
      modifies this`isPinned, this`pinnedAt, this`updatedAt
      ensures isPinned == !old(isPinned)
      ensures pinnedAt == if isPinned then Some(now) else None
      ensures updatedAt == now
    {
      isPinned := !isPinned;
      pinnedAt := if isPinned then Some(now) else None;
      updatedAt := now;
    }
  }
}

=== FILE: notification_center.dfy ===
/**
 * `UNUserNotificationCenter` as the app uses it: a dictionary of pending
 * requests keyed by identifier. Its completion-handler calls are taken as
 * synchronous; adding may fail.
 */
module Notifications {

  /** A value in a request's `userInfo`. */
  datatype InfoValue = Text(s: string) | OtherValue

  /**
   * A pending request with a one-shot calendar trigger: `fireAt` is the
   * instant its year-to-minute components name.
   */
  datatype Request = Request(
    fireAt: int,
    title: string,
    body: string,
    category: string,
    userInfo: map<string, InfoValue>)

  class Center {
    var pending: map<string, Request>

    constructor(requests: map<string, Request>)
      ensures pending == requests
    {
      pending := requests;
    }

    /**
     * `add(_:)`: on success the request is pending under its identifier,
     * replacing one with the same identifier; on failure nothing changes.
     */
    method Add(id: string, req: Request) returns (ok: bool)
      modifies this
      ensures ok ==> pending == old(pending)[id := req]
      ensures !ok ==> pending == old(pending)
    {
      ok := *;
      if ok {
        pending := pending[id := req];
      }
    }

    /** `removePendingNotificationRequests(withIdentifiers:)`. */
    method Remove(ids: set<string>)
      modifies this
      ensures pending == old(pending) - ids
    {
      pending := pending - ids;
    }
  }
}

=== FILE: notification_delegate.dfy ===
/**
 * `NotificationDelegate`: what the app does when the user answers a
 * resurfacing notification. Each handler opens its own context over the
 * saved records (the app's context `ctx` is only read), looks the note up
 * there, changes it, saves, and adds or removes pending requests. The
 * stored note takes the edit only when that save succeeds.
 */
module NotificationHandling {
  import opened Wrappers
  import opened Clock
  import opened Ids
  import opened NoteStatuses
  import opened Notes
  import opened NoteStore
  import opened Notifications
  import opened UserDefaultsStore
  import opened ResurfacingScheduler
  import opened Navigation

  const KeepAction: string := "KEEP"
  const ArchiveAction: string := "ARCHIVE"
  const SnoozeAction: string := "SNOOZE"
  const OpenTriageAction: string := "OPEN_TRIAGE"
  /** The value of `UNNotificationDefaultActionIdentifier`. */
  const DefaultAction: string := "com.apple.UNNotificationDefaultActionIdentifier"
  const SnoozeDelay: int := 2 * Day

  /** `noteID(from:)`: the `noteID` entry, when it is a string that reads as a UUID. */
  function NoteIdFrom(userInfo: map<string, InfoValue>): (r: Option<Uuid>)
    ensures r.Some? <==> "noteID" in userInfo && userInfo["noteID"].Text? && IsUuidText(userInfo["noteID"].s)
    ensures r.Some? ==> r == ParseUuid(userInfo["noteID"].s)
  {
    if "noteID" in userInfo && userInfo["noteID"].Text? then ParseUuid(userInfo["noteID"].s) else None
  }

  /** The request of a reminder delivered by the scheduler carries its note's id back. */
  lemma ScheduledRequestNamesNote(u: Uuid, count: int, t: int)
    ensures NoteIdFrom(ResurfaceRequest(u, count, t).userInfo) == Some(u)
    ensures NoteIdFrom(SnoozeRequest(u, t).userInfo) == Some(u)
  {
    ParseCanonical(u);
  }

  /** The request `handleSnooze` adds: two days after `now`, to the minute. */
  function SnoozeRequest(u: Uuid, now: int): (req: Request)
    ensures req.fireAt <= now + SnoozeDelay < req.fireAt + 60
    ensures req.userInfo == map["noteID" := Text(u)] && req.category == CategoryIdentifier
  {
    Request(MinuteOf(now + SnoozeDelay), "Snoozed thought", ReminderBody, CategoryIdentifier, map["noteID" := Text(u)])
  }

  /** `fetchNote(id:context:)`: the saved note with that id, or nothing when the fetch fails. */
  method FetchNote(ctx: Context, id: Uuid) returns (r: Option<Note>)
    ensures r.Some? ==> r == FindById(ctx.records, id)
    ensures FindById(ctx.records, id).None? ==> r.None?
  {
    var failed: bool := *;
    r := if failed then None else FindById(ctx.records, id);
  }

  /**
   * `handleKeep(noteID:)`: one more resurfacing is counted, and only once
   * that is saved is the next one scheduled, for the incremented count.
   * Status and triage flag stay. The handler's own context sees only the
   * saved records, so the app's unsaved inserts are neither seen nor
   * committed, and a failed save discards the edit: the stored note takes
   * the new count and date only when the save succeeds.
   */
  method HandleKeep(ctx: Context, center: Center, settings: Defaults, id: Uuid, now: int)
    returns (touched: Option<Note>, saved: bool, reminder: ReminderOutcome)
    modifies center, ctx.records
    ensures unchanged(ctx)
    ensures old(FindById(ctx.records, id)).None? ==> touched.None?
    ensures touched.Some? ==> touched == old(FindById(ctx.records, id))
    ensures forall m :: m in ctx.records && Some(m) != touched ==> unchanged(m)
    ensures touched.None? ==> !saved
    ensures saved ==> touched.Some?
    ensures saved && touched.Some? ==>
      var n := touched.value;
      && n.resurfaceCount == old(n.resurfaceCount) + 1 && n.updatedAt == now
      && n.statusRaw == old(n.statusRaw) && n.ResurfaceFieldsKept()
    ensures saved ==> Scheduled(old(center.pending), center.pending, touched.value,
                                settings.BoolOr(QuietHoursKey, true), settings.IntOr(MaxDailyKey, 3), reminder)
    ensures !saved ==> reminder == NotAsked && center.pending == old(center.pending) && unchanged(old(ctx.records))
  {
    saved, reminder := false, NotAsked;
    var context := new Context(ctx.records);
    touched := FetchNote(context, id);
    if touched.None? {
      return;
    }
    var n := touched.value;
    saved := context.Save();
    if saved {
      n.resurfaceCount := n.resurfaceCount + 1;
      n.updatedAt := now;
      reminder := ScheduleResurfacing(n, center, settings);
    }
  }

  /**
   * `handleArchive(noteID:)`: the note's reminders are cancelled whatever
   * the save does; the note is archived and dated now once the save of the
   * handler's own context succeeds, and otherwise stays as stored.
   */
  method HandleArchive(ctx: Context, center: Center, id: Uuid, now: int) returns (touched: Option<Note>, saved: bool)
    modifies center, ctx.records
    ensures unchanged(ctx)
    ensures old(FindById(ctx.records, id)).None? ==> touched.None?
    ensures touched.Some? ==> touched == old(FindById(ctx.records, id))
    ensures forall m :: m in ctx.records && Some(m) != touched ==> unchanged(m)
    ensures touched.None? ==> !saved && center.pending == old(center.pending)
    ensures touched.Some? ==> center.pending == old(center.pending) - CancelIds(old(center.pending), id)
    ensures saved ==> touched.Some?
    ensures saved && touched.Some? ==>
      var n := touched.value;
      && n.Status() == Archived && n.updatedAt == now
      && n.resurfaceCount == old(n.resurfaceCount) && n.ResurfaceFieldsKept()
    ensures !saved ==> unchanged(old(ctx.records))
  {
    saved := false;
    var context := new Context(ctx.records);
    touched := FetchNote(context, id);
    if touched.None? {
      return;
    }
    var n := touched.value;
    CancelResurfacing(center, id);
    saved := context.Save();
    if saved {
      n.SetStatus(Archived);
      n.updatedAt := now;
    }
  }

  /**
   * `handleSnooze(noteID:)`: the note's reminders are replaced by one
   * snooze request two days from now, whatever the save does. Count and
   * status stay; the note is dated now once the save succeeds.
   */
  method HandleSnooze(ctx: Context, center: Center, id: Uuid, now: int)
    returns (touched: Option<Note>, snoozed: bool, saved: bool)
    modifies center, ctx.records
    ensures unchanged(ctx)
    ensures old(FindById(ctx.records, id)).None? ==> touched.None?
    ensures touched.Some? ==> touched == old(FindById(ctx.records, id))
    ensures forall m :: m in ctx.records && Some(m) != touched ==> unchanged(m)
    ensures touched.None? ==> !snoozed && !saved && center.pending == old(center.pending)
    ensures touched.Some? ==>
      var cancelled := old(center.pending) - CancelIds(old(center.pending), id);
      && (snoozed ==> center.pending == cancelled[SnoozeId(id) := SnoozeRequest(id, now)])
      && (!snoozed ==> center.pending == cancelled)
    ensures saved ==> touched.Some?
    ensures saved && touched.Some? ==>
      var n := touched.value;
      && n.updatedAt == now
      && n.statusRaw == old(n.statusRaw) && n.resurfaceCount == old(n.resurfaceCount) && n.ResurfaceFieldsKept()
    ensures !saved ==> unchanged(old(ctx.records))
  {
    snoozed, saved := false, false;
    var context := new Context(ctx.records);
    touched := FetchNote(context, id);
    if touched.None? {
      return;
    }
    var n := touched.value;
    CancelResurfacing(center, id);
    snoozed := center.Add(SnoozeId(id), SnoozeRequest(id, now));
    saved := context.Save();
    if saved {
      n.updatedAt := now;
    }
  }

  /** `handleAction(_:userInfo:)`: dispatch on the action identifier. */
  method HandleAction(action: string, userInfo: map<string, InfoValue>, ctx: Context, center: Center,
                      settings: Defaults, router: Router, now: int)
    modifies center, ctx.records, router
    ensures unchanged(ctx)
    ensures action in {KeepAction, ArchiveAction, SnoozeAction} && NoteIdFrom(userInfo).Some? ==>
      forall m :: m in ctx.records && m.id != NoteIdFrom(userInfo).value ==> unchanged(m)
    ensures action in {KeepAction, ArchiveAction, SnoozeAction} && NoteIdFrom(userInfo).None? ==>
      center.pending == old(center.pending) && unchanged(old(ctx.records)) && unchanged(router)
    ensures action in {KeepAction, ArchiveAction, SnoozeAction} ==> unchanged(router)
    ensures action == OpenTriageAction ==>
      router.selectedTab == InboxTab && router.showTriage
      && router.selectedNoteID == old(router.selectedNoteID) && router.prefillText == old(router.prefillText)
      && center.pending == old(center.pending) && unchanged(old(ctx.records))
    ensures action == DefaultAction && NoteIdFrom(userInfo).Some? ==>
      router.selectedTab == InboxTab && router.selectedNoteID == NoteIdFrom(userInfo)
      && router.showTriage == old(router.showTriage) && router.prefillText == old(router.prefillText)
    ensures action == DefaultAction ==> center.pending == old(center.pending) && unchanged(old(ctx.records))
    ensures action == DefaultAction && NoteIdFrom(userInfo).None? ==> unchanged(router)
    ensures action !in {KeepAction, ArchiveAction, SnoozeAction, OpenTriageAction, DefaultAction} ==>
      center.pending == old(center.pending) && unchanged(old(ctx.records)) && unchanged(router)
  {
    if action == KeepAction || action == ArchiveAction || action == SnoozeAction {
      var id := NoteIdFrom(userInfo);
      if id.None? {
        return;
      }
      if action == KeepAction {
        var _, _, _ := HandleKeep(ctx, center, settings, id.value, now);
      } else if action == ArchiveAction {
        var _, _ := HandleArchive(ctx, center, id.value, now);
      } else {
        var _, _, _ := HandleSnooze(ctx, center, id.value, now);
      }
    } else if action == OpenTriageAction {
      router.selectedTab := InboxTab;
      router.showTriage := true;
    } else if action == DefaultAction {
      var id := NoteIdFrom(userInfo);
      if id.Some? {
        router.selectedTab := InboxTab;
        router.selectedNoteID := id;
      }
    }
  }
}

=== FILE: resurfacing_schedule.dfy ===
/**
 * `ResurfacingSchedule`: the spaced-repetition intervals, the cap on
 * resurfacings per note and per day, and the quiet hours. Intervals are
 * whole seconds.
 */
module ResurfacingSchedules {
  import opened Wrappers
  import opened Clock

  datatype Schedule = Schedule(
    intervals: seq<int>,
    maxResurfaceCount: int,
    maxDailyNotifications: int,
    quietHoursStart: int,
    quietHoursEnd: int)
  {
    /** The conditions the initializer checks with `precondition`. */
    predicate Valid() {
      && |intervals| > 0
      && maxResurfaceCount > 0
      && maxDailyNotifications > 0
      && 0 <= quietHoursStart <= 23
      && 0 <= quietHoursEnd <= 23
    }

    /**
     * `nextInterval(for:)`: the interval at position `count`, present exactly
     * when `count` indexes `intervals`.
     */
    function NextInterval(count: int): (r: Option<int>)
      ensures r.Some? <==> 0 <= count < |intervals|
      ensures r.Some? ==> r.value == intervals[count]
    {
      if 0 <= count < |intervals| then Some(intervals[count]) else None
    }
  }

  /** The initializer: a schedule holding the arguments, which must pass its checks. */
  function MakeSchedule(intervals: seq<int>, maxResurfaceCount: int, maxDailyNotifications: int,
                        quietHoursStart: int, quietHoursEnd: int): (s: Schedule)
    requires |intervals| > 0 && maxResurfaceCount > 0 && maxDailyNotifications > 0
    requires 0 <= quietHoursStart <= 23 && 0 <= quietHoursEnd <= 23
    ensures s.Valid()
    ensures s.intervals == intervals && s.maxResurfaceCount == maxResurfaceCount
    ensures s.maxDailyNotifications == maxDailyNotifications
    ensures s.quietHoursStart == quietHoursStart && s.quietHoursEnd == quietHoursEnd
  {
    Schedule(intervals, maxResurfaceCount, maxDailyNotifications, quietHoursStart, quietHoursEnd)
  }

  /** `ResurfacingSchedule.default`. */
  const Default: Schedule :=
    MakeSchedule([1 * Day, 3 * Day, 7 * Day, 14 * Day, 30 * Day], 5, 3, 22, 8)

  /**
   * The default schedule: 1, 3, 7, 14 and 30 days, as many resurfacings as
   * intervals, three a day, quiet from 22:00 to 08:00.
   */
  lemma DefaultSchedule()
    ensures Default.Valid()
    ensures Default.intervals == [86400, 259200, 604800, 1209600, 2592000]
    ensures Default.maxResurfaceCount == |Default.intervals| == 5
    ensures Default.maxDailyNotifications == 3
    ensures Default.quietHoursStart == 22 && Default.quietHoursEnd == 8
    ensures forall c :: 0 <= c < 5 ==> Default.NextInterval(c).Some?
    ensures forall c :: c < 0 || c >= 5 ==> Default.NextInterval(c).None?
  {
  }

  /** A schedule with a single interval has a next interval only for count 0. */
  lemma SingleInterval(x: int, count: int)
    ensures MakeSchedule([x], 1, 1, 0, 23).NextInterval(count) == if count == 0 then Some(x) else None
  {
  }
}

=== FILE: resurfacing_scheduler.dfy ===
/**
 * `ResurfacingScheduler`: turns a note's next resurface date into a pending
 * notification request, under a second, hard-coded 22:00-08:00 quiet-hours
 * shift and a per-day cap read from the settings store, and cancels a note's
 * requests by identifier prefix. It always uses the default schedule.
 */
module ResurfacingScheduler {
  import opened Wrappers
  import opened Strings
  import opened Ints
  import opened Clock
  import opened Ids
  import opened NoteStatuses
  import opened Notes
  import opened ResurfacingSchedules
  import opened Resurfacing
  import opened Notifications
  import opened UserDefaultsStore

  const CategoryIdentifier: string := "FLASHNOTE_RESURFACE"
  const ResurfacePrefix: string := "resurface-"
  const ReminderBody: string := "You saved a thought — tap to review"
  const QuietHoursKey: string := "quietHoursEnabled"
  const MaxDailyKey: string := "maxDailyNotifications"

  /**
   * `adjustForQuietHours(_:)`: from 22:00 on, to 08:00 the next day; before
   * 08:00, to 08:00 the same day; any other time is kept. Never earlier.
   */
  function AdjustForQuietHours(t: int): (r: int)
    ensures Hour(t) >= 22 ==> StartOfDay(r) == StartOfDay(t) + Day && Hour(r) == 8 && r % HourLength == 0
    ensures Hour(t) < 8 ==> SameDay(r, t) && Hour(r) == 8 && r % HourLength == 0
    ensures 8 <= Hour(t) < 22 ==> r == t
    ensures t <= r
  {
    var h := Hour(t);
    if h >= 22 then AtHour(NextDay(t), 8)
    else if h < 8 then AtHour(t, 8)
    else t
  }

  /** Adjusting twice is adjusting once: an adjusted time is never in quiet hours. */
  lemma AdjustIdempotent(t: int)
    ensures AdjustForQuietHours(AdjustForQuietHours(t)) == AdjustForQuietHours(t)
    ensures 8 <= Hour(AdjustForQuietHours(t)) < 22
  {
  }

  /** The default-schedule dates the service computes are left as they are. */
  lemma AdjustKeepsServiceDates(createdAt: int, count: int)
    requires 0 <= count < 5
    ensures NextResurfaceDate(createdAt, count, Default).Some?
    ensures var t := NextResurfaceDate(createdAt, count, Default).value; AdjustForQuietHours(t) == t
  {
    DefaultDates(createdAt, count);
  }

  /** The identifier of a scheduled reminder: `resurface-<uuid>-<count>`. */
  function RequestId(u: Uuid, count: int): (id: string)
    ensures HasPrefix(id, ResurfacePrefix + u)
  {
    assert (ResurfacePrefix + u + "-" + IntToString(count))[..|ResurfacePrefix + u|] == ResurfacePrefix + u;
    ResurfacePrefix + u + "-" + IntToString(count)
  }

  /** The identifier of a snoozed reminder: `resurface-<uuid>-snooze`. */
  function SnoozeId(u: Uuid): (id: string)
    ensures HasPrefix(id, ResurfacePrefix + u)
  {
    assert (ResurfacePrefix + u + "-snooze")[..|ResurfacePrefix + u|] == ResurfacePrefix + u;
    ResurfacePrefix + u + "-snooze"
  }

  /** Request identifiers tell apart notes and counts, and never clash with a snooze. */
  lemma RequestIdInjective(u1: Uuid, c1: int, u2: Uuid, c2: int)
    ensures RequestId(u1, c1) == RequestId(u2, c2) <==> u1 == u2 && c1 == c2
    ensures RequestId(u1, c1) != SnoozeId(u2)
  {
    var a, b := RequestId(u1, c1), RequestId(u2, c2);
    if a == b {
      assert a[10..46] == u1 && b[10..46] == u2;
      assert a[47..] == IntToString(c1) && b[47..] == IntToString(c2);
      IntToStringInjective(c1, c2);
    }
    NatToStringDigits(if c1 < 0 then -c1 else c1);
    assert a[47] == '-' || IsDigit(a[47]);
    assert SnoozeId(u2)[47] == 's';
  }

  /** The prefix `cancelResurfacing` removes by catches no other note's requests. */
  lemma OtherNotesUntouched(u: Uuid, other: Uuid, count: int)
    requires other != u
    ensures !HasPrefix(RequestId(other, count), ResurfacePrefix + u)
    ensures !HasPrefix(SnoozeId(other), ResurfacePrefix + u)
  {
    assert RequestId(other, count)[10..46] == other;
    assert SnoozeId(other)[10..46] == other;
    assert (ResurfacePrefix + u)[10..46] == u;
  }

  /** The pending resurfacing requests that fire on the day of `t`. */
  function SameDayIds(pending: map<string, Request>, t: int): set<string> {
    set id | id in pending && HasPrefix(id, ResurfacePrefix) && SameDay(pending[id].fireAt, t)
  }

  /** The `sameDayCount` the cap is checked against. */
  function SameDayCount(pending: map<string, Request>, t: int): (n: nat)
    ensures n <= |pending|
  {
    SubsetSize(SameDayIds(pending, t), pending.Keys);
    |SameDayIds(pending, t)|
  }

  lemma {:induction false} SubsetSize<T>(a: set<T>, b: set<T>)
    requires a <= b
    ensures |a| <= |b|
    decreases |b|
  {
    if a != {} {
      var x :| x in a;
      SubsetSize(a - {x}, b - {x});
    }
  }

  /**
   * Adding one request raises a day's count by at most one, and does not
   * raise the count of any other day.
   */
  lemma {:induction false} AddOneRequest(pending: map<string, Request>, id: string, req: Request, t: int)
    ensures SameDayCount(pending[id := req], t) <= SameDayCount(pending, t) + 1
    ensures !SameDay(req.fireAt, t) ==> SameDayCount(pending[id := req], t) <= SameDayCount(pending, t)
  {
    var before, after := SameDayIds(pending, t), SameDayIds(pending[id := req], t);
    SubsetSize(after, before + {id});
    if !SameDay(req.fireAt, t) {
      SubsetSize(after, before);
    }
    assert |before + {id}| <= |before| + 1;
  }

  /** The whole days in the interval of count `count`, one day when there is none. */
  function DaysAgo(count: int): int {
    TruncDiv(Default.NextInterval(count).GetOr(86400), 86400)
  }

  /** The reminder title: `A thought from <d> day ago`, plural unless d is 1. */
  function Title(count: int): string {
    DayTitle(DaysAgo(count))
  }

  function DayTitle(d: int): string {
    "A thought from " + IntToString(d) + " day" + (if d == 1 then "" else "s") + " ago"
  }

  /** The whole days of each default interval, and one day past the schedule's end. */
  lemma DaysAgoValues(count: int)
    ensures count < 0 || count == 0 || count >= 5 ==> DaysAgo(count) == 1
    ensures count == 1 ==> DaysAgo(count) == 3
    ensures count == 2 ==> DaysAgo(count) == 7
    ensures count == 3 ==> DaysAgo(count) == 14
    ensures count == 4 ==> DaysAgo(count) == 30
  {
    DefaultSchedule();
  }

  /** The titles of the default schedule, and the one-day fallback past its end. */
  lemma TitleValues(count: int)
    ensures count == 0 || count < 0 || count >= 5 ==> Title(count) == "A thought from 1 day ago"
    ensures count == 1 ==> Title(count) == "A thought from 3 days ago"
    ensures count == 2 ==> Title(count) == "A thought from 7 days ago"
    ensures count == 3 ==> Title(count) == "A thought from 14 days ago"
    ensures count == 4 ==> Title(count) == "A thought from 30 days ago"
  {
    DaysAgoValues(count);
    if count == 1 {
      assert DayTitle(3) == "A thought from 3 days ago" by { assert IntToString(3) == "3"; }
    } else if count == 2 {
      assert DayTitle(7) == "A thought from 7 days ago" by { assert IntToString(7) == "7"; }
    } else if count == 3 {
      assert DayTitle(14) == "A thought from 14 days ago" by { assert IntToString(14) == "14"; }
    } else if count == 4 {
      assert DayTitle(30) == "A thought from 30 days ago" by { assert IntToString(30) == "30"; }
    } else {
      assert DayTitle(1) == "A thought from 1 day ago" by { assert IntToString(1) == "1"; }
    }
  }

  /** The request `deliverResurfacing` adds for a note, count and date. */
  function ResurfaceRequest(u: Uuid, count: int, t: int): (req: Request)
    ensures SameDay(req.fireAt, t) && req.fireAt <= t < req.fireAt + 60
    ensures req.userInfo == map["noteID" := Text(u)] && req.category == CategoryIdentifier
  {
    MinuteSameDay(t);
    Request(MinuteOf(t), Title(count), ReminderBody, CategoryIdentifier, map["noteID" := Text(u)])
  }

  /** The trigger's minute lies on the same day as the instant it is built from. */
  lemma MinuteSameDay(t: int)
    ensures SameDay(MinuteOf(t), t)
  {
    var d := StartOfDay(t);
    var q := d / Day;
    assert d == (q * 1440) * 60;
    MultipleMod(q * 1440);
    assert (t - d) % 60 == t % 60;
    DayOffset(d, MinuteOf(t) - d);
  }

  /**
   * `deliverResurfacing(noteID:resurfaceCount:triggerDate:)`: the request is
   * handed to the centre; `added` is whether the centre took it (the app only
   * logs a failure).
   */
  method Deliver(center: Center, u: Uuid, count: int, t: int) returns (added: bool)
    modifies center
    ensures added ==> center.pending == old(center.pending)[RequestId(u, count) := ResurfaceRequest(u, count, t)]
    ensures !added ==> center.pending == old(center.pending)
  {
    added := center.Add(RequestId(u, count), ResurfaceRequest(u, count, t));
  }

  /** What became of the request `scheduleResurfacing(for:)` may hand to the centre. */
  datatype ReminderOutcome = NotAsked | AddFailed | Added

  /** The instant a reminder aims at: the next date, moved out of 22:00-08:00 when quiet hours are on. */
  function TargetTime(next: int, quietHours: bool): (t: int)
    ensures next <= t
    ensures !quietHours ==> t == next
    ensures quietHours ==> 8 <= Hour(t) < 22
  {
    AdjustIdempotent(next);
    if quietHours then AdjustForQuietHours(next) else next
  }

  /**
   * Whether `scheduleResurfacing(for:)` goes as far as delivering: the note is
   * eligible under the default schedule, has a next date, and fewer than
   * `maxDaily` resurfacing requests already fire on the target day.
   */
  predicate ScheduleDue(note: Note, pending: map<string, Request>, quietHours: bool, maxDaily: int)
    reads note
  {
    && ShouldResurface(note, Default)
    && ComputeNextResurfaceDate(note, Default).Some?
    && SameDayCount(pending, TargetTime(ComputeNextResurfaceDate(note, Default).value, quietHours)) < maxDaily
  }

  /** The request a due note is given: its current count, at the target time. */
  function PlannedRequest(note: Note, quietHours: bool): (req: Request)
    reads note
    requires ComputeNextResurfaceDate(note, Default).Some?
    ensures req.fireAt <= TargetTime(ComputeNextResurfaceDate(note, Default).value, quietHours) < req.fireAt + 60
    ensures req.userInfo == map["noteID" := Text(note.id)] && req.category == CategoryIdentifier
  {
    ResurfaceRequest(note.id, note.resurfaceCount, TargetTime(ComputeNextResurfaceDate(note, Default).value, quietHours))
  }

  /**
   * The pending requests after `scheduleResurfacing(for:)` with outcome `r`:
   * a request is asked for exactly when the note is due; when the centre
   * takes it, it is the only change; otherwise nothing changes.
   */
  predicate Scheduled(before: map<string, Request>, after: map<string, Request>, note: Note,
                      quietHours: bool, maxDaily: int, r: ReminderOutcome)
    reads note
  {
    && (r != NotAsked <==> ScheduleDue(note, before, quietHours, maxDaily))
    && (r == Added ==> after == before[RequestId(note.id, note.resurfaceCount) := PlannedRequest(note, quietHours)])
    && (r != Added ==> after == before)
  }

  /**
   * `scheduleResurfacing(for:)`: nothing for an ineligible note, one without
   * a next date, or one whose target day is full; otherwise the request for
   * the note's current count is delivered at the (adjusted) next date.
   */
  method ScheduleResurfacing(note: Note, center: Center, settings: Defaults) returns (r: ReminderOutcome)
    modifies center
    ensures Scheduled(old(center.pending), center.pending, note,
                      settings.BoolOr(QuietHoursKey, true), settings.IntOr(MaxDailyKey, 3), r)
  {
    if !ShouldResurface(note, Default) {
      return NotAsked;
    }
    var next := ComputeNextResurfaceDate(note, Default);
    if next.None? {
      return NotAsked;
    }
    var t := next.value;
    if settings.BoolOr(QuietHoursKey, true) {
      t := AdjustForQuietHours(t);
    }
    var maxDaily := settings.IntOr(MaxDailyKey, 3);
    if SameDayCount(center.pending, t) >= maxDaily {
      return NotAsked;
    }
    var added := Deliver(center, note.id, note.resurfaceCount, t);
    r := if added then Added else AddFailed;
  }

  /**
   * A note just captured (active, untriaged, never resurfaced) is due exactly
   * when the day of its first date, one day after its creation moved out of
   * 22:00-08:00, has room under the cap; the scheduler's own adjustment then
   * changes nothing.
   */
  lemma NewNoteDue(n: Note, pending: map<string, Request>, quietHours: bool, maxDaily: int)
    requires n.Status() == Active && !n.isTriaged && n.resurfaceCount == 0
    ensures ComputeNextResurfaceDate(n, Default) == Some(ShiftOutOfQuietHours(n.createdAt + Day, 22, 8))
    ensures TargetTime(ComputeNextResurfaceDate(n, Default).value, quietHours) == ShiftOutOfQuietHours(n.createdAt + Day, 22, 8)
    ensures ScheduleDue(n, pending, quietHours, maxDaily) <==>
      SameDayCount(pending, ShiftOutOfQuietHours(n.createdAt + Day, 22, 8)) < maxDaily
  {
    DefaultSchedule();
    AdjustKeepsServiceDates(n.createdAt, 0);
  }

  /**
   * A scheduling step keeps the cap: when the day had room before, it has
   * at most the cap afterwards.
   */
  lemma ScheduleKeepsCap(pending: map<string, Request>, u: Uuid, count: int, t: int, maxDaily: int)
    requires SameDayCount(pending, t) < maxDaily
    ensures SameDayCount(pending[RequestId(u, count) := ResurfaceRequest(u, count, t)], t) <= maxDaily
  {
    AddOneRequest(pending, RequestId(u, count), ResurfaceRequest(u, count, t), t);
  }

  /** The identifiers `cancelResurfacing(for:)` removes. */
  function CancelIds(pending: map<string, Request>, u: Uuid): (ids: set<string>)
    ensures forall id :: id in ids <==> id in pending && HasPrefix(id, ResurfacePrefix + u)
  {
    set id | id in pending && HasPrefix(id, ResurfacePrefix + u)
  }

  /** `cancelResurfacing(for:)`: every request whose identifier starts with `resurface-<uuid>` goes. */
  method CancelResurfacing(center: Center, u: Uuid)
    modifies center
    ensures center.pending == old(center.pending) - CancelIds(old(center.pending), u)
  {
    center.Remove(CancelIds(center.pending, u));
  }

  /**
   * After cancelling, the note's scheduled and snoozed requests are gone and
   * every other note's requests remain unchanged.
   */
  lemma CancelEffect(pending: map<string, Request>, u: Uuid, other: Uuid, count: int)
    requires other != u
    ensures RequestId(u, count) !in pending - CancelIds(pending, u)
    ensures SnoozeId(u) !in pending - CancelIds(pending, u)
    ensures RequestId(other, count) in pending ==> RequestId(other, count) in pending - CancelIds(pending, u)
    ensures SnoozeId(other) in pending ==> SnoozeId(other) in pending - CancelIds(pending, u)
  {
    OtherNotesUntouched(u, other, count);
  }
}

=== FILE: resurfacing_service.dfy ===
/**
 * `SpacedResurfacingService`: when a note resurfaces next, and whether it
 * is eligible at all. The quiet-hours test is the one the app writes,
 * `hour >= quietHoursStart || hour < quietHoursEnd`, which is a window only
 * when the quiet hours wrap past midnight (start > end).
 */
module Resurfacing {
  import opened Wrappers
  import opened Clock
  import opened NoteStatuses
  import opened Notes
  import opened ResurfacingSchedules

  /** The app's quiet-hours test on an hour. */
  predicate InQuietHours(h: int, start: int, end: int) {
    h >= start || h < end
  }

  /**
   * The shift `computeNextResurfaceDate` applies: a time in quiet hours moves
   * to `end`:00:00, on the next day when its hour is at or past `start` and
   * on the same day otherwise. Any other time is kept.
   */
  function ShiftOutOfQuietHours(t: int, start: int, end: int): (r: int)
    requires 0 <= end <= 23
    ensures !InQuietHours(Hour(t), start, end) ==> r == t
    ensures Hour(t) >= start ==> StartOfDay(r) == StartOfDay(t) + Day && Hour(r) == end && r % HourLength == 0
    ensures Hour(t) < start && Hour(t) < end ==> SameDay(r, t) && Hour(r) == end && r % HourLength == 0
    ensures r >= t
  {
    var h := Hour(t);
    if InQuietHours(h, start, end) then
      if h >= start then AtHour(NextDay(t), end) else AtHour(t, end)
    else
      t
  }

  /** `computeNextResurfaceDate` on a note's creation time and resurface count. */
  function NextResurfaceDate(createdAt: int, count: int, s: Schedule): (r: Option<int>)
    requires s.Valid()
    ensures r.None? <==> s.NextInterval(count).None?
    ensures r.Some? ==> r.value == ShiftOutOfQuietHours(createdAt + s.intervals[count], s.quietHoursStart, s.quietHoursEnd)
  {
    var interval :- s.NextInterval(count);
    Some(ShiftOutOfQuietHours(createdAt + interval, s.quietHoursStart, s.quietHoursEnd))
  }

  /** `computeNextResurfaceDate(for:schedule:)`: anchored at the note's creation, not at now. */
  function ComputeNextResurfaceDate(n: Note, s: Schedule): (r: Option<int>)
    reads n
    requires s.Valid()
    ensures r.None? <==> n.resurfaceCount < 0 || n.resurfaceCount >= |s.intervals|
    ensures r.Some? ==> r.value >= n.createdAt + s.intervals[n.resurfaceCount]
  {
    NextResurfaceDate(n.createdAt, n.resurfaceCount, s)
  }

  /** `shouldResurace(note:schedule:)`. */
  predicate ShouldResurface(n: Note, s: Schedule)
    reads n
  {
    n.Status() == Active && !n.isTriaged && n.resurfaceCount < s.maxResurfaceCount
  }

  /** Archived, task, deleted, triaged and exhausted notes are not eligible. */
  lemma IneligibleNotes(n: Note, s: Schedule)
    ensures n.Status() in {Archived, Task, Deleted} ==> !ShouldResurface(n, s)
    ensures n.isTriaged ==> !ShouldResurface(n, s)
    ensures n.resurfaceCount >= s.maxResurfaceCount ==> !ShouldResurface(n, s)
    ensures n.Status() == Active && !n.isTriaged && n.resurfaceCount < s.maxResurfaceCount ==> ShouldResurface(n, s)
  {
  }

  /**
   * With the default schedule the shift moves a time by at most ten hours,
   * and the result always has an hour from 8 to 21.
   */
  lemma {:induction false} DefaultShiftBounded(t: int)
    ensures t <= ShiftOutOfQuietHours(t, 22, 8) <= t + 10 * HourLength
    ensures 8 <= Hour(ShiftOutOfQuietHours(t, 22, 8)) < 22
  {
    var r := ShiftOutOfQuietHours(t, 22, 8);
    var h := Hour(t);
    var d := StartOfDay(t);
    DayOffset(d, t - d);
    assert h * HourLength <= t - d;
    if h >= 22 {
      assert r == d + Day + 8 * HourLength;
    } else if h < 8 {
      assert r == d + 8 * HourLength;
    }
  }

  /** Every date the default schedule produces lies at most ten hours after the nominal one. */
  lemma DefaultDates(createdAt: int, count: int)
    requires 0 <= count < 5
    ensures NextResurfaceDate(createdAt, count, Default).Some?
    ensures var t := createdAt + Default.intervals[count];
      var r := NextResurfaceDate(createdAt, count, Default).value;
      t <= r <= t + 10 * HourLength && 8 <= Hour(r) < 22
  {
    DefaultSchedule();
    DefaultShiftBounded(createdAt + Default.intervals[count]);
  }

  /**
   * When the quiet hours do not wrap (start <= end) the app's test holds at
   * every hour, so every time is moved to `end`:00 and none is kept.
   */
  lemma NonWrappingShiftsEverything(t: int, start: int, end: int)
    requires 0 <= start <= end <= 23
    ensures Hour(ShiftOutOfQuietHours(t, start, end)) == end
    ensures ShiftOutOfQuietHours(t, start, end) > t
  {
    var h := Hour(t);
    var d := StartOfDay(t);
    DayOffset(d, t - d);
    assert h * HourLength <= t - d < (h + 1) * HourLength;
    if h < start {
      assert ShiftOutOfQuietHours(t, start, end) == d + end * HourLength;
    }
  }
}

=== FILE: settings.dfy ===
/**
 * `SettingsViewModel`: five preferences mirrored into `UserDefaults`, the
 * note counts shown on the settings screen, deleting every archived note,
 * and the launch-time purge of notes deleted more than thirty days ago.
 * Scheduling the daily reflection, export and audio files are left out.
 */
module Settings {
  import opened Wrappers
  import opened NoteStatuses
  import opened Notes
  import opened NoteStore
  import opened NoteQueries
  import opened UserDefaultsStore
  import opened ResurfacingScheduler

  const ResurfacingEnabledKey: string := "resurfacingEnabled"
  const DailyReflectionKey: string := "dailyReflectionEnabled"
  const ShakeKey: string := "shakeEnabled"

  /** Soft-deleted notes are purged once they are this many seconds old. */
  const PurgeAge: int := 30 * 86400

  class SettingsViewModel {
    var resurfacingEnabled: bool
    var maxDailyNotifications: int
    var quietHoursEnabled: bool
    var dailyReflectionEnabled: bool
    var shakeEnabled: bool
    var noteCount: int
    var activeNoteCount: int
    var archivedNoteCount: int

    /**
     * `init()`: each preference is the stored value of its type, or its
     * default: resurfacing on, three a day, quiet hours on, daily
     * reflection off, shake on.
     */
    constructor(defaults: Defaults)
      ensures resurfacingEnabled == defaults.BoolOr(ResurfacingEnabledKey, true)
      ensures maxDailyNotifications == defaults.IntOr(MaxDailyKey, 3)
      ensures quietHoursEnabled == defaults.BoolOr(QuietHoursKey, true)
      ensures dailyReflectionEnabled == defaults.BoolOr(DailyReflectionKey, false)
      ensures shakeEnabled == defaults.BoolOr(ShakeKey, true)
      ensures noteCount == 0 && activeNoteCount == 0 && archivedNoteCount == 0
      ensures defaults.values == map[] ==>
        resurfacingEnabled && maxDailyNotifications == 3 && quietHoursEnabled && !dailyReflectionEnabled && shakeEnabled
    {
      resurfacingEnabled := defaults.BoolOr(ResurfacingEnabledKey, true);
      maxDailyNotifications := defaults.IntOr(MaxDailyKey, 3);
      quietHoursEnabled := defaults.BoolOr(QuietHoursKey, true);
      dailyReflectionEnabled := defaults.BoolOr(DailyReflectionKey, false);
      shakeEnabled := defaults.BoolOr(ShakeKey, true);
      noteCount := 0;
      activeNoteCount := 0;
      archivedNoteCount := 0;
    }

    /** The `resurfacingEnabled` setter and its `didSet`. */
    method SetResurfacingEnabled(v: bool, defaults: Defaults)
      modifies this`resurfacingEnabled, defaults
      ensures resurfacingEnabled == v && defaults.values == old(defaults.values)[ResurfacingEnabledKey := BoolValue(v)]
      ensures defaults.BoolOr(ResurfacingEnabledKey, true) == v
    {
      resurfacingEnabled := v;
      defaults.Set(ResurfacingEnabledKey, BoolValue(v));
    }

    /** The `maxDailyNotifications` setter: the scheduler's cap then reads `v`. */
    method SetMaxDailyNotifications(v: int, defaults: Defaults)
      modifies this`maxDailyNotifications, defaults
      ensures maxDailyNotifications == v && defaults.values == old(defaults.values)[MaxDailyKey := IntValue(v)]
      ensures defaults.IntOr(MaxDailyKey, 3) == v
    {
      maxDailyNotifications := v;
      defaults.Set(MaxDailyKey, IntValue(v));
    }

    /** The `quietHoursEnabled` setter: the scheduler's quiet-hours switch then reads `v`. */
    method SetQuietHoursEnabled(v: bool, defaults: Defaults)
      modifies this`quietHoursEnabled, defaults
      ensures quietHoursEnabled == v && defaults.values == old(defaults.values)[QuietHoursKey := BoolValue(v)]
      ensures defaults.BoolOr(QuietHoursKey, true) == v
    {
      quietHoursEnabled := v;
      defaults.Set(QuietHoursKey, BoolValue(v));
    }

    /** The `dailyReflectionEnabled` setter, without the reflection reminder it schedules or cancels. */
    method SetDailyReflectionEnabled(v: bool, defaults: Defaults)
      modifies this`dailyReflectionEnabled, defaults
      ensures dailyReflectionEnabled == v && defaults.values == old(defaults.values)[DailyReflectionKey := BoolValue(v)]
      ensures defaults.BoolOr(DailyReflectionKey, false) == v
    {
      dailyReflectionEnabled := v;
      defaults.Set(DailyReflectionKey, BoolValue(v));
    }

    /** The `shakeEnabled` setter. */
    method SetShakeEnabled(v: bool, defaults: Defaults)
      modifies this`shakeEnabled, defaults
      ensures shakeEnabled == v && defaults.values == old(defaults.values)[ShakeKey := BoolValue(v)]
      ensures defaults.BoolOr(ShakeKey, true) == v
    {
      shakeEnabled := v;
      defaults.Set(ShakeKey, BoolValue(v));
    }

    /**
     * `loadStats(context:)`: three counts fetched in turn; the first that
     * fails stops the rest, so `done` counts are updated and the others
     * keep their values. After all three, active and archived together are
     * at most the non-deleted notes.
     */
    method LoadStats(ctx: Context) returns (done: nat)
      modifies this`noteCount, this`activeNoteCount, this`archivedNoteCount
      ensures done <= 3
      ensures noteCount == if done >= 1 then FetchCount(ctx.All(), NotDeleted) else old(noteCount)
      ensures activeNoteCount == if done >= 2 then FetchCount(ctx.All(), StatusRawIs("active")) else old(activeNoteCount)
      ensures archivedNoteCount == if done == 3 then FetchCount(ctx.All(), StatusRawIs("archived")) else old(archivedNoteCount)
      ensures done == 3 ==> activeNoteCount + archivedNoteCount <= noteCount
    {
      var ok := *;
      if !ok {
        return 0;
      }
      noteCount := FetchCount(ctx.All(), NotDeleted);
      ok := *;
      if !ok {
        return 1;
      }
      activeNoteCount := FetchCount(ctx.All(), StatusRawIs("active"));
      ok := *;
      if !ok {
        return 2;
      }
      archivedNoteCount := FetchCount(ctx.All(), StatusRawIs("archived"));
      StatusCountsBounded(ctx.All());
      done := 3;
    }
  }

  /**
   * The loop of `deleteAllArchived`: every listed note becomes deleted and
   * dated `now`; no other note changes.
   */
  method DeleteEach(notes: seq<Note>, now: int)
    modifies notes`statusRaw, notes`updatedAt
    ensures forall n :: n in notes ==> n.Status() == Deleted && n.updatedAt == now
    ensures forall n :: n in notes ==> n.text == old(n.text) && n.isTriaged == old(n.isTriaged)
  {
    for i := 0 to |notes|
      invariant forall k :: 0 <= k < i ==> notes[k].Status() == Deleted && notes[k].updatedAt == now
      invariant forall n :: n in notes ==> n.text == old(n.text) && n.isTriaged == old(n.isTriaged)
    {
      notes[i].SetStatus(Deleted);
      notes[i].updatedAt := now;
    }
  }

  /**
   * The fetch and loop of `deleteAllArchived`: on success every archived
   * note is soft-deleted and dated `now`; a failed fetch changes nothing.
   */
  method DeleteArchivedNotes(ctx: Context, now: int) returns (fetched: bool)
    modifies ctx.records`statusRaw, ctx.records`updatedAt, ctx.pending`statusRaw, ctx.pending`updatedAt
    ensures fetched ==> forall n :: n in ctx.All() && old(n.statusRaw) == "archived" ==>
      n.Status() == Deleted && n.updatedAt == now
    ensures forall n :: n in ctx.All() && old(n.statusRaw) != "archived" ==> unchanged(n)
    ensures !fetched ==> forall n :: n in ctx.All() ==> unchanged(n)
  {
    var found := Fetch(ctx, StatusRawIs("archived"));
    if found.None? {
      return false;
    }
    var notes := found.value;
    SelectMembers(ctx.All(), StatusRawIs("archived"));
    assert forall n :: n in notes ==> n in ctx.records || n in ctx.pending;
    DeleteEach(notes, now);
    fetched := true;
  }

  /**
   * `deleteAllArchived(context:)`: a failed fetch changes nothing.
   * Otherwise every archived note is soft-deleted, the context is saved
   * and, when that succeeds, the counts are reloaded, so a full reload
   * finds no archived note.
   */
  method DeleteAllArchived(vm: SettingsViewModel, ctx: Context, now: int) returns (fetched: bool, saved: bool, done: nat)
    modifies vm, ctx, ctx.records`statusRaw, ctx.records`updatedAt, ctx.pending`statusRaw, ctx.pending`updatedAt
    ensures !fetched ==> !saved && unchanged(vm) && unchanged(ctx)
    ensures !fetched ==> forall n :: n in old(ctx.All()) ==> unchanged(n)
    ensures fetched ==> forall n :: n in old(ctx.All()) && old(n.statusRaw) == "archived" ==>
      n.Status() == Deleted && n.updatedAt == now
    ensures forall n :: n in old(ctx.All()) && old(n.statusRaw) != "archived" ==> unchanged(n)
    ensures fetched ==> SavedOrKept(ctx)
    ensures saved ==> ctx.All() == old(ctx.All())
    ensures saved && done == 3 ==> vm.archivedNoteCount == 0
  {
    ghost var all := ctx.All();
    fetched := DeleteArchivedNotes(ctx, now);
    assert ctx.All() == all;
    if !fetched {
      return false, false, 0;
    }
    assert forall n :: n in ctx.All() ==> n.statusRaw != "archived";
    saved, done := SaveAndReload(vm, ctx);
  }

  /**
   * The tail of `deleteAllArchived`: save, and only once that worked,
   * reload the counts, which then find no archived note.
   */
  method SaveAndReload(vm: SettingsViewModel, ctx: Context) returns (saved: bool, done: nat)
    requires forall n :: n in ctx.All() ==> n.statusRaw != "archived"
    modifies vm, ctx
    ensures SavedOrKept(ctx)
    ensures !saved ==> done == 0 && unchanged(vm)
    ensures saved ==> ctx.All() == old(ctx.All())
    ensures saved && done == 3 ==> vm.archivedNoteCount == 0
  {
    saved := ctx.Save();
    if !saved {
      return false, 0;
    }
    assert forall i :: 0 <= i < |ctx.All()| ==> ctx.All()[i].statusRaw != "archived";
    SelectNone(ctx.All(), StatusRawIs("archived"));
    done := vm.LoadStats(ctx);
  }

  /** The loop of `purgeOldDeletedNotes`: `context.delete` on each listed note. */
  method DeleteFromContext(ctx: Context, notes: seq<Note>)
    modifies ctx
    ensures forall n :: n in notes ==> n !in ctx.All()
    ensures forall n :: n in old(ctx.All()) && n !in notes ==> n in ctx.All()
    ensures forall n :: n in ctx.All() ==> n in old(ctx.All())
  {
    for i := 0 to |notes|
      invariant forall k :: 0 <= k < i ==> notes[k] !in ctx.All()
      invariant forall n :: n in old(ctx.All()) && n !in notes ==> n in ctx.All()
      invariant forall n :: n in ctx.All() ==> n in old(ctx.All())
    {
      ctx.Delete(notes[i]);
    }
  }

  /**
   * `purgeOldDeletedNotes(context:)`: the notes soft-deleted more than
   * thirty days before `now` leave the context; every other note stays.
   * A failed or empty fetch changes nothing, and the save's outcome does
   * not bring a purged note back.
   */
  method PurgeOldDeletedNotes(ctx: Context, now: int) returns (purged: bool)
    modifies ctx
    ensures !purged ==> unchanged(ctx)
    ensures purged ==> forall n :: n in old(ctx.All()) && Selects(DeletedBefore(now - PurgeAge), n) ==> n !in ctx.All()
    ensures purged ==> exists n :: n in old(ctx.All()) && Selects(DeletedBefore(now - PurgeAge), n)
    ensures forall n :: n in old(ctx.All()) && !Selects(DeletedBefore(now - PurgeAge), n) ==> n in ctx.All()
    ensures forall n :: n in ctx.All() ==> n in old(ctx.All())
  {
    var cutoff := now - PurgeAge;
    var found := Fetch(ctx, DeletedBefore(cutoff));
    if found.None? || found.value == [] {
      return false;
    }
    var stale := found.value;
    assert stale[0] in old(ctx.All());
    DeleteFromContext(ctx, stale);
    var _ := ctx.Save();
    purged := true;
  }
}

=== FILE: strings.dfy ===
/**
 * Text helpers standing in for the Foundation string operations the app uses:
 * character sets, trimming, ASCII case folding, prefix and substring tests,
 * `components(separatedBy:)`, `joined(separator:)` and decimal rendering of
 * integers. Strings are sequences of Unicode scalar values.
 */
module Strings {

  /** Foundation's `CharacterSet.newlines`: U+000A–U+000D, U+0085, U+2028, U+2029. */
  predicate IsNewline(c: char) {
    ('\n' <= c <= '\r') || c == '\U{85}' || c == '\U{2028}' || c == '\U{2029}'
  }

  /** Foundation's `CharacterSet.whitespaces`: space separators (Zs) and tab. */
  predicate IsSpace(c: char) {
    c == ' ' || c == '\t' || c == '\U{A0}' || c == '\U{1680}'
    || ('\U{2000}' <= c <= '\U{200A}') || c == '\U{202F}' || c == '\U{205F}' || c == '\U{3000}'
  }

  /** The two character sets the app trims with. */
  datatype CharClass = Whitespaces | WhitespacesAndNewlines

  predicate InClass(c: char, k: CharClass) {
    match k
    case Whitespaces => IsSpace(c)
    case WhitespacesAndNewlines => IsSpace(c) || IsNewline(c)
  }

  /** Drops the leading characters of class `k`. */
  function TrimLeading(s: string, k: CharClass): (r: string)
    ensures |r| <= |s| && r == s[|s| - |r|..]
    ensures forall i :: 0 <= i < |s| - |r| ==> InClass(s[i], k)
    ensures r == [] || !InClass(r[0], k)
    decreases |s|
  {
    if |s| > 0 && InClass(s[0], k) then TrimLeading(s[1..], k) else s
  }

  /** Drops the trailing characters of class `k`. */
  function TrimTrailing(s: string, k: CharClass): (r: string)
    ensures |r| <= |s| && r == s[..|r|]
    ensures forall i :: |r| <= i < |s| ==> InClass(s[i], k)
    ensures r == [] || !InClass(r[|r| - 1], k)
    decreases |s|
  {
    if |s| > 0 && InClass(s[|s| - 1], k) then TrimTrailing(s[..|s| - 1], k) else s
  }

  /**
   * `trimmingCharacters(in:)`: the result is a slice of `s`, it is empty
   * exactly when every character of `s` is in the class, and it is `s` itself
   * when `s` neither starts nor ends with such a character.
   */
  function Trim(s: string, k: CharClass): (r: string)
    ensures r == [] <==> forall i :: 0 <= i < |s| ==> InClass(s[i], k)
    ensures r == [] || (!InClass(r[0], k) && !InClass(r[|r| - 1], k))
    ensures (s == [] || (!InClass(s[0], k) && !InClass(s[|s| - 1], k))) ==> r == s
    ensures Contains(s, r)
  {
    TrimBlank(s, k);
    TrimKeeps(s, k);
    TrimEnds(s, k);
    TrimContained(s, k);
    TrimTrailing(TrimLeading(s, k), k)
  }

  /** What trimming leaves starts and ends outside the class. */
  lemma TrimEnds(s: string, k: CharClass)
    ensures TrimTrailing(TrimLeading(s, k), k) == [] ||
      (!InClass(TrimTrailing(TrimLeading(s, k), k)[0], k) &&
       !InClass(TrimTrailing(TrimLeading(s, k), k)[|TrimTrailing(TrimLeading(s, k), k)| - 1], k))
  {
    var lead := TrimLeading(s, k);
    var r := TrimTrailing(lead, k);
    assert r == lead[..|r|];
    if r != [] {
      assert lead != [] && r[0] == lead[0];
      assert !InClass(lead[0], k);
      assert !InClass(r[|r| - 1], k);
    }
  }

  /** What trimming leaves is a piece of the string. */
  lemma TrimContained(s: string, k: CharClass)
    ensures Contains(s, TrimTrailing(TrimLeading(s, k), k))
  {
    var lead := TrimLeading(s, k);
    var r := TrimTrailing(lead, k);
    var at := |s| - |lead|;
    assert r == s[at..][..|r|];
    assert HasPrefix(s[at..], r);
  }

  /** Trimming leaves nothing exactly when every character is of the class. */
  lemma TrimBlank(s: string, k: CharClass)
    ensures TrimTrailing(TrimLeading(s, k), k) == [] <==> forall i :: 0 <= i < |s| ==> InClass(s[i], k)
  {
    var lead := TrimLeading(s, k);
    var r := TrimTrailing(lead, k);
    if r == [] {
      forall i | 0 <= i < |s|
        ensures InClass(s[i], k)
      {
        if i >= |s| - |lead| {
          assert s[i] == lead[i - (|s| - |lead|)];
        }
      }
    }
    if lead != [] {
      assert lead[0] == s[|s| - |lead|];
    }
  }

  /** Trimming a string that neither starts nor ends with a character of the class keeps it. */
  lemma TrimKeeps(s: string, k: CharClass)
    ensures (s == [] || (!InClass(s[0], k) && !InClass(s[|s| - 1], k))) ==> TrimTrailing(TrimLeading(s, k), k) == s
  {
  }

  /** Whether `s` holds nothing but characters of class `k`. */
  predicate IsBlank(s: string, k: CharClass) {
    forall i :: 0 <= i < |s| ==> InClass(s[i], k)
  }

  /** Lower-casing of one character, for the ASCII capitals only. */
  function LowerChar(c: char): (r: char)
    ensures 'A' <= c <= 'Z' ==> r as int == c as int + 32
    ensures !('A' <= c <= 'Z') ==> r == c
  {
    if 'A' <= c <= 'Z' then (c as int + 32) as char else c
  }

  /** ASCII lower-casing of a string, character by character. */
  function Lower(s: string): (r: string)
    ensures |r| == |s| && forall i :: 0 <= i < |s| ==> r[i] == LowerChar(s[i])
  {
    seq(|s|, i requires 0 <= i < |s| => LowerChar(s[i]))
  }

  predicate HasPrefix(s: string, p: string) {
    |p| <= |s| && s[..|p|] == p
  }

  /** Whether `sub` occurs in `s` at some position. */
  predicate Contains(s: string, sub: string) {
    exists i | 0 <= i <= |s| :: HasPrefix(s[i..], sub)
  }

  lemma ContainsConcat(a: string, sub: string, b: string)
    requires Contains(b, sub)
    ensures Contains(a + b, sub) && Contains(b + a, sub)
  {
    var i :| 0 <= i <= |b| && HasPrefix(b[i..], sub);
    assert (a + b)[|a| + i..][..|sub|] == b[i..][..|sub|];
    assert HasPrefix((a + b)[|a| + i..], sub);
    assert (b + a)[i..][..|sub|] == b[i..][..|sub|];
    assert HasPrefix((b + a)[i..], sub);
  }

  lemma ContainsSelf(s: string)
    ensures Contains(s, s)
  {
    assert HasPrefix(s[0..], s);
  }

  /**
   * Swift's `prefix(n)` on a string, counting Unicode scalars where Swift
   * counts grapheme clusters: the first `n` scalars, or all of them.
   */
  function Take(s: string, n: nat): (r: string)
    ensures |r| == if |s| <= n then |s| else n
    ensures r == s[..|r|]
  {
    if |s| <= n then s else s[..n]
  }

  /**
   * `components(separatedBy:)` where every character satisfying `isSep`
   * separates: the pieces between separators, always at least one.
   */
  function SplitWhere(s: string, isSep: char -> bool): (r: seq<string>)
    ensures |r| >= 1
    ensures r[0] == [] <==> (s == [] || isSep(s[0]))
    decreases |s|
  {
    if |s| == 0 then [""]
    else
      var rest := SplitWhere(s[1..], isSep);
      if isSep(s[0]) then [""] + rest else [[s[0]] + rest[0]] + rest[1..]
  }

  /** `joined(separator:)`. */
  function Join(parts: seq<string>, sep: string): string
    decreases |parts|
  {
    if |parts| == 0 then ""
    else if |parts| == 1 then parts[0]
    else parts[0] + sep + Join(parts[1..], sep)
  }

  /** Whether no character of `s` satisfies `isSep`. */
  predicate NoneIn(s: string, isSep: char -> bool) {
    forall i :: 0 <= i < |s| ==> !isSep(s[i])
  }

  lemma {:induction false} SplitPrefix(a: string, t: string, isSep: char -> bool)
    requires NoneIn(a, isSep)
    ensures SplitWhere(a + t, isSep) == [a + SplitWhere(t, isSep)[0]] + SplitWhere(t, isSep)[1..]
    decreases |a|
  {
    var st := SplitWhere(t, isSep);
    if |a| > 0 {
      assert (a + t)[1..] == a[1..] + t;
      assert (a + t)[0] == a[0];
      assert !isSep(a[0]);
      SplitPrefix(a[1..], t, isSep);
      var rest := SplitWhere(a[1..] + t, isSep);
      assert rest == [a[1..] + st[0]] + st[1..];
      assert [a[0]] + (a[1..] + st[0]) == a + st[0];
    } else {
      assert a == [];
      assert a + t == t;
      assert a + st[0] == st[0];
      assert st == [st[0]] + st[1..];
    }
  }

  /** Splitting a joined list gives the list back when no piece holds a separator. */
  lemma {:induction false} SplitJoin(parts: seq<string>, sep: char, isSep: char -> bool)
    requires |parts| >= 1 && isSep(sep)
    requires forall k :: 0 <= k < |parts| ==> NoneIn(parts[k], isSep)
    ensures SplitWhere(Join(parts, [sep]), isSep) == parts
    decreases |parts|
  {
    if |parts| == 1 {
      SplitPrefix(parts[0], "", isSep);
      assert parts[0] + "" == parts[0];
    } else {
      var tail := Join(parts[1..], [sep]);
      SplitJoin(parts[1..], sep, isSep);
      assert ([sep] + tail)[0] == sep && ([sep] + tail)[1..] == tail;
      assert SplitWhere([sep] + tail, isSep) == [""] + parts[1..];
      assert Join(parts, [sep]) == parts[0] + ([sep] + tail);
      SplitPrefix(parts[0], [sep] + tail, isSep);
      assert parts[0] + "" == parts[0];
      assert parts == [parts[0]] + parts[1..];
    }
  }

  /** `filter { !$0.isEmpty }`. */
  function NonEmpty(parts: seq<string>): (r: seq<string>)
    ensures |r| <= |parts|
    ensures forall k :: 0 <= k < |r| ==> r[k] != [] && r[k] in parts
    decreases |parts|
  {
    if |parts| == 0 then []
    else if parts[0] == [] then NonEmpty(parts[1..])
    else [parts[0]] + NonEmpty(parts[1..])
  }

  lemma {:induction false} NonEmptyConcat(a: seq<string>, b: seq<string>)
    ensures NonEmpty(a + b) == NonEmpty(a) + NonEmpty(b)
    decreases |a|
  {
    if |a| == 0 {
      assert a + b == b;
    } else {
      assert (a + b)[1..] == a[1..] + b;
      NonEmptyConcat(a[1..], b);
    }
  }

  /** Dropping empty pieces keeps a list whose pieces are all non-empty. */
  lemma {:induction false} NonEmptyKeeps(parts: seq<string>)
    requires forall k :: 0 <= k < |parts| ==> parts[k] != []
    ensures NonEmpty(parts) == parts
    decreases |parts|
  {
    if |parts| > 0 {
      NonEmptyKeeps(parts[1..]);
      assert parts == [parts[0]] + parts[1..];
    }
  }

  /** Every piece of a joined list occurs verbatim in the result. */
  lemma {:induction false} JoinContains(parts: seq<string>, sep: string, k: nat)
    requires k < |parts|
    ensures Contains(Join(parts, sep), parts[k])
    decreases |parts|
  {
    if |parts| == 1 {
      ContainsSelf(parts[0]);
    } else if k == 0 {
      ContainsSelf(parts[0]);
      ContainsConcat(sep + Join(parts[1..], sep), parts[0], parts[0]);
      assert Join(parts, sep) == parts[0] + (sep + Join(parts[1..], sep));
    } else {
      JoinContains(parts[1..], sep, k - 1);
      ContainsConcat(parts[0] + sep, parts[k], Join(parts[1..], sep));
    }
  }

  predicate IsDigit(c: char) {
    '0' <= c <= '9'
  }

  function DigitChar(d: nat): (c: char)
    requires d < 10
    ensures IsDigit(c) && c as int - '0' as int == d
  {
    (d + '0' as int) as char
  }

  /** Decimal rendering of a natural number, without leading zeros. */
  function NatToString(n: nat): string
    decreases n
  {
    if n < 10 then [DigitChar(n)] else NatToString(n / 10) + [DigitChar(n % 10)]
  }

  /** Swift's `"\(i)"` for an integer. */
  function IntToString(i: int): string {
    if i < 0 then "-" + NatToString(-i) else NatToString(i)
  }

  predicate AllDigits(s: string) {
    forall i :: 0 <= i < |s| ==> IsDigit(s[i])
  }

  /** The value of a string of decimal digits. */
  function DigitsValue(s: string): nat
    requires AllDigits(s)
    decreases |s|
  {
    if |s| == 0 then 0 else DigitsValue(s[..|s| - 1]) * 10 + (s[|s| - 1] as int - '0' as int)
  }

  /** `NatToString` yields a non-empty digit string whose value is the number. */
  lemma {:induction false} NatToStringDigits(n: nat)
    ensures |NatToString(n)| >= 1 && AllDigits(NatToString(n))
    ensures DigitsValue(NatToString(n)) == n
    decreases n
  {
    if n >= 10 {
      NatToStringDigits(n / 10);
      var s := NatToString(n);
      assert s[..|s| - 1] == NatToString(n / 10);
    }
  }

  /** Different integers render differently. */
  lemma IntToStringInjective(a: int, b: int)
    requires IntToString(a) == IntToString(b)
    ensures a == b
  {
    NatToStringDigits(if a < 0 then -a else a);
    NatToStringDigits(if b < 0 then -b else b);
    assert IntToString(a)[0] == '-' <==> a < 0;
    assert IntToString(b)[0] == '-' <==> b < 0;
    if a < 0 {
      assert NatToString(-a) == IntToString(a)[1..];
    } else {
      assert NatToString(a) == NatToString(b);
    }
  }
}

=== FILE: task_detection.dfy ===
/**
 * `TaskDetectionService.looksLikeTask`: whether the text contains one of
 * thirteen task keywords as a whole word, ignoring case. The regular
 * expression `\b(k1|k2|...)\b` is stated directly: a match is a position
 * where a keyword's letters appear, with a word boundary on either side.
 */
module TaskDetection {
  import opened Wrappers
  import opened Strings

  const Keywords: seq<string> := [
    "buy", "call", "email", "schedule", "remind", "book",
    "todo", "fix", "send", "pick up", "don't forget",
    "need to", "have to"]

  /** ICU's `\w`, on ASCII: letters, digits and the underscore. */
  predicate IsWordChar(c: char) {
    ('a' <= c <= 'z') || ('A' <= c <= 'Z') || ('0' <= c <= '9') || c == '_'
  }

  /** `\b` at position `j`: a word character on exactly one side. */
  predicate Boundary(text: string, j: int)
    requires 0 <= j <= |text|
  {
    (j > 0 && IsWordChar(text[j - 1])) != (j < |text| && IsWordChar(text[j]))
  }

  /** The keyword `kw` matches case-insensitively at `i`, between word boundaries. */
  predicate MatchesAt(text: string, i: int, kw: string) {
    && 0 <= i && i + |kw| <= |text|
    && Lower(text[i..i + |kw|]) == kw
    && Boundary(text, i) && Boundary(text, i + |kw|)
  }

  /** Reference meaning: some keyword matches somewhere. */
  predicate MentionsKeyword(text: string) {
    exists i, k | 0 <= i <= |text| && 0 <= k < |Keywords| :: MatchesAt(text, i, Keywords[k])
  }

  /** The first alternative, from the `k`-th on, that matches at `i`. */
  function KeywordAt(text: string, i: int, k: nat): (r: Option<nat>)
    requires k <= |Keywords|
    ensures r.Some? ==> k <= r.value < |Keywords| && MatchesAt(text, i, Keywords[r.value])
    ensures r.None? ==> forall m :: k <= m < |Keywords| ==> !MatchesAt(text, i, Keywords[m])
    decreases |Keywords| - k
  {
    if k == |Keywords| then None
    else if MatchesAt(text, i, Keywords[k]) then Some(k)
    else KeywordAt(text, i, k + 1)
  }

  /**
   * `firstMatch(in:range:)` from position `from`: the leftmost position at
   * or after `from` where some keyword matches.
   */
  function FirstMatch(text: string, from: nat): (r: Option<nat>)
    requires from <= |text|
    ensures r.Some? ==> from <= r.value <= |text|
    ensures r.Some? ==> exists k | 0 <= k < |Keywords| :: MatchesAt(text, r.value, Keywords[k])
    ensures r.Some? ==> forall i, k :: from <= i < r.value && 0 <= k < |Keywords| ==> !MatchesAt(text, i, Keywords[k])
    ensures r.None? ==> forall i, k :: from <= i <= |text| && 0 <= k < |Keywords| ==> !MatchesAt(text, i, Keywords[k])
    decreases |text| - from
  {
    var here := KeywordAt(text, from, 0);
    if here.Some? then Some(from)
    else if from == |text| then None
    else FirstMatch(text, from + 1)
  }

  /** `looksLikeTask(_:)`: the search finds a match exactly when some keyword occurs as a word. */
  function LooksLikeTask(text: string): (r: bool)
    ensures r <==> MentionsKeyword(text)
  {
    FirstMatch(text, 0).Some?
  }

  /** Every keyword is lower case. */
  lemma KeywordLower(k: nat)
    requires k < |Keywords|
    ensures Lower(Keywords[k]) == Keywords[k]
  {
    var kw := Keywords[k];
    forall m | 0 <= m < |kw|
      ensures LowerChar(kw[m]) == kw[m]
    {
      assert !('A' <= kw[m] <= 'Z');
    }
  }

  /** Every keyword starts and ends with a word character. */
  lemma KeywordEnds(k: nat)
    requires k < |Keywords|
    ensures |Keywords[k]| > 0
    ensures IsWordChar(Keywords[k][0]) && IsWordChar(Keywords[k][|Keywords[k]| - 1])
  {
  }

  /**
   * A keyword set off by non-word characters (or the ends of the text) is
   * detected, whatever surrounds it.
   */
  lemma KeywordAsWord(before: string, k: nat, after: string)
    requires k < |Keywords|
    requires before == [] || !IsWordChar(before[|before| - 1])
    requires after == [] || !IsWordChar(after[0])
    ensures LooksLikeTask(before + Keywords[k] + after)
  {
    var kw := Keywords[k];
    var text := before + kw + after;
    KeywordLower(k);
    KeywordEnds(k);
    assert text[|before|..|before| + |kw|] == kw;
    assert Boundary(text, |before|);
    assert Boundary(text, |before| + |kw|);
    assert MatchesAt(text, |before|, kw);
  }

  /** Lower-casing keeps a character's word class. */
  lemma LowerKeepsWordChar(c: char)
    ensures IsWordChar(LowerChar(c)) == IsWordChar(c)
  {
  }

  /** Matching ignores case: a text and its lower-cased form match at the same places. */
  lemma MatchIgnoresCase(text: string, i: int, kw: string)
    ensures MatchesAt(text, i, kw) == MatchesAt(Lower(text), i, kw)
  {
    var low := Lower(text);
    if 0 <= i && i + |kw| <= |text| {
      assert Lower(low[i..i + |kw|]) == Lower(text[i..i + |kw|]);
      if i > 0 {
        LowerKeepsWordChar(text[i - 1]);
      }
      if i < |text| {
        LowerKeepsWordChar(text[i]);
      }
      if i + |kw| > 0 {
        LowerKeepsWordChar(text[i + |kw| - 1]);
      }
      if i + |kw| < |text| {
        LowerKeepsWordChar(text[i + |kw|]);
      }
    }
  }

  /** Detection ignores case. */
  lemma DetectionIgnoresCase(text: string)
    ensures LooksLikeTask(text) == LooksLikeTask(Lower(text))
  {
    forall i, k | 0 <= i <= |text| && 0 <= k < |Keywords|
      ensures MatchesAt(text, i, Keywords[k]) == MatchesAt(Lower(text), i, Keywords[k])
    {
      MatchIgnoresCase(text, i, Keywords[k]);
    }
  }

  /**
   * A text made only of word characters has boundaries only at its ends,
   * so it looks like a task exactly when, lower-cased, it is a keyword.
   */
  lemma SingleWord(text: string)
    requires |text| > 0 && forall j :: 0 <= j < |text| ==> IsWordChar(text[j])
    ensures LooksLikeTask(text) <==> Lower(text) in Keywords
  {
    if Lower(text) in Keywords {
      var k :| 0 <= k < |Keywords| && Keywords[k] == Lower(text);
      assert text[0..|text|] == text;
      assert MatchesAt(text, 0, Keywords[k]);
    }
    forall i, k | 0 <= i <= |text| && 0 <= k < |Keywords| && MatchesAt(text, i, Keywords[k])
      ensures Lower(text) in Keywords
    {
      KeywordEnds(k);
      var kw := Keywords[k];
      assert i == 0;
      assert i + |kw| == |text|;
      assert text[i..i + |kw|] == text;
    }
  }

  /** "Fix" is a task. */
  lemma FixIsTask()
    ensures LooksLikeTask("Fix")
  {
    SingleWord("Fix");
    assert Lower("Fix") == Keywords[7];
  }

  /** "buyer" is not a task: a keyword must be a whole word. */
  lemma BuyerIsNotTask()
    ensures !LooksLikeTask("buyer")
  {
    BuyerIsOneWord();
    BuyerIsNoKeyword();
    SingleWord("buyer");
  }

  lemma BuyerIsOneWord()
    ensures Lower("buyer") == "buyer"
    ensures forall j :: 0 <= j < |"buyer"| ==> IsWordChar("buyer"[j])
  {
  }

  lemma BuyerIsNoKeyword()
    ensures "buyer" !in Keywords
  {
    forall k | 0 <= k < |Keywords|
      ensures Keywords[k] != "buyer"
    {
      assert Keywords[k][0] != 'b' || |Keywords[k]| != 5;
    }
  }

  /** "Buy milk" looks like a task. */
  lemma BuyMilk()
    ensures LooksLikeTask("Buy milk")
  {
    var text := "Buy milk";
    assert Lower(text[0..3]) == "buy";
    assert MatchesAt(text, 0, Keywords[0]);
  }
}

=== FILE: triage.dfy ===
/**
 * `TriageViewModel`: a cursor over a queue of untriaged notes, the three
 * triage actions, and an undo stack that records what each action changed.
 */
module Triage {
  import opened Wrappers
  import opened Ids
  import opened NoteStatuses
  import opened Notes
  import opened NoteStore
  import opened NoteQueries
  import opened Notifications
  import opened ResurfacingScheduler

  datatype TriageAction = KeepAction | ArchiveAction | TaskAction

  /** `TriageUndoEntry`: the note and the three fields an action overwrites. */
  datatype UndoEntry = UndoEntry(
    noteID: Uuid,
    action: TriageAction,
    previousStatus: NoteStatus,
    previousIsTriaged: bool,
    previousIsTask: bool)

  const QueueLimit: nat := 50

  /** The queue `loadNotes` fetches: active, untriaged notes, oldest first, at most 50. */
  function TriageQueue(all: seq<Note>): (q: seq<Note>)
    reads all
    ensures |q| <= QueueLimit && SortedAsc(q, ByCreatedAt)
    ensures |q| == if |Select(all, TriageCandidate)| < QueueLimit then |Select(all, TriageCandidate)| else QueueLimit
    ensures forall i :: 0 <= i < |q| ==> q[i] in all && q[i].statusRaw == "active" && !q[i].isTriaged
    ensures multiset(q) <= multiset(Select(all, TriageCandidate))
    ensures |Select(all, TriageCandidate)| <= QueueLimit ==> multiset(q) == multiset(Select(all, TriageCandidate))
    ensures forall n :: n in all && n.statusRaw == "active" && !n.isTriaged && n !in q ==>
      forall i :: 0 <= i < |q| ==> q[i].createdAt <= n.createdAt
  {
    var q := OldestFirst(all, TriageCandidate, QueueLimit);
    assert forall n :: n in all && n.statusRaw == "active" && !n.isTriaged ==> Selects(TriageCandidate, n);
    assert forall i :: 0 <= i < |q| ==> Key(q[i], ByCreatedAt) == q[i].createdAt;
    q
  }

  /**
   * The switch in `performAction(_:context:)`: the note is marked triaged
   * and dated `now`; archive also sets the status and cancels its reminders,
   * task sets the status and the task flag. No other field changes.
   */
  method Apply(n: Note, action: TriageAction, center: Center, now: int)
    modifies n, center
    ensures n.updatedAt == now && n.isTriaged && n.TriageFieldsKept()
    ensures action == KeepAction ==>
      n.statusRaw == old(n.statusRaw) && n.isTask == old(n.isTask) && center.pending == old(center.pending)
    ensures action == ArchiveAction ==>
      && n.Status() == Archived && n.isTask == old(n.isTask)
      && center.pending == old(center.pending) - CancelIds(old(center.pending), n.id)
    ensures action == TaskAction ==>
      n.Status() == Task && n.isTask && center.pending == old(center.pending)
  {
    match action {
      case KeepAction =>
        n.isTriaged := true;
      case ArchiveAction =>
        n.SetStatus(Archived);
        n.isTriaged := true;
        CancelResurfacing(center, n.id);
      case TaskAction =>
        n.isTask := true;
        n.SetStatus(Task);
        n.isTriaged := true;
    }
    n.updatedAt := now;
  }

  /** What an action records before it changes the note. */
  function EntryFor(n: Note, action: TriageAction): (e: UndoEntry)
    reads n
    ensures e.noteID == n.id && e.action == action
    ensures e.previousStatus == n.Status() && e.previousIsTriaged == n.isTriaged && e.previousIsTask == n.isTask
  {
    UndoEntry(n.id, action, n.Status(), n.isTriaged, n.isTask)
  }

  class TriageViewModel {
    var currentIndex: nat
    var undoStack: seq<UndoEntry>
    var triageNotes: seq<Note>

    constructor()
      ensures currentIndex == 0 && undoStack == [] && triageNotes == []
    {
      currentIndex := 0;
      undoStack := [];
      triageNotes := [];
    }

    /** `isComplete`: the cursor has passed the last note. */
    predicate IsComplete()
      reads this
    {
      currentIndex >= |triageNotes|
    }

    /** `currentNote`: the note under the cursor, absent exactly when triage is complete. */
    function CurrentNote(): (r: Option<Note>)
      reads this
      ensures r.None? <==> IsComplete()
      ensures r.Some? ==> r.value == triageNotes[currentIndex] && r.value in triageNotes
    {
      if currentIndex < |triageNotes| then Some(triageNotes[currentIndex]) else None
    }

    /** `remaining`: how many notes the cursor has still to pass; zero exactly when complete. */
    function Remaining(): (r: nat)
      reads this
      ensures r == 0 <==> IsComplete()
      ensures currentIndex + r >= |triageNotes|
      ensures !IsComplete() ==> currentIndex + r == |triageNotes|
    {
      if |triageNotes| > currentIndex then |triageNotes| - currentIndex else 0
    }

    /**
     * `progress` as a fraction (numerator, denominator): 1 for an empty
     * queue, the cursor over the queue length otherwise. It reaches 1
     * exactly when triage is complete.
     */
    function Progress(): (r: (nat, nat))
      reads this
      ensures r.1 > 0
      ensures r.0 >= r.1 <==> IsComplete()
      ensures |triageNotes| > 0 ==> r.1 == |triageNotes| && r.0 == currentIndex
    {
      var count: nat := |triageNotes|;
      if count == 0 then (1, 1) else (currentIndex, count)
    }

    /**
     * `loadNotes(context:)`: on a successful fetch the queue is replaced;
     * a failed fetch keeps the old queue. The cursor is not reset.
     */
    method LoadNotes(ctx: Context) returns (fetched: bool)
      modifies this`triageNotes
      ensures fetched ==> triageNotes == old(TriageQueue(ctx.All()))
      ensures !fetched ==> triageNotes == old(triageNotes)
    {
      var found := Fetch(ctx, TriageCandidate);
      fetched := found.Some?;
      if fetched {
        triageNotes := TriageQueue(ctx.All());
      }
    }

    /**
     * `performAction(_:context:)`: without a current note nothing changes.
     * Otherwise one undo entry is pushed, the action is applied to the
     * current note, the context is saved (a failure is ignored) and the
     * cursor advances by one.
     */
    method PerformAction(action: TriageAction, ctx: Context, center: Center, now: int)
      modifies this, ctx, center, if currentIndex < |triageNotes| then {triageNotes[currentIndex]} else {}
      ensures old(CurrentNote()).None? ==>
        unchanged(this) && unchanged(ctx) && center.pending == old(center.pending)
      ensures old(CurrentNote()).Some? ==>
        var n := old(CurrentNote()).value;
        && triageNotes == old(triageNotes)
        && currentIndex == old(currentIndex) + 1
        && undoStack == old(undoStack) + [old(EntryFor(n, action))]
        && n.updatedAt == now && n.id == old(n.id) && n.text == old(n.text)
        && n.resurfaceCount == old(n.resurfaceCount) && n.isTriaged
        && n.TriageFieldsKept()
        && SavedOrKept(ctx)
      ensures old(CurrentNote()).Some? && action == KeepAction ==>
        var n := old(CurrentNote()).value;
        n.statusRaw == old(n.statusRaw) && n.isTask == old(n.isTask) && center.pending == old(center.pending)
      ensures old(CurrentNote()).Some? && action == ArchiveAction ==>
        var n := old(CurrentNote()).value;
        && n.Status() == Archived && n.isTask == old(n.isTask)
        && center.pending == old(center.pending) - CancelIds(old(center.pending), n.id)
      ensures old(CurrentNote()).Some? && action == TaskAction ==>
        var n := old(CurrentNote()).value;
        n.Status() == Task && n.isTask && center.pending == old(center.pending)
    {
      var current := CurrentNote();
      if current.None? {
        return;
      }
      var n := current.value;
      undoStack := undoStack + [EntryFor(n, action)];
      Apply(n, action, center, now);
      var _ := ctx.Save();
      currentIndex := currentIndex + 1;
    }

    /**
     * `undo(context:)`: an empty stack changes nothing. Otherwise the last
     * entry is popped; if its note is in the queue, that note gets back
     * the recorded status, `isTriaged` and `isTask`, the context is saved
     * and the cursor steps back, never below zero. If the note is not in
     * the queue the entry is still popped and the cursor stays. No other
     * note and no other field of the note changes.
     */
    method Undo(ctx: Context, now: int)
      modifies this, ctx, triageNotes`statusRaw, triageNotes`isTriaged, triageNotes`isTask, triageNotes`updatedAt
      ensures old(undoStack) == [] ==> unchanged(this) && unchanged(ctx) && unchanged(old(triageNotes))
      ensures old(undoStack) != [] ==>
        var e := old(undoStack)[|old(undoStack)| - 1];
        var found := old(FindById(triageNotes, e.noteID));
        && undoStack == old(undoStack)[..|old(undoStack)| - 1]
        && triageNotes == old(triageNotes)
        && (found.None? ==> currentIndex == old(currentIndex) && unchanged(ctx) && unchanged(old(triageNotes)))
        && (found.Some? ==>
              && found.value.Status() == e.previousStatus
              && found.value.isTriaged == e.previousIsTriaged
              && found.value.isTask == e.previousIsTask
              && found.value.updatedAt == now
              && (forall m :: m in old(triageNotes) && m != found.value ==> unchanged(m))
              && SavedOrKept(ctx)
              && currentIndex == if old(currentIndex) > 0 then old(currentIndex) - 1 else 0)
    {
      if undoStack == [] {
        return;
      }
      var e := undoStack[|undoStack| - 1];
      undoStack := undoStack[..|undoStack| - 1];
      var found := FindById(triageNotes, e.noteID);
      if found.None? {
        return;
      }
      var n := found.value;
      n.SetStatus(e.previousStatus);
      n.isTriaged := e.previousIsTriaged;
      n.isTask := e.previousIsTask;
      n.updatedAt := now;
      var _ := ctx.Save();
      currentIndex := if currentIndex > 0 then currentIndex - 1 else 0;
    }
  
    /**
     * An action followed by `undo` gives the note back its status,
     * `isTriaged` and `isTask` and puts the cursor back, provided no
     * earlier note of the queue shares its id.
     */
    method ActThenUndo(action: TriageAction, ctx: Context, center: Center, now: int, later: int)
      requires !IsComplete()
      requires forall i :: 0 <= i < currentIndex ==> triageNotes[i].id != triageNotes[currentIndex].id
      modifies this, ctx, center, triageNotes
      ensures var n := old(triageNotes[currentIndex]);
        && n.Status() == old(n.Status()) && n.isTriaged == old(n.isTriaged) && n.isTask == old(n.isTask)
        && n.updatedAt == later
      ensures currentIndex == old(currentIndex) && undoStack == old(undoStack) && triageNotes == old(triageNotes)
    {
      var n := triageNotes[currentIndex];
      ghost var idx: int := currentIndex;
      ghost var before := EntryFor(n, action);
      PerformAction(action, ctx, center, now);
      assert undoStack[|undoStack| - 1] == before;
      assert FindById(triageNotes, n.id) == Some(n) by {
        FirstWithId(triageNotes, idx - 1);
      }
      Undo(ctx, later);
      assert undoStack == old(undoStack);
    }
  }

  /** The first note with the id of the note at `k + 1` is that note when no earlier one shares it. */
  lemma FirstWithId(ns: seq<Note>, k: int)
    requires -1 <= k < |ns| - 1
    requires forall i :: 0 <= i <= k ==> ns[i].id != ns[k + 1].id
    ensures FindById(ns, ns[k + 1].id) == Some(ns[k + 1])
    decreases k
  {
    if k >= 0 {
      assert ns[0].id != ns[k + 1].id;
      assert ns[1..][k] == ns[k + 1];
      FirstWithId(ns[1..], k - 1);
    }
  }
}

=== FILE: user_defaults.dfy ===
/**
 * `UserDefaults.standard` as a dictionary from keys to stored values, read
 * with `object(forKey:) as? T ?? fallback`.
 */
module UserDefaultsStore {
  import opened Wrappers

  /** The property-list values the app stores. */
  datatype Value = BoolValue(b: bool) | IntValue(i: int) | StringValue(s: string)

  class Defaults {
    var values: map<string, Value>

    constructor(stored: map<string, Value>)
      ensures values == stored
    {
      values := stored;
    }

    /** `object(forKey: key) as? Bool ?? fallback`. */
    function BoolOr(key: string, fallback: bool): (r: bool)
      reads this
      ensures key in values && values[key].BoolValue? ==> r == values[key].b
      ensures !(key in values && values[key].BoolValue?) ==> r == fallback
    {
      if key in values && values[key].BoolValue? then values[key].b else fallback
    }

    /** `object(forKey: key) as? Int ?? fallback`. */
    function IntOr(key: string, fallback: int): (r: int)
      reads this
      ensures key in values && values[key].IntValue? ==> r == values[key].i
      ensures !(key in values && values[key].IntValue?) ==> r == fallback
    {
      if key in values && values[key].IntValue? then values[key].i else fallback
    }

    /** `string(forKey: key)`. */
    function StringFor(key: string): (r: Option<string>)
      reads this
      ensures r.Some? <==> key in values && values[key].StringValue?
      ensures r.Some? ==> values[key] == StringValue(r.value)
    {
      if key in values && values[key].StringValue? then Some(values[key].s) else None
    }

    /** `set(_:forKey:)`: only that key changes. */
    method Set(key: string, v: Value)
      modifies this
      ensures values == old(values)[key := v]
    {
      values := values[key := v];
    }

    /** `removeObject(forKey:)`: only that key goes. */
    method Remove(key: string)
      modifies this
      ensures values == old(values) - {key}
    {
      values := values - {key};
    }
  }
}

=== FILE: widget_data.dfy ===
/**
 * `WidgetDataService.updateRecentNotes(context:)`: the newest five active
 * or task notes, each cut to 80 characters, written for the widgets to the
 * shared defaults under "recentNotes". The JSON encoding of the list is left
 * abstract: the store holds the decoded items. The relative "time ago"
 * label comes from a formatter and is a parameter.
 */
module WidgetData {
  import opened Wrappers
  import opened Strings
  import opened Ids
  import opened Notes
  import opened NoteStore
  import opened NoteQueries

  const MaxRecentNotes: nat := 5
  const ItemTextLength: nat := 80

  /** `WidgetNoteItem`. */
  datatype WidgetItem = WidgetItem(id: Uuid, text: string, timeAgo: string)

  /** The item for one note: its id, the first 80 characters of its text, its label. */
  function ItemFor(n: Note, timeAgo: int -> string): (item: WidgetItem)
    reads n
    ensures item.id == n.id && item.timeAgo == timeAgo(n.createdAt)
    ensures |item.text| <= ItemTextLength && |item.text| <= |n.text| && item.text == n.text[..|item.text|]
    ensures |n.text| <= ItemTextLength ==> item.text == n.text
  {
    WidgetItem(n.id, Take(n.text, ItemTextLength), timeAgo(n.createdAt))
  }

  /** `notes.map { ... }`: one item per note, in order. */
  function ItemsFor(ns: seq<Note>, timeAgo: int -> string): (items: seq<WidgetItem>)
    reads ns
    ensures |items| == |ns|
    ensures forall i :: 0 <= i < |ns| ==> items[i] == ItemFor(ns[i], timeAgo)
    decreases |ns|
  {
    if |ns| == 0 then [] else [ItemFor(ns[0], timeAgo)] + ItemsFor(ns[1..], timeAgo)
  }

  /** The notes the widget fetch returns: active or task, newest first, at most five. */
  function RecentNotes(all: seq<Note>): (ns: seq<Note>)
    reads all
    ensures |ns| <= MaxRecentNotes && SortedDesc(ns, ByCreatedAt)
    ensures |ns| == if |Select(all, ActiveOrTask)| < MaxRecentNotes then |Select(all, ActiveOrTask)| else MaxRecentNotes
    ensures forall i :: 0 <= i < |ns| ==> ns[i] in all && (ns[i].statusRaw == "active" || ns[i].statusRaw == "task")
    ensures multiset(ns) <= multiset(Select(all, ActiveOrTask))
    ensures |Select(all, ActiveOrTask)| <= MaxRecentNotes ==> multiset(ns) == multiset(Select(all, ActiveOrTask))
    ensures forall n :: n in all && (n.statusRaw == "active" || n.statusRaw == "task") && n !in ns ==>
      forall i :: 0 <= i < |ns| ==> ns[i].createdAt >= n.createdAt
  {
    var ns := NewestFirst(all, ActiveOrTask, MaxRecentNotes);
    assert forall n :: n in all && (n.statusRaw == "active" || n.statusRaw == "task") ==> Selects(ActiveOrTask, n);
    assert forall i :: 0 <= i < |ns| ==> Key(ns[i], ByCreatedAt) == ns[i].createdAt;
    ns
  }

  /** An empty store gives an empty list. */
  lemma EmptyStore(timeAgo: int -> string)
    ensures ItemsFor(RecentNotes([]), timeAgo) == []
  {
  }

  /** The shared defaults as far as the widget data goes. */
  class WidgetStore {
    var recentNotes: Option<seq<WidgetItem>>

    constructor(stored: Option<seq<WidgetItem>>)
      ensures recentNotes == stored
    {
      recentNotes := stored;
    }
  }

  /**
   * `updateRecentNotes(context:)`: a failed fetch or a failed encoding
   * leaves the shared store as it was; otherwise it holds the items for
   * the recent notes.
   */
  method UpdateRecentNotes(ctx: Context, store: WidgetStore, timeAgo: int -> string) returns (written: bool)
    modifies store
    ensures written ==> store.recentNotes == Some(old(ItemsFor(RecentNotes(ctx.All()), timeAgo)))
    ensures !written ==> store.recentNotes == old(store.recentNotes)
  {
    var fetched := *;
    if !fetched {
      return false;
    }
    var items := ItemsFor(RecentNotes(ctx.All()), timeAgo);
    var encoded := *;
    if !encoded {
      return false;
    }
    store.recentNotes := Some(items);
    written := true;
  }
}

=== FILE: wrappers.dfy ===
/** Optional values and failable results, the model's counterparts of Swift's `T?` and `throws`. */
module Wrappers {

  datatype Option<+T> = None | Some(value: T) {

    /** The contained value, or `default` when there is none (Swift's `??`). */
    function GetOr(default: T): T {
      match this
      case Some(v) => v
      case None => default
    }

    predicate IsFailure() {
      None?
    }

    function PropagateFailure<U>(): Option<U>
      requires None?
    {
      None
    }

    function Extract(): T
      requires Some?
    {
      value
    }
  }

  datatype Result<+T, +E> = Ok(value: T) | Err(error: E)
}
